=== FILE: README.md ===
# cfspy core, modelled in Dafny

cfspy is a Discord bot. It watches chat for Codeforces links and answers with
previews of the blog, comment, profile or submission that a link names.
This project models the logic of that bot that is independent of I/O, as
pure Dafny functions, and proves properties about it.

The model covers these parts:

- **The paginated widget** (`bot/widget.go`) is a reaction-driven state
  machine on one sent message. It tracks the current page number, the
  current page, an expanded flag, and the set of control reactions the bot
  has placed. Every handled reaction runs under the widget's mutex, so each
  one is modelled as an atomic step. A step is a pure function from the
  state, the event and a success oracle for network calls (`Net`) to a new
  state and the list of calls it made (`Effect`). A whole run is built from
  these steps: validation, the send, the initial reactions, a sequence of
  events, and the exit on timeout, cancel or delete.
- **Text handling for previews.** This covers:
  - code snippets, with clamping and dedenting (`submission.go`);
  - spoiler stripping, the `<…>` suppression check, comment ids and line
    ranges (`fetch/matchurl.go`);
  - message truncation (`truncate.go`);
  - Discord's length limits (`bot/limits.go`).
- **Command dispatch** (`bot/bot.go`) and the **gateway filters**
  (`bot/filters.go`).
- **The memoised comment-revision getter**, the revision count parser and
  the handle-colour lookup (`fetch/blog.go`). The model also covers
  profile rank defaulting (`fetch/profile.go`).
- **Embed builders** for blogs, comments, profiles and submissions
  (`blog.go`, `profile.go`, `submission.go`).
- **The Codeforces cookie bypass** (`fetch/client.go`). This covers:
  - the restricted cookie jars and the redirect policy;
  - extraction of the `toNumbers("…")` challenge tokens and their checks
    before decryption;
  - the "refetch once after setting the cookie" logic.

## Modelling conventions

- **Strings are byte strings.** A Dafny `string` stands for a Go string,
  one `char` per byte, so `|s|` is Go's `len(s)`. Non-ASCII literals are
  written as their UTF-8 bytes, such as `"\U{E2}\U{80}\U{A2}"` for `•`.
- **Non-ASCII literals in the sources.** The Go files show some literals
  double-encoded, such as `â€¢` for `•` and `âœ…` for `✅`. The model uses
  the UTF-8 bytes of the intended characters.
- **Go's integer semantics are written out.** `strconv.Atoi` returns the
  int64 limit together with an error on overflow (`GoStrings.Atoi`), and
  the line-range code depends on that value. A missing map key reads as
  the zero value (`Submission.Ext`, `ProfileFetch.RankColor`).
- **Nil is `Option`.** Functions that may be nil are modelled as `Option`:
  `GetPage`, the callbacks and `AllowOp`. A panic is an explicit outcome
  (`Crashed`, `Panicked`, `Crash`, `Panic`) rather than an excluded input.
- **Things the model cannot compute are parameters:**
  - network outcomes and fetched pages;
  - the URL regex, given as a span oracle (`Finder`), and `url.Parse`,
    given as `UrlParser`;
  - AES-CBC decryption (`Decrypt`);
  - the one-in-twenty random draw (`lucky`).

## Notes on the source

- **Rejected reactions.** A reaction that is refused makes no call at all,
  not even removing the user's reaction: the symbol and `AllowOp` check in
  `bot/widget.go:223` comes before any call (`Widget.OnReaction`,
  `Widget.RejectedEventsAreSilent`).
- **Profile rank defaulting.** `fetch/profile.go` fills in lower-case ranks
  ("headquarters", "unrated"). `profile.go` compares against "Unrated" and
  "Headquarters". The two files come from different versions, and
  `fetch/profile_test.go` expects yet another, scraping-based fetcher. Each
  file is modelled as written. `ProfileEmbed.DefaultedRankGetsRatingLine`
  states what their composition does: a user without a rank still gets a
  rating line.
- **Tokens keep their quotes.** The comment on `argsRe` in `bot/bot.go`
  says quotes are stripped. The code keeps whole matches, so
  `Commands.Tokens` keeps the quotes.

## Model

| member | source | states |
|---|---|---|
| Widget.Symbol | bot/widget.go:83-89 | Each control's symbol is one UTF-8 encoded character of three or four bytes. |
| Widget.GlyphOf | bot/widget.go:83-97 | An emoji name is recognised as a control exactly when it is one of the five symbols, and the control found has that symbol. |
| Widget.GlyphOfSymbol | bot/widget.go:83-97 | Each control's symbol is recognised as that control. |
| Widget.Validate | bot/widget.go:237-262 | Validation succeeds exactly when GetPage is set, NumPages ≥ 1, PageToShowFirst is in [1, NumPages] and DeactivateAfter ≥ 1s. The first failing check is reported, in source order, down to a lifetime under one second being reported with its value. On success the defaults are filled in: a no-op MsgCallback, an always-true AllowOp, and a no-op DelCallback only when DelBtn is set. |
| Widget.WithDelBtnParams | bot/widget.go:143-164 | SendWithDelBtn's parameters validate exactly when the lifetime is at least a second, and they give one page with a delete callback. |
| Widget.ApplyReactsAppend | bot/widget.go:264-278 | Replaying the recorded-reaction bookkeeping over two call lists is replaying it over their concatenation. |
| Widget.ReactOnMsg | bot/widget.go:264-270 | One react call is made, and the symbol is recorded only if the call succeeds. Nothing else in the state changes. |
| Widget.UnreactOnMsg | bot/widget.go:272-278 | One unreact call is made, and the symbol is dropped only if the call succeeds. Nothing else in the state changes. |
| Widget.Wanted | bot/widget.go:288-295 | The wanted expand/collapse reactions are a subset of {expand, collapse} with at most one element. |
| Widget.RemoveIfUnwanted | bot/widget.go:297-301 | A recorded but unwanted symbol gets one unreact call and leaves the set exactly when that call succeeds. Otherwise no call is made. |
| Widget.AddIfWanted | bot/widget.go:302-306 | A wanted but unrecorded symbol gets one react call and joins the set exactly when that call succeeds. Otherwise no call is made. |
| Widget.FixMoreLess | bot/widget.go:286-307 | Only expand/collapse calls are made, and removals come before additions. Other recorded symbols are unchanged. When every call succeeds, the recorded expand/collapse set is exactly the wanted one. |
| Widget.ShowPage | bot/widget.go:344-363 | An out-of-range target makes no call and no change. A failed edit changes nothing. A successful edit moves to the target page, unexpanded. The page-range invariant and the reaction sync are preserved. |
| Widget.ExpandPage | bot/widget.go:309-325 | With no expansion, or when already expanded, nothing happens. A failed edit changes nothing. A successful edit sets expanded, and only when the page has an expanded render. |
| Widget.CollapsePage | bot/widget.go:327-342 | Collapsing does nothing unless the page is expanded. A failed edit changes nothing. A successful edit clears expanded. |
| Widget.RepeatedExpandMakesNoEdit | bot/widget.go:309-312 | Expanding an already expanded page makes no call. |
| Widget.HandleControl | bot/widget.go:365-394 | Delete removes the message, calls DelCallback and cancels, and does not remove the user's reaction. It crashes when DelCallback is nil. Any other control first removes the user's reaction, then runs its transition: previous shows page −1, next shows page +1, expand expands and collapse collapses. Invariant and sync are preserved. |
| Widget.OnReaction | bot/widget.go:217-226 | An event for another message, with an unknown emoji, or refused by AllowOp makes no call and no change. Any other event is handled as its control. |
| Widget.ReactControls | bot/widget.go:208-215 | Start-up reacts only with delete, previous and next. With all calls successful, the recorded set gains exactly the controls the config asks for. |
| Widget.Start | bot/widget.go:194-215 | The send fails exactly when the send call fails, and then nothing else happens. Otherwise MsgCallback runs before any react. The state starts on PageToShowFirst, unexpanded, satisfying the invariant, and in sync when all calls succeed. |
| Widget.Finish | bot/widget.go:228-234 | The widget's own deadline with a live caller gives nil and cleans up every recorded reaction. A delete (cancel) or a caller error gives the caller's error without cleanup. |
| Widget.RunEvents | bot/widget.go:217-226 | A run over no events changes nothing, and the message id is kept. |
| Widget.RunEventsKeepsInv | bot/widget.go:344-363 | Over any sequence of events the page number stays in [1, NumPages], and expanded implies an expanded render. |
| Widget.RunEventsKeepsSync | bot/widget.go:286-307 | When every call succeeds, the recorded reactions match the controls and the current page after any sequence of events. |
| Widget.OnReactionKeepsSync | bot/widget.go:365-394 | One handled event keeps the recorded reactions in sync when every call succeeds. |
| Widget.RejectedEventsAreSilent | bot/widget.go:223 | Events that AllowOp refuses, or that are for another message, make no call and change nothing. |
| Widget.NoCrashWithDelCallback | bot/widget.go:370-375 | A run can crash only when DelCallback is nil. |
| Widget.RunConfig | bot/widget.go:185-235 | Invalid parameters return their error with no call. A panic needs a nil DelCallback. Cleanup happens only with a live caller context. A caller error returns that error, or the send error, without cleanup. |
| Widget.ErrOf | bot/widget.go:228-234 | The returned error is nil exactly when the caller's context has no error, and is that error otherwise. |
| Widget.Run | bot/widget.go:185-235 | A run panics only when DelBtn is off and DelCallback is nil. Invalid parameters return the validation error. |
| Widget.TimeoutCleansUp | bot/widget.go:228-234 | On timeout with a live caller, the run returns nil after unreacting every recorded symbol, and its final state satisfies the invariant (and is in sync when all calls succeed). |
| Widget.DeleteReturnsNil | bot/widget.go:228-234 | After a delete, the run returns nil with no cleanup. |
| Widget.DeleteWithoutButtonPanics | bot/widget.go:255-257 | Without DelBtn and without DelCallback, a permitted delete reaction makes the run panic after deleting the message. |
| Widget.ValidateIntended | bot/widget.go:237-262 | The corrected validation accepts the same parameters and always leaves a DelCallback. It agrees with the original whenever DelBtn or DelCallback is set. |
| Widget.RunIntended | bot/widget.go:185-235 | A run with the corrected validation never panics. It equals the original run whenever DelBtn or DelCallback is set. |
| Submission.Ext | submission.go:15-53 | The code-block language tag is the mapped extension, or empty for an unmapped language. |
| Submission.ClampInRangeMonotone | submission.go:180-187 | For a non-empty range, clamp lands in the range and preserves order. |
| Submission.Clamp | submission.go:180-187 | clamp gives low below the range, high above it, and x itself inside. |
| Submission.Indent | submission.go:155-162 | The indentation is the number of leading spaces and tabs: all of them, and no more. |
| Submission.MinIndent | submission.go:153-163 | The computed indentation is at most MaxInt32 and at most every text line's indentation. It is attained by some text line, unless it is the MaxInt32 cap. |
| Submission.Dedent | submission.go:164-172 | Each line loses its first k bytes, or becomes empty when it is no longer than k. |
| Submission.DedentRemovesOnlyBlanks | submission.go:153-172 | Dedenting by the minimum indentation removes only spaces and tabs from the front of each line. |
| Submission.DedentKeepsText | submission.go:153-172 | When some line has text indented by at most MaxInt32, some dedented line starts with text. |
| Submission.CodeLines | submission.go:146-147 | The lines contain no newline, there is at least one, and joining them with newlines gives the code with `\r\n` normalised. |
| Submission.CodeLinesOfCrlf | submission.go:146-147 | Lines without `\r` or `\n`, joined with `\r\n`, are read back as exactly those lines. |
| Submission.OrderedIsSliceable | submission.go:148-149 | Bounds with begin ≤ end are still ordered after clamping, so the slice cannot panic. |
| Submission.SelectedLines | submission.go:148-149 | Both bounds are clamped to [1, number of lines], and the selection is exactly that slice of the lines. It is non-empty when begin ≤ end. |
| Submission.FormatSnippet | submission.go:164-177 | The error is "Selected lines are empty" exactly when every dedented line is empty. Otherwise the result is the fence, the extension, a newline, the lines joined by newlines, and the fence. |
| Submission.SnippetErrIffBlank | submission.go:153-175 | The selection is rejected exactly when every selected line is blank and no longer than the MaxInt32 cap. |
| Submission.MakeCodeSnippet | submission.go:145-178 | The snippet is an error exactly when every clamped, selected line is blank. Otherwise it is the code block of the dedented selection. |
| Submission.FormatSnippetReadsBack | submission.go:177 | A code block splits back, between its header line and closing fence, into the dedented lines. |
| Submission.SnippetLines | submission.go:145-178 | A submission snippet reads back as its selected, dedented lines. |
| Submission.Handles | submission.go:120-127 | The team's handles are listed in member order. |
| Submission.AuthorAndColor | submission.go:115-128 | The author takes precedence, with its own colour. Then comes the ghost, with the ghost suffix and 0x999999. Then the team, as "Name: …" with 0x666666. Otherwise the author is empty, with colour 0. |
| Submission.TeamAuthorText | submission.go:120-127 | After "Name: ", a team's author text splits at commas into its handles, each after the first led by one space. |
| Submission.JoinCommaSpace | submission.go:120-127 | Joining with ", " is joining with "," the handles after the first, each prefixed with a space. |
| Submission.LanguageLabel | submission.go:132-137 | "Unknown" is shown as "Unknown language", and any other language as is. |
| Submission.SubmissionDescription | submission.go:140 | The description reads back into its parts: the verdict and a bullet (with the check mark in front exactly when accepted), then the participant type, then a bullet and the language label. |
| Submission.DescriptionInOrder | submission.go:140 | The description is the optional check mark, verdict, bullet, participant type, bullet and language label, in that order. |
| Submission.DescriptionEnds | submission.go:130-140 | The description starts with the verdict and a bullet, with the check mark in front exactly for an accepted verdict, and ends with a bullet and the language label. |
| Submission.MakeSubmissionEmbed | submission.go:108-143 | The title is "Submission for <problem> by <author>", in the author's colour, with the URL and time copied. The description is the optional check mark, the verdict, the participant type and the language label, separated by bullets. The check mark is prefixed exactly for an accepted or "Perfect result" verdict. The author, thumbnail, image, footer and fields stay blank, as in the Go literal. |
| Submission.HandleSubmissionURL | submission.go:75-106 | A fetch error gives an error reply naming the URL. With no line numbers the reply is the summary. Otherwise it is the snippet, the empty-selection error, or, when the snippet is over 2000 bytes, the summary saying the lines are too large. A preview's content is never too long. |
| Submission.ParsedMatchesHandled | submission.go:75-106 | Every match from ParseSubmissionURLs has ordered line numbers and can be handled without a panic. |
| MatchURL.RemoveSpoilersDeletesOnly | fetch/matchurl.go:97-116 | The result is obtained from the input only by deleting bytes, and text without a spoiler marker (two vertical bars) is returned unchanged. |
| MatchURL.RemoveSpoilers | fetch/matchurl.go:96-116 | Text without a spoiler marker is returned unchanged. |
| MatchURL.AfterOpen | fetch/matchurl.go:106-112 | After an opening marker with no closing one, the marker and the rest are kept. |
| MatchURL.RemovePairedSpoiler | fetch/matchurl.go:106-113 | A span between two spoiler markers is removed together with both markers, and the text around it is kept. This holds whenever the text before each marker has no marker of its own, including none straddling the marker (a trailing bar). |
| MatchURL.KeepUnmatchedMarker | fetch/matchurl.go:108-112 | An unmatched final spoiler marker is kept, together with everything after it, whenever the text before it has no marker, including none straddling it. |
| MatchURL.EmbedsSuppressed | fetch/matchurl.go:118-122 | A match is suppressed exactly when the byte before it is `<` and the byte after it is `>`. |
| MatchURL.BracketedIsSuppressed | fetch/matchurl.go:120-122 | A match enclosed in `<` and `>` is suppressed. One at the start of the text, or one running to its end, is not. |
| MatchURL.Kept | fetch/matchurl.go:21-33 | A match is kept exactly when it is not suppressed and its URL parses. The kept record is the matched text and its parse. |
| MatchURL.KeepMatches | fetch/matchurl.go:21-39 | At most one result per span. A single span gives its kept form, or nothing when it is dropped. |
| MatchURL.KeepMatchesKeepsSpan | fetch/matchurl.go:21-39 | Every span that is kept appears in the result, right after the results of the spans before it, so kept matches are returned in left-to-right order. |
| MatchURL.KeepMatchesFromSpans | fetch/matchurl.go:21-39 | Every result is the kept form of some span: the lemma names the span each result came from. |
| MatchURL.KeepMatchesAppend | fetch/matchurl.go:21-39 | Filtering preserves left-to-right order: the filtered matches of two span lists concatenate. |
| MatchURL.LeadingDigits | fetch/matchurl.go:35-38 | The leading run of decimal digits is a prefix, all digits, and stops at the first non-digit. |
| MatchURL.CommentId | fetch/matchurl.go:35-38 | The comment id is empty exactly when the fragment has no `comment-<digit>`. Otherwise it is the digit run after the leftmost such occurrence. |
| MatchURL.CommentIdOfDecimal | fetch/matchurl.go:35-38 | The fragment `comment-<n>` yields the id n. |
| MatchURL.LineMatch | fetch/matchurl.go:80 | A line-number match exists exactly when the fragment has `L<digit>`. Its groups are read after the leftmost such `L`. |
| MatchURL.LineRange | fetch/matchurl.go:80-90 | No match gives (0, 0). `L<a>` gives (a, a). `L<a>-L<b>` gives the ordered pair. An out-of-range second number gives (a, a), and an out-of-range first number gives (0, MaxInt64), as Go's Atoi dictates. The result is always ordered. |
| MatchURL.LineRangeOfOneLine | fetch/matchurl.go:80-90 | The fragment `L<n>` gives the range (n, n). |
| MatchURL.LineRangeOfRange | fetch/matchurl.go:80-90 | The fragment `L<a>-L<b>` gives (a, b) or (b, a), whichever is ordered. |
| MatchURL.BlogMatches | fetch/matchurl.go:31-39 | Each kept blog match keeps its URL, and its comment id is read from its fragment. |
| MatchURL.ParseBlogURLs | fetch/matchurl.go:20-42 | Blog matches are taken from the spoiler-free text, in order, and every comment id is all digits. |
| MatchURL.ParseProblemURLs | fetch/matchurl.go:45-62 | Problem matches are the kept matches of the spoiler-free text, in order. |
| MatchURL.ParseSubmissionURLs | fetch/matchurl.go:65-94 | Submission matches are the kept matches in order, each with the line range of its fragment, so begin ≤ end. |
| Truncate.TruncateMessage | truncate.go:11-19 | Up to 400 bytes is unchanged. Longer text becomes its first 300 bytes followed by "…". The result is at most 400 bytes, and strictly shorter when changed. |
| Truncate.TruncateIdempotent | truncate.go:4-19 | Truncating twice is truncating once. |
| Truncate.TruncateChangesOnlyLong | truncate.go:11-19 | Text is left unchanged exactly when it is at most 400 bytes long. |
| Limits.ContentTooLong | bot/limits.go:20-23 | Content is too long exactly when cutting it to 2000 bytes would lose bytes. |
| Limits.EmbedDescriptionTooLong | bot/limits.go:25-29 | A description is too long exactly when cutting it to 2048 bytes would lose bytes. Such a description would also be too long as content. |
| Limits.ContentLimitBoundary | bot/limits.go:8-23 | Content is too long exactly above 2000 bytes, so exactly 2000 bytes is accepted. |
| Limits.DescriptionOnlyMatters | bot/limits.go:27-29 | Only the description's length decides, with a limit of 2048 bytes. |
| Filters.MaybeTypePanic | bot/filters.go:45-49 | It panics naming the expected type exactly when the type assertion failed. |
| Filters.FilterMsgCreateNotBot | bot/filters.go:11-18 | It passes a message unchanged exactly when its author is set and not a bot. It drops other messages, and panics on other events. |
| Filters.FilterMsgCreatePrefix | bot/filters.go:21-30 | It passes a message unchanged exactly when its content starts with the prefix. It drops other messages, and panics on other events. |
| Filters.FilterReactionAddForMsg | bot/filters.go:34-43 | It passes a reaction unchanged exactly when it is for the given message. It drops other reactions, and panics on other events. |
| Commands.WordLength | bot/bot.go:40 | A bare token is the longest run of non-space bytes. |
| Commands.QuotedLength | bot/bot.go:40 | A quoted token opens and closes with a quote and has at least one non-quote byte between. |
| Commands.Tokens | bot/bot.go:95-99 | Every argument token is non-empty. |
| Commands.TokensOfWords | bot/bot.go:95-99 | Plain words separated by single spaces tokenise back into those words. |
| Commands.WordTokens | bot/bot.go:95-99 | A plain word followed by whitespace is the first token, and the tokens continue after it. |
| Commands.FullUsage | bot/bot.go:174-179 | The usage is the id alone when Usage is empty, else the id, a space and Usage. |
| Commands.IncorrectUsageMsg | bot/bot.go:183-185 | The message is "Incorrect usage, expected `" followed by the full usage and a backquote. |
| Commands.AddCommand | bot/bot.go:82-85 | The command is appended to the list and found under its id. Lookups of other ids are unchanged. |
| Commands.Lookup | bot/bot.go:109-111 | A command is found exactly when some registered command has the id, and the one found has it. |
| Commands.CommandId | bot/bot.go:100 | The id is the first token with the prefix's length cut off. There is none (a slice panic) when there are no tokens or the first is shorter than the prefix. |
| Commands.SafePrefixGivesId | bot/bot.go:95-100 | With a prefix of plain bytes, a prefixed message always has an id, and its first token starts with the prefix. |
| Commands.Rejection | bot/bot.go:132-149 | An empty id gives "Missing command, …". Any other id gives "Unknown command `id`, …". Both point to the prefixed help usage. |
| Commands.MaybeHandleCommand | bot/bot.go:87-120 | Messages without a human author or without the prefix are ignored. Otherwise a registered command runs with the tokens, then "help" goes to help, then any other id is rejected with the rejection text. A first token shorter than the prefix crashes. |
| Commands.DispatchOrder | bot/bot.go:109-119 | Registered commands come before help, and help comes before rejection. |
| Commands.HelpFields | bot/bot.go:151-171 | There is one inline field per command, in AddCommand order, then help last. |
| Commands.BuildHelpEmbed | bot/bot.go:151-171 | The title is the bot name, the description is Desc followed by "\nSupported commands:", and the fields are the help fields. The URL, colour, author, thumbnail, image, footer and timestamp stay blank. |
| Commands.HelpAfterAdd | bot/bot.go:82-85 | Adding a command inserts its field just before the help field. |
| Commands.SendHelp | bot/bot.go:122-130 | Help with more than one token answers with the incorrect-usage message, and otherwise with the help embed. |
| Commands.HandlerRuns | bot/bot.go:64-79 | An OnMessageCreate handler runs exactly for the messages the not-bot filter passes. |
| CommentFetch.NewGetter | fetch/blog.go:131-134 | Only the latest revision is cached, taken from the page itself. |
| CommentFetch.Get | fetch/blog.go:136-156 | A revision outside [1, RevisionCount] gives the range error with no fetch. A cached revision is returned without a fetch. Otherwise the revision is fetched: an error is returned with nothing cached, and a success is cached as that revision of the comment. Coherence is preserved. |
| CommentFetch.LatestWithoutFetch | fetch/blog.go:131-134 | The latest revision is returned without a fetch. |
| CommentFetch.SecondGetIsCached | fetch/blog.go:141-155 | A revision answered once is answered again from the cache, without a fetch. |
| CommentFetch.GetAll | fetch/blog.go:136-156 | A session answers every request, keeps the base, and only grows a coherent cache. |
| CommentFetch.FetchedAtMostOnce | fetch/blog.go:141-155 | Over any session, each revision is stored at most once, and only when it was not cached before. |
| CommentFetch.AnswersMatchRequests | fetch/blog.go:150-153 | Every successful answer is the requested revision of the same comment. |
| CommentFetch.ParseCommentRevision | fetch/blog.go:160-166 | A missing attribute or one Atoi rejects gives 1. Otherwise the result is Atoi's value, so any digit string gives its number, and the result is an int64. |
| CommentFetch.ParseCommentRevisionOfDecimal | fetch/blog.go:160-166 | A decimal attribute gives its number. |
| CommentFetch.ParseHandleColor | fetch/blog.go:228-237 | The result is the colour of the first class in the table, or 0 when none is. |
| CommentFetch.ParseHandleColorIgnoresRest | fetch/blog.go:228-237 | Classes after the first known one do not matter. |
| ProfileFetch.RankColor | fetch/profile.go:5-17 | A rank's colour comes from the table, and is 0 for a rank not in it. |
| ProfileFetch.DefaultRank | fetch/profile.go:31-37 | A missing rank becomes "headquarters" for MikeMirzayanov and "unrated" otherwise. A present rank is kept. |
| ProfileFetch.Profile | fetch/profile.go:25-44 | A fetch error is passed through. Otherwise the info has the defaulted user, the rank's colour and the matched URL. |
| ProfileFetch.DefaultRankIdempotent | fetch/profile.go:31-37 | Defaulting twice is defaulting once. |
| ProfileFetch.DefaultedProfileIsBlack | fetch/profile.go:31-40 | A user without a rank gets colour 0. |
| ProfileEmbed.MakeProfileEmbed | profile.go:64-76 | The description is the rank alone exactly when the rank is "Unrated" or "Headquarters", compared case-sensitively. Otherwise the rank is followed by the rating line. Title, URL, thumbnail and colour are copied. |
| ProfileEmbed.DefaultedRankGetsRatingLine | profile.go:65-67 | A user the fetcher gave a default rank still gets a rating line. |
| ProfileEmbed.RatingLineReadsBack | profile.go:66-67 | The rating line's two numbers read back as the rating and the maximum rating. |
| BlogEmbed.Score | blog.go:69 | The footer starts with "Score ". |
| BlogEmbed.ScoreReadsBack | blog.go:69 | The score reads back as the rating, with an explicit sign. |
| BlogEmbed.MakeBlogEmbed | blog.go:55-73 | The author line is the handle followed by "'s blog", and the footer is the score. Title, URL, colour, thumbnail and time are copied. |
| BlogEmbed.RevisionSuffix | blog.go:104-108 | The revision suffix is empty exactly when RevisionCount ≤ 1. |
| BlogEmbed.UpdateEmbedIfCommentTooLong | blog.go:134-143 | A description over 2048 bytes is replaced by one of the two fixed texts, and any other is kept. Nothing else changes, and the result is never too long. |
| BlogEmbed.MakeCommentEmbed | blog.go:103-132 | The footer is the score, with a revision suffix exactly when RevisionCount > 1. The image is the first image exactly when there are images. The description is the content when it fits, and otherwise the marvelous text when lucky and the too-large text when not. |
| BlogEmbed.CommentPagesNameTheirRevision | blog.go:103-108 | A page built from the getter's answer names the requested revision and the count. |
| Client.NewRestrictedJar | fetch/client.go:58-65 | The jar allows exactly the given cookie names. |
| Client.AllowedCookies | fetch/client.go:67-73 | Exactly the allowed cookies are kept, in their original order. |
| Client.AllowedCookiesAppend | fetch/client.go:67-73 | Filtering distributes over concatenation. |
| Client.SetCookies | fetch/client.go:67-77 | The underlying jar is not called exactly when no cookie is allowed. Otherwise it receives the allowed cookies in order. |
| Client.RCPCPassesBothJars | fetch/client.go:23-35 | The RCPC cookie passes both the scraper jar and the browser jar. |
| Client.RedirectMessage | fetch/client.go:83-85 | The message is "Redirect from ", the source URL, " to " and the target URL. |
| Client.RedirectPolicy | fetch/client.go:79-89 | Every redirect is refused, naming the last URL in `via` and the new URL. |
| Client.HexRun | fetch/client.go:94-98 | A token's digits are the longest run of `[0-9a-f]`. |
| Client.FirstMatch | fetch/client.go:94-98 | The leftmost occurrence of the `v=toNumbers("…")` pattern is found. |
| Client.Submatch | fetch/client.go:102-116 | A token is found exactly when the pattern occurs. It is the non-empty hex run inside the leftmost occurrence. |
| Client.SubmatchOfToken | fetch/client.go:94-98 | `v=toNumbers("<digits>")` yields exactly those digits. |
| Client.ChallengeTokens | fetch/client.go:102-130 | Failures are "a not found", "b not found" and "c not found", in that order. The three tokens are then hex-decoded in the order a, c, b, and the first decoding error is returned. |
| Client.SetRCPCCookie | fetch/client.go:100-150 | A ciphertext length that is not a multiple of 16 is rejected. A key of invalid size fails with "crypto/aes: invalid key size <n>", and an IV of the wrong size panics. Success sets one cookie RCPC with path "/", whose value is lower-case hex that decodes to the decrypted bytes. |
| Client.ScriptText | fetch/client.go:172 | The text of no scripts is empty, and the text of one script is that script. |
| Client.ScriptTextAppend | fetch/client.go:172 | The text of a list of scripts is the text of its first part followed by the text of the rest. |
| Client.AfterChallenge | fetch/client.go:172-175 | A set cookie leads to exactly one refetch. A failed bypass reports its error, and a panic propagates. |
| Client.ScraperGetDoc | fetch/client.go:163-176 | A page with more than two scripts is used as is. Otherwise the cookie is set and the page refetched once. There are at most two fetches, and two exactly when a cookie was set. |
| Client.BypassTriedOnce | fetch/client.go:168-175 | After a successful bypass, the refetched page is returned even if it still looks like a challenge. |
| GoStrings.Index | fetch/matchurl.go:102-108 | The first occurrence of the marker is found, or none exists. |
| GoStrings.Split | submission.go:147 | Splitting gives at least one part, with no separator in any part, and joins back to the input. |
| GoStrings.SplitJoin | submission.go:147-177 | Splitting joined parts that have no separator gives the parts back. |
| GoStrings.NormalizeNewlines | submission.go:146 | Normalising only shortens, keeps newlines, and leaves text without `\r\n` unchanged. |
| GoStrings.NormalizeAtFirstCrlf | submission.go:146 | The first `\r\n` becomes `\n`, the text before it is kept, and normalisation resumes after it, so replacements do not overlap. |
| GoStrings.NormalizeCrlfJoin | submission.go:146 | Lines without `\r` joined by `\r\n` normalise to the same lines joined by `\n`. |
| GoStrings.Atoi | fetch/matchurl.go:82-84 | A digit string parses exactly when its value fits in int64. On overflow the value is the int64 maximum. |
| GoStrings.AtoiOfDecimal | fetch/blog.go:160-166 | The decimal rendering of an int64 parses back to it. |
| GoStrings.HexDecode | fetch/client.go:119-130 | Decoding succeeds exactly for an even-length hex string, and gives half as many bytes. Otherwise the error names the first non-hex byte, or else is "encoding/hex: odd length hex string". |
| GoStrings.FirstNonHex | fetch/client.go:119-130 | The position holds a non-hex byte, and every byte before it is a hex digit. |
| GoStrings.InvalidByteText | fetch/client.go:119-130 | The message of an invalid byte starts "encoding/hex: invalid byte: U+". |
| GoStrings.InvalidByteTextOfG | fetch/client.go:119-130 | The byte 'g' gives "encoding/hex: invalid byte: U+0067 'g'". |
| GoStrings.HexEncode | fetch/client.go:144 | Encoding gives two lower-case hex digits per byte. |
| GoStrings.LowerHexEncodesBack | fetch/client.go:144 | Lower-case hex of even length is the encoding of the bytes it decodes to, so it is the only encoding of those bytes. |
| GoStrings.IntToDecimal | blog.go:107 | The rendering is non-empty, starts with "-" exactly for a negative number, and is otherwise digits. |
| GoStrings.SignedDecimal | blog.go:69 | The rendering starts with "-" for a negative number and "+" otherwise, followed by at least one digit. |
| GoStrings.SignedIsPlainWithSign | blog.go:69 | `%+d` differs from `%v` only by the "+" before a non-negative number. |
| GoStrings.Join | submission.go:177 | Joining no parts gives "", one part gives that part, and more parts start with the first part and the separator. |
| GoStrings.HexRoundTrip | fetch/client.go:142-148 | Hex decoding inverts hex encoding. |

## Left out

- Goroutines, the widget mutex, contexts and `manualCtrl`
  (`bot/widget.go:191, 218-229, 366-380`) are left out. Each handled event
  is an atomic step. Timeout, cancel and the caller's error are inputs to
  `Widget.Finish`. Handlers already running when a delete cancels the
  widget are not modelled.
- Discord and HTTP I/O is left out: the Messager, `bot/context.go`,
  `bot/client.go`, `fetch`, `scraperGetDoc`, `fetchCommentBrowser`,
  `common.go`, `ping.go`, `servercount.go`, `status.go`, `main.go` and
  `features.go`. Sends, edits, reacts and fetches are effects whose
  outcome is a parameter. This includes the mapping of a redirect to
  "Page not found".
- The Go `regexp` engine for URLs is left out, as is `url.Parse`. Matches
  come from a span oracle (`MatchURL.Finder`) and parsing from
  `MatchURL.UrlParser`. The fragment patterns `comment-(\d+)` and
  `L(\d+)(?:-L(\d+))?`, the argument pattern and the `toNumbers` pattern
  are modelled concretely.
- HTML scraping and markdown conversion are left out: `fetch/submission.go`,
  `fetch/problem.go`, `getCommentContent`, `parseTime`,
  `withCodeforcesHost` and `fetch/urlutil.go`. Their results (`Body`,
  `SubmissionInfo`, `User`, `Doc`) are inputs.
- `parseHandleColor` reads the class attribute with `strings.Fields`.
  `CommentFetch.ParseHandleColor` takes the list of class tokens directly.
- AES-CBC decryption is the `Client.Decrypt` parameter.
- The random one-in-twenty choice is the `lucky` parameter.
- The message text of `LifetimeTooShort` is left out. Its duration
  formatting is Go's `time.Duration.String`, and the model keeps the
  duration as a number.
- Older duplicates are left out: root `bot.go`, `widget.go`, `comment.go`,
  `common.go`, `bypass.go`, `discordutil.go`, `bot/embed.go` and
  `fetch/commonparse.go`. So is `problem.go`, a one-line record build.
- Nil pointers inside fetched records and events (beyond a missing author)
  are not modelled. Go would panic on them.
- `Commands.Tokens` states only that tokens are non-empty. The full
  tokenisation is given by its definition together with `WordLength` and
  `QuotedLength`. Its round trip is proved only for plain words
  (`TokensOfWords`).
- `Submission.MakeCodeSnippet` requires the clamped bounds to be ordered
  (`Sliceable`). Otherwise Go's slice expression panics. Every match from
  `ParseSubmissionURLs` meets this (`ParsedMatchesHandled`).
- `Client.RedirectPolicy` requires a non-empty `via`. The HTTP client
  always passes one, and the source would panic on an empty one.
- `Widget.RunEvents` states only the empty run and the kept message id in
  its own contract. What a run preserves is stated by `RunEventsKeepsInv`,
  `RunEventsKeepsSync`, `RejectedEventsAreSilent` and
  `NoCrashWithDelCallback`.
- `Submission.CheckMark`, `Submission.GhostMark`, `Submission.Bullet` and
  `BlogEmbed.Separator` hold the UTF-8 bytes of the intended characters
  (✅, 👻, •). The Go files show these literals double-encoded, and the
  model does not copy those bytes.
- `BlogEmbed.Score` states only the prefix. The signed number is stated by
  `ScoreReadsBack`.

## Findings

| source | as written | input that shows it | evidently intended | confidence | as-written member | corrected member |
|---|---|---|---|---|---|---|
| bot/widget.go:255-257 | DelCallback gets its no-op default only when DelBtn is set. A delete reaction is still dispatched and calls DelCallback unconditionally (bot/widget.go:370-375). | A widget with DelBtn false and DelCallback nil. A user adds 🗑 to the widget's message, and AllowOp accepts it. | DelCallback defaults to a no-op whatever DelBtn is, so a delete never calls a nil function. | not executed | Widget.DeleteWithoutButtonPanics | Widget.RunIntended |

=== FILE: blog_embed.dfy ===
/** blog.go: the blog and comment embeds. */
module BlogEmbed {
  import opened Wrappers
  import opened GoStrings
  import opened Embeds
  import opened Limits
  import opened CommentFetch

  /** fetch.BlogInfo; the creation time is an abstract instant. */
  datatype BlogInfo = BlogInfo(
    title: string,
    creationTime: int,
    authorHandle: string,
    authorAvatar: string,
    authorColor: int,
    rating: int,
    url: string)

  const ScorePrefix: string := "Score "

  /** The footer's score: the rating with its sign always written, as `%+d` does. */
  function Score(rating: int): (r: string)
    ensures HasPrefix(r, ScorePrefix)
  {
    ScorePrefix + SignedDecimal(rating)
  }

  /** The score in a footer reads back as the rating, sign included. */
  lemma ScoreReadsBack(rating: int)
    requires MinInt64 <= rating <= MaxInt64
    ensures Atoi(Score(rating)[|ScorePrefix|..]) == Parsed(rating, true)
    ensures Score(rating)[|ScorePrefix|] == (if rating < 0 then '-' else '+')
  {
    var s := Score(rating)[|ScorePrefix|..];
    assert s == SignedDecimal(rating);
    if rating < 0 {
      assert s == IntToDecimal(rating);
      AtoiOfDecimal(rating);
    } else {
      var d := NatToDecimal(rating);
      assert s == "+" + d && s[1..] == d;
      DecimalRoundTrip(rating);
    }
  }

  /** makeBlogEmbed. */
  function MakeBlogEmbed(b: BlogInfo): (e: Embed)
    ensures e.title == b.title && e.url == b.url && e.color == b.authorColor
    ensures e.authorName.Some? && HasPrefix(e.authorName.value, b.authorHandle) &&
      e.authorName.value[|b.authorHandle|..] == "'s blog"
    ensures e.thumbnail == Some(b.authorAvatar) && e.timestamp == Some(b.creationTime)
    ensures e.footer == Some(Score(b.rating))
    ensures e.description == "" && e.image.None? && e.fields == []
  {
    Blank.(title := b.title, url := b.url, authorName := Some(b.authorHandle + "'s blog"),
           thumbnail := Some(b.authorAvatar), timestamp := Some(b.creationTime),
           footer := Some(Score(b.rating)), color := b.authorColor)
  }

  /** The separator before the revision in a comment footer: two spaces, a bullet, two spaces. */
  const Separator: string := "  \U{E2}\U{80}\U{A2}  "

  function RevisionSuffix(c: CommentInfo): (r: string)
    ensures r == "" <==> c.revisionCount <= 1
  {
    if c.revisionCount > 1
    then Separator + "Revision " + IntToDecimal(c.revision) + "/" + IntToDecimal(c.revisionCount)
    else ""
  }

  const MarvelousText: string :=
    "I have discovered this truly marvelous comment, which this embed is too narrow to contain."
  const TooLargeText: string := "The comment is too large to display."

  /**
   * updateEmbedIfCommentTooLong. `lucky` stands for the one-in-twenty random
   * draw that picks the rarer text.
   */
  function UpdateEmbedIfCommentTooLong(e: Embed, lucky: bool): (r: Embed)
    ensures !EmbedDescriptionTooLong(r)
    ensures !EmbedDescriptionTooLong(e) ==> r == e
    ensures EmbedDescriptionTooLong(e) ==>
      r.description == (if lucky then MarvelousText else TooLargeText)
    ensures r.(description := e.description) == e
  {
    if EmbedDescriptionTooLong(e) then
      e.(description := if lucky then MarvelousText else TooLargeText)
    else e
  }

  /** makeCommentEmbed. */
  function MakeCommentEmbed(c: CommentInfo, lucky: bool): (e: Embed)
    ensures e.title == c.blogTitle && e.url == c.url && e.color == c.authorColor
    ensures e.authorName == Some("Comment by " + c.authorHandle)
    ensures e.thumbnail == Some(c.authorAvatar) && e.timestamp == Some(c.creationTime)
    ensures e.footer.Some? && HasPrefix(e.footer.value, Score(c.rating))
    ensures e.footer.Some? && (e.footer.value == Score(c.rating) <==> c.revisionCount <= 1)
    ensures e.image.Some? <==> c.images != []
    ensures e.image.Some? ==> e.image.value == c.images[0]
    ensures !EmbedDescriptionTooLong(e)
    ensures |c.content| <= DescriptionCharLimit ==> e.description == c.content
    ensures |c.content| > DescriptionCharLimit ==> e.description == (if lucky then MarvelousText else TooLargeText)
    ensures e.fields == []
  {
    var embed := Blank.(title := c.blogTitle, url := c.url,
                        authorName := Some("Comment by " + c.authorHandle),
                        description := c.content, thumbnail := Some(c.authorAvatar),
                        timestamp := Some(c.creationTime),
                        footer := Some(Score(c.rating) + RevisionSuffix(c)),
                        color := c.authorColor);
    var withImage := if |c.images| > 0 then embed.(image := Some(c.images[0])) else embed;
    UpdateEmbedIfCommentTooLong(withImage, lucky)
  }

  /**
   * A page of the comment preview built from what a coherent getter
   * answered names, in its footer, the revision asked for out of the count.
   */
  lemma CommentPagesNameTheirRevision(g: Getter, revision: int, fetch: Result<Body, string>, lucky: bool)
    requires Coherent(g) && g.base.revisionCount > 1
    requires Get(g, revision, fetch).result.Ok?
    ensures var e := MakeCommentEmbed(Get(g, revision, fetch).result.value, lucky);
      e.footer.Some? &&
      e.footer.value == Score(g.base.rating) + Separator + "Revision " + IntToDecimal(revision) + "/" +
        IntToDecimal(g.base.revisionCount)
  {
    var c := Get(g, revision, fetch).result.value;
    assert c.revision == revision && c.revisionCount == g.base.revisionCount && c.rating == g.base.rating;
    var e := MakeCommentEmbed(c, lucky);
    assert RevisionSuffix(c) == Separator + "Revision " + IntToDecimal(revision) + "/" +
      IntToDecimal(g.base.revisionCount);
    assert e.footer.value == Score(c.rating) + RevisionSuffix(c);
  }
}

=== FILE: client.dfy ===
/**
 * fetch/client.go: the cookie jars that keep only chosen cookies, the
 * redirect policy, and the RCPC cookie bypass. The HTTP transport, the
 * underlying cookie jar and AES itself are outside the model: fetch
 * outcomes and the decryption are parameters.
 */
module Client {
  import opened Wrappers
  import opened GoStrings

  datatype Cookie = Cookie(name: string, value: string, path: string)

  /** restrictedJar: the names it lets through to the wrapped jar. */
  datatype RestrictedJar = RestrictedJar(allowed: set<string>)

  /** newRestrictedJar. */
  function NewRestrictedJar(names: seq<string>): (j: RestrictedJar)
    ensures forall n :: n in j.allowed <==> n in names
  {
    RestrictedJar(set n | n in names)
  }

  /** The jar of the ordinary scraper, and of the one that sends a browser user agent. */
  const ScraperJar: RestrictedJar := NewRestrictedJar(["RCPC"])
  const BrowserJar: RestrictedJar := NewRestrictedJar(["JSESSIONID", "RCPC"])

  /** `a` is `b` with some elements left out and the rest in their order. */
  predicate Embedded<T(==)>(a: seq<T>, b: seq<T>)
    decreases |b|
  {
    if a == [] then true
    else if b == [] then false
    else (a[0] == b[0] && Embedded(a[1..], b[1..])) || Embedded(a, b[1..])
  }

  /** The cookies whose name is allowed, in their original order. */
  function AllowedCookies(allowed: set<string>, cookies: seq<Cookie>): (r: seq<Cookie>)
    ensures forall c :: c in r <==> c in cookies && c.name in allowed
    ensures Embedded(r, cookies)
  {
    if cookies == [] then []
    else
      var rest := AllowedCookies(allowed, cookies[1..]);
      if cookies[0].name in allowed then [cookies[0]] + rest else rest
  }

  /** Filtering splits over concatenation, so it never reorders or merges batches. */
  lemma {:induction false} AllowedCookiesAppend(allowed: set<string>, a: seq<Cookie>, b: seq<Cookie>)
    ensures AllowedCookies(allowed, a + b) == AllowedCookies(allowed, a) + AllowedCookies(allowed, b)
  {
    if a == [] {
      assert a + b == b;
    } else {
      assert (a + b)[0] == a[0];
      assert (a + b)[1..] == a[1..] + b;
      AllowedCookiesAppend(allowed, a[1..], b);
    }
  }

  /**
   * restrictedJar.SetCookies: the batch handed to the wrapped jar, or None
   * when the wrapped jar is not called because nothing is allowed.
   */
  function SetCookies(j: RestrictedJar, cookies: seq<Cookie>): (r: Option<seq<Cookie>>)
    ensures r.None? <==> forall i | 0 <= i < |cookies| :: cookies[i].name !in j.allowed
    ensures r.Some? ==> r.value != [] && r.value == AllowedCookies(j.allowed, cookies)
  {
    var allowed := AllowedCookies(j.allowed, cookies);
    if |allowed| > 0 then
      assert allowed[0] in cookies;
      Some(allowed)
    else
      assert forall i | 0 <= i < |cookies| :: cookies[i].name !in j.allowed by {
        forall i | 0 <= i < |cookies| ensures cookies[i].name !in j.allowed {
          assert cookies[i] in cookies;
        }
      }
      None
  }

  /** redirectErr: a refused redirect, from the last URL visited to the new one. */
  datatype RedirectErr = RedirectErr(from: string, to: string)

  function RedirectMessage(e: RedirectErr): (r: string)
    ensures |r| == 18 + |e.from| + |e.to|
    ensures r[..14] == "Redirect from " && r[14..14 + |e.from|] == e.from
    ensures r[14 + |e.from|..18 + |e.from|] == " to "
    ensures r[|r| - |e.to|..] == e.to
  {
    "Redirect from " + e.from + " to " + e.to
  }

  /**
   * redirectPolicyFunc: every redirect is refused. The HTTP client calls it
   * only after at least one request, so `via` is never empty.
   */
  function RedirectPolicy(req: string, via: seq<string>): (r: Option<RedirectErr>)
    requires |via| >= 1
    ensures r.Some? && r.value.from == via[|via| - 1] && r.value.to == req
  {
    Some(RedirectErr(via[|via| - 1], req))
  }

  // ---------------------------------------------------------------------
  // The RCPC bypass: the challenge page computes the cookie by decrypting
  // `c` with key `a` and IV `b`, each written as toNumbers("<hex>").

  const CallText: string := "=toNumbers(\""
  const CloseText: string := "\")"

  /** The length of the longest run of `[0-9a-f]` starting at `i`. */
  function HexRun(s: string, i: nat): (n: nat)
    requires i <= |s|
    ensures i + n <= |s|
    ensures forall k | i <= k < i + n :: IsLowerHex(s[k])
    ensures i + n < |s| ==> !IsLowerHex(s[i + n])
    decreases |s| - i
  {
    if i < |s| && IsLowerHex(s[i]) then 1 + HexRun(s, i + 1) else 0
  }

  /** Where the hex digits of a token for variable `v` starting at `k` begin. */
  function DigitsStart(k: nat): nat {
    k + 1 + |CallText|
  }

  /**
   * The pattern `v=toNumbers\("([0-9a-f]+)"\)` matches at `k`. The digit
   * class excludes the quote, so the group is the whole run of digits and
   * a match needs the closing text right after it.
   */
  predicate MatchAt(s: string, v: char, k: nat) {
    DigitsStart(k) <= |s| && s[k] == v && OccursAt(s, CallText, k + 1) &&
    HexRun(s, DigitsStart(k)) > 0 && OccursAt(s, CloseText, DigitsStart(k) + HexRun(s, DigitsStart(k)))
  }

  /** The leftmost match at or after `from`. */
  function FirstMatch(s: string, v: char, from: nat): (r: Option<nat>)
    requires from <= |s|
    ensures r.Some? ==> from <= r.value < |s| && MatchAt(s, v, r.value)
    ensures r.Some? ==> forall j | from <= j < r.value :: !MatchAt(s, v, j)
    ensures r.None? ==> forall j | from <= j < |s| :: !MatchAt(s, v, j)
    decreases |s| - from
  {
    if from == |s| then None
    else if MatchAt(s, v, from) then Some(from)
    else FirstMatch(s, v, from + 1)
  }

  /** FindStringSubmatch's first group: the hex digits of the leftmost token for `v`. */
  function Submatch(s: string, v: char): (r: Option<string>)
    ensures r.None? <==> forall j | 0 <= j < |s| :: !MatchAt(s, v, j)
    ensures r.Some? ==> r.value != [] && AllHex(r.value)
    ensures r.Some? ==>
      FirstMatch(s, v, 0).Some? &&
      (var h := DigitsStart(FirstMatch(s, v, 0).value); r.value == s[h..h + HexRun(s, h)])
  {
    match FirstMatch(s, v, 0)
    case None => None
    case Some(k) =>
      var h := DigitsStart(k);
      var d := s[h..h + HexRun(s, h)];
      assert forall i | 0 <= i < |d| :: IsLowerHex(d[i]) by {
        forall i | 0 <= i < |d| ensures IsLowerHex(d[i]) {
          assert d[i] == s[h + i];
        }
      }
      Some(d)
  }

  /** A token written out is found again, digits and all, when it is the first in the script. */
  lemma SubmatchOfToken(v: char, digits: string, rest: string)
    requires digits != [] && forall i | 0 <= i < |digits| :: IsLowerHex(digits[i])
    ensures Submatch([v] + CallText + digits + CloseText + rest, v) == Some(digits)
  {
    var s := [v] + CallText + digits + CloseText + rest;
    var h := DigitsStart(0);
    assert s[h..h + |digits|] == digits && HexRun(s, h) == |digits| by {
      assert s[h..h + |digits|] == digits;
      RunOfDigits(s, h, digits);
    }
    assert FirstMatch(s, v, 0) == Some(0) by {
      assert s[1..1 + |CallText|] == CallText;
      assert s[h + |digits|..h + |digits| + |CloseText|] == CloseText;
      assert MatchAt(s, v, 0);
    }
  }

  lemma {:induction false} RunOfDigits(s: string, h: nat, digits: string)
    requires h + |digits| <= |s| && s[h..h + |digits|] == digits
    requires forall i | 0 <= i < |digits| :: IsLowerHex(digits[i])
    requires h + |digits| < |s| && !IsLowerHex(s[h + |digits|])
    ensures HexRun(s, h) == |digits|
    decreases |digits|
  {
    if digits != [] {
      assert s[h] == digits[0];
      assert s[h + 1..h + 1 + |digits[1..]|] == digits[1..];
      RunOfDigits(s, h + 1, digits[1..]);
    }
  }

  /** The AES block size in bytes. */
  const BlockSize: nat := 16

  predicate ValidKeySize(n: nat) {
    n == 16 || n == 24 || n == 32
  }

  /** AES-CBC decryption of a ciphertext with a key and an IV. */
  type Decrypt = (seq<byte>, seq<byte>, seq<byte>) -> seq<byte>

  datatype Bypass = CookieSet(cookie: Cookie) | Failed(msg: string) | Panicked(msg: string)

  /** The checks of setRCPCCookieOnClient up to the decryption, in the order they are made. */
  function ChallengeTokens(script: string): (r: Result<(seq<byte>, seq<byte>, seq<byte>), string>)
    ensures Submatch(script, 'a').None? ==> r == Err("a not found")
    ensures Submatch(script, 'a').Some? && Submatch(script, 'b').None? ==> r == Err("b not found")
    ensures Submatch(script, 'a').Some? && Submatch(script, 'b').Some? && Submatch(script, 'c').None? ==>
      r == Err("c not found")
    ensures r.Ok? <==>
      Submatch(script, 'a').Some? && Submatch(script, 'b').Some? && Submatch(script, 'c').Some? &&
      |Submatch(script, 'a').value| % 2 == 0 && |Submatch(script, 'b').value| % 2 == 0 &&
      |Submatch(script, 'c').value| % 2 == 0
    ensures Submatch(script, 'a').Some? && Submatch(script, 'b').Some? && Submatch(script, 'c').Some? ==>
      var a, b, c := HexDecode(Submatch(script, 'a').value), HexDecode(Submatch(script, 'b').value),
        HexDecode(Submatch(script, 'c').value);
      && (a.Err? ==> r == Err(a.error))
      && (a.Ok? && c.Err? ==> r == Err(c.error))
      && (a.Ok? && c.Ok? && b.Err? ==> r == Err(b.error))
    ensures r.Ok? ==>
      HexDecode(Submatch(script, 'a').value) == Ok(r.value.0) &&
      HexDecode(Submatch(script, 'b').value) == Ok(r.value.1) &&
      HexDecode(Submatch(script, 'c').value) == Ok(r.value.2)
  {
    match (Submatch(script, 'a'), Submatch(script, 'b'), Submatch(script, 'c'))
    case (None, _, _) => Err("a not found")
    case (Some(_), None, _) => Err("b not found")
    case (Some(_), Some(_), None) => Err("c not found")
    case (Some(a), Some(b), Some(c)) =>
      match (HexDecode(a), HexDecode(c), HexDecode(b))
      case (Err(e), _, _) => Err(e)
      case (Ok(_), Err(e), _) => Err(e)
      case (Ok(_), Ok(_), Err(e)) => Err(e)
      case (Ok(key), Ok(ct), Ok(iv)) => Ok((key, iv, ct))
  }

  /**
   * setRCPCCookieOnClient: the cookie it sets, an error, or the panic of
   * cipher.NewCBCDecrypter on an IV that is not one block long.
   */
  function SetRCPCCookie(script: string, decrypt: Decrypt): (r: Bypass)
    ensures ChallengeTokens(script).Err? ==> r == Failed(ChallengeTokens(script).error)
    ensures r.CookieSet? <==>
      ChallengeTokens(script).Ok? && |ChallengeTokens(script).value.2| % BlockSize == 0 &&
      ValidKeySize(|ChallengeTokens(script).value.0|) && |ChallengeTokens(script).value.1| == BlockSize
    ensures r.Panicked? <==>
      ChallengeTokens(script).Ok? && |ChallengeTokens(script).value.2| % BlockSize == 0 &&
      ValidKeySize(|ChallengeTokens(script).value.0|) && |ChallengeTokens(script).value.1| != BlockSize
    ensures ChallengeTokens(script).Ok? && |ChallengeTokens(script).value.2| % BlockSize != 0 ==>
      r == Failed("ciphertext is not a multiple of the block size")
    ensures var t := ChallengeTokens(script);
      t.Ok? && |t.value.2| % BlockSize == 0 && !ValidKeySize(|t.value.0|) ==>
        r == Failed("crypto/aes: invalid key size " + IntToDecimal(|t.value.0|))
    ensures r.CookieSet? ==>
      var t := ChallengeTokens(script).value;
      && r.cookie.name == "RCPC" && r.cookie.path == "/"
      && HexDecode(r.cookie.value) == Ok(decrypt(t.0, t.1, t.2)) && AllLowerHex(r.cookie.value)
  {
    match ChallengeTokens(script)
    case Err(e) => Failed(e)
    case Ok((key, iv, ct)) =>
      if |ct| % BlockSize != 0 then Failed("ciphertext is not a multiple of the block size")
      else if !ValidKeySize(|key|) then Failed("crypto/aes: invalid key size " + IntToDecimal(|key|))
      else if |iv| != BlockSize then Panicked("cipher.NewCBCDecrypter: IV length must equal block size")
      else
        var plain := decrypt(key, iv, ct);
        HexRoundTrip(plain);
        CookieSet(Cookie("RCPC", HexEncode(plain), "/"))
  }

  /** Both scrapers' jars pass the RCPC cookie on. */
  lemma RCPCPassesBothJars(c: Cookie)
    requires c.name == "RCPC"
    ensures SetCookies(ScraperJar, [c]) == Some([c])
    ensures SetCookies(BrowserJar, [c]) == Some([c])
  {
    assert "RCPC" == ["RCPC"][0] && "RCPC" == ["JSESSIONID", "RCPC"][1];
    SingleAllowed(ScraperJar, c);
    SingleAllowed(BrowserJar, c);
  }

  lemma SingleAllowed(j: RestrictedJar, c: Cookie)
    requires c.name in j.allowed
    ensures SetCookies(j, [c]) == Some([c])
  {
    assert [c][1..] == [];
    assert AllowedCookies(j.allowed, [c]) == [c];
  }

  /** A parsed page: the texts of its script elements and an abstract rest. */
  datatype Doc = Doc(scripts: seq<string>, body: string)

  /** Selection.Text over the script elements: their texts joined with nothing between. */
  function ScriptText(scripts: seq<string>): (r: string)
    ensures scripts == [] ==> r == ""
    ensures |scripts| == 1 ==> r == scripts[0]
  {
    if scripts == [] then "" else scripts[0] + ScriptText(scripts[1..])
  }

  /** The text of a selection is the text of its first part followed by that of the rest. */
  lemma {:induction false} ScriptTextAppend(a: seq<string>, b: seq<string>)
    ensures ScriptText(a + b) == ScriptText(a) + ScriptText(b)
    decreases |a|
  {
    if a == [] {
      assert a + b == b;
    } else {
      assert (a + b)[0] == a[0] && (a + b)[1..] == a[1..] + b;
      ScriptTextAppend(a[1..], b);
    }
  }

  datatype Scraped = Page(doc: Doc) | ScrapeErr(msg: string) | ScrapePanic(msg: string)

  /** What scraping a URL came to: the page or failure, the cookie set on the way, and the fetch count. */
  datatype Scrape = Scrape(result: Scraped, cookie: Option<Cookie>, fetches: nat)

  const SetFailedPrefix: string := "Set RCPC cookie failed: "

  /** What follows a challenge page, once the bypass has come to `bypass`. */
  function AfterChallenge(bypass: Bypass, second: Result<Doc, string>): (r: Scrape)
    ensures r.cookie.Some? <==> bypass.CookieSet?
    ensures r.fetches == (if bypass.CookieSet? then 2 else 1)
    ensures bypass.CookieSet? ==>
      r == Scrape(if second.Ok? then Page(second.value) else ScrapeErr(second.error), Some(bypass.cookie), 2)
    ensures bypass.Failed? ==> r.result == ScrapeErr(SetFailedPrefix + bypass.msg)
    ensures bypass.Panicked? ==> r.result == ScrapePanic(bypass.msg)
  {
    match bypass
    case Failed(m) => Scrape(ScrapeErr(SetFailedPrefix + m), None, 1)
    case Panicked(m) => Scrape(ScrapePanic(m), None, 1)
    case CookieSet(c) =>
      Scrape(if second.Ok? then Page(second.value) else ScrapeErr(second.error), Some(c), 2)
  }

  /**
   * scraperGetDocInternal. `first` is the outcome of the first fetch and
   * `second` the outcome of the fetch made after setting the cookie.
   */
  function ScraperGetDoc(first: Result<Doc, string>, second: Result<Doc, string>, decrypt: Decrypt): (r: Scrape)
    ensures 1 <= r.fetches <= 2
    ensures r.fetches == 2 <==> r.cookie.Some?
    ensures first.Err? ==> r == Scrape(ScrapeErr(first.error), None, 1)
    ensures first.Ok? && |first.value.scripts| > 2 ==> r == Scrape(Page(first.value), None, 1)
    ensures first.Ok? && |first.value.scripts| <= 2 ==>
      r == AfterChallenge(SetRCPCCookie(ScriptText(first.value.scripts), decrypt), second)
  {
    match first
    case Err(e) => Scrape(ScrapeErr(e), None, 1)
    case Ok(doc) =>
      if |doc.scripts| > 2 then Scrape(Page(doc), None, 1)
      else AfterChallenge(SetRCPCCookie(ScriptText(doc.scripts), decrypt), second)
  }

  /**
   * The bypass is tried once: after the cookie is set, the refetched page is
   * returned even when it again looks like the challenge page.
   */
  lemma BypassTriedOnce(first: Doc, second: Doc, decrypt: Decrypt)
    requires |first.scripts| <= 2 && |second.scripts| <= 2
    requires SetRCPCCookie(ScriptText(first.scripts), decrypt).CookieSet?
    ensures ScraperGetDoc(Ok(first), Ok(second), decrypt) ==
      Scrape(Page(second), Some(SetRCPCCookie(ScriptText(first.scripts), decrypt).cookie), 2)
  {
  }
}

=== FILE: commands.dfy ===
/**
 * bot/bot.go: prefix commands. A message starting with the prefix is split
 * into arguments; the first one, without the prefix, names the command.
 */
module Commands {
  import opened Wrappers
  import opened GoStrings
  import opened Embeds
  import opened Events
  import Filters

  // ---------------------------------------------------------------------
  // Arguments

  /** `\s` in Go's regexp syntax: ASCII space, tab, newline, form feed, carriage return. */
  predicate IsSpace(c: char) {
    c == ' ' || c == '\t' || c == '\n' || c == '\U{0C}' || c == '\r'
  }

  /** The length of the longest run of non-space bytes at the front of `s`. */
  function WordLength(s: string): (n: nat)
    ensures n <= |s|
    ensures forall i :: 0 <= i < n ==> !IsSpace(s[i])
    ensures n < |s| ==> IsSpace(s[n])
    decreases |s|
  {
    if s == [] || IsSpace(s[0]) then 0 else 1 + WordLength(s[1..])
  }

  /**
   * Where the quoted alternative `"([^"]+)"` matches at the front of `s`:
   * the length of the match, None when `s` does not start with a quote
   * followed by at least one byte and a closing quote.
   */
  function QuotedLength(s: string): (r: Option<nat>)
    ensures r.Some? ==>
      3 <= r.value <= |s| && s[0] == '"' && s[r.value - 1] == '"' && '"' !in s[1..r.value - 1]
    ensures s != [] && s[0] != '"' ==> r.None?
  {
    if s == [] || s[0] != '"' then None
    else
      match IndexByte(s[1..], '"')
      case None => None
      case Some(j) =>
        if j == 0 then None
        else
          assert s[1..][..j] == s[1..j + 1];
          Some(j + 2)
  }

  /**
   * The whole matches of `"([^"]+)"|([^\s]+)`, leftmost first: at each
   * position the quoted alternative is tried before the bare one, and a
   * position where neither matches is skipped. Quotes stay in the tokens.
   */
  function Tokens(s: string): (r: seq<string>)
    ensures forall i :: 0 <= i < |r| ==> r[i] != []
    decreases |s|
  {
    if s == [] then []
    else
      match QuotedLength(s)
      case Some(n) => [s[..n]] + Tokens(s[n..])
      case None =>
        if IsSpace(s[0]) then Tokens(s[1..])
        else
          var n := WordLength(s);
          [s[..n]] + Tokens(s[n..])
  }

  /** Words without spaces or quotes. */
  predicate PlainWord(w: string) {
    w != [] && forall i :: 0 <= i < |w| ==> !IsSpace(w[i]) && w[i] != '"'
  }

  /** Words joined by single spaces split back into the words. */
  lemma {:induction false} TokensOfWords(words: seq<string>)
    requires forall i :: 0 <= i < |words| ==> PlainWord(words[i])
    ensures Tokens(Join(words, " ")) == words
    decreases |words|
  {
    if |words| == 1 {
      WordTokens(words[0], "");
      assert words[0] + "" == words[0];
    } else if |words| > 1 {
      var w := words[0];
      var rest := Join(words[1..], " ");
      assert Join(words, " ") == w + (" " + rest);
      WordTokens(w, " " + rest);
      assert (" " + rest)[1..] == rest;
      TokensOfWords(words[1..]);
    }
  }

  lemma WordTokens(w: string, t: string)
    requires PlainWord(w)
    requires t == [] || IsSpace(t[0])
    ensures Tokens(w + t) == [w] + Tokens(t)
    ensures t != [] ==> Tokens(t) == Tokens(t[1..])
  {
    var s := w + t;
    assert s[0] == w[0];
    WordLengthOf(w, t);
    assert s[..|w|] == w && s[|w|..] == t;
    if t != [] {
      assert QuotedLength(t).None?;
    }
  }

  lemma {:induction false} WordLengthOf(w: string, t: string)
    requires forall i :: 0 <= i < |w| ==> !IsSpace(w[i])
    requires t == [] || IsSpace(t[0])
    ensures WordLength(w + t) == |w|
    decreases |w|
  {
    if w == [] {
      assert w + t == t;
    } else {
      assert (w + t)[1..] == w[1..] + t;
      WordLengthOf(w[1..], t);
    }
  }

  // ---------------------------------------------------------------------
  // Commands

  /** A command; `handler` stands for the handler function's identity. */
  datatype Command = Command(id: string, usage: string, desc: string, handler: nat)

  /** FullUsage: the id, then the usage after a space when there is one. */
  function FullUsage(c: Command): (r: string)
    ensures HasPrefix(r, c.id)
    ensures c.usage == "" ==> r == c.id
    ensures c.usage != "" ==> r[|c.id|..] == " " + c.usage
  {
    if c.usage == "" then c.id else c.id + " " + c.usage
  }

  /** IncorrectUsageMsg. */
  function IncorrectUsageMsg(c: Command): (r: string)
    ensures var lead := "Incorrect usage, expected `";
      HasPrefix(r, lead) && r[|lead|..] == FullUsage(c) + "`"
  {
    "Incorrect usage, expected `" + FullUsage(c) + "`"
  }

  const HelpCommand: Command := Command("help", "", "Shows the bot help message", 0)

  /** The bot: its name, prefix and description, and the commands in the order they were added. */
  datatype Bot = Bot(name: string, prefix: string, desc: string, commandList: seq<Command>)

  /** AddCommand: appended to the list; the id now maps to the new command. */
  function AddCommand(bot: Bot, c: Command): (r: Bot)
    ensures r.commandList == bot.commandList + [c]
    ensures Lookup(r.commandList, c.id) == Some(c)
    ensures forall id :: id != c.id ==> Lookup(r.commandList, id) == Lookup(bot.commandList, id)
  {
    var list := bot.commandList + [c];
    assert list[..|list| - 1] == bot.commandList;
    bot.(commandList := list)
  }

  /** The `commands` map: the command last added under `id`. */
  function Lookup(list: seq<Command>, id: string): (r: Option<Command>)
    ensures r.Some? ==> r.value in list && r.value.id == id
    ensures r.None? <==> forall i :: 0 <= i < |list| ==> list[i].id != id
    decreases |list|
  {
    if list == [] then None
    else if list[|list| - 1].id == id then Some(list[|list| - 1])
    else
      var r := Lookup(list[..|list| - 1], id);
      assert forall i :: 0 <= i < |list| - 1 ==> list[..|list| - 1][i] == list[i];
      r
  }

  /** The text after the prefix in the first argument; None where the source's slice would panic. */
  function CommandId(prefix: string, args: seq<string>): (r: Option<string>)
    ensures r.None? <==> args == [] || |args[0]| < |prefix|
    ensures r.Some? ==> args[0] == args[0][..|prefix|] + r.value
  {
    if args == [] || |args[0]| < |prefix| then None
    else Some(args[0][|prefix|..])
  }

  /** A prefix that cannot be split by the argument parser. */
  lemma SafePrefixGivesId(prefix: string, content: string)
    requires PlainWord(prefix)
    requires HasPrefix(content, prefix)
    ensures CommandId(prefix, Tokens(content)).Some?
    ensures HasPrefix(Tokens(content)[0], prefix)
  {
    assert content[0] == prefix[0];
    assert QuotedLength(content).None?;
    WordLengthAtLeast(prefix, content);
  }

  lemma {:induction false} WordLengthAtLeast(prefix: string, content: string)
    requires forall i :: 0 <= i < |prefix| ==> !IsSpace(prefix[i])
    requires HasPrefix(content, prefix)
    ensures WordLength(content) >= |prefix|
    decreases |prefix|
  {
    if prefix != [] {
      assert content[0] == prefix[0];
      assert content[1..][..|prefix| - 1] == prefix[1..];
      WordLengthAtLeast(prefix[1..], content[1..]);
    }
  }

  // ---------------------------------------------------------------------
  // Dispatch

  /** What maybeHandleCommand does with a message. */
  datatype Dispatch =
    | Ignored
    | Crash
    | RunCommand(command: Command, args: seq<string>)
    | RunHelp(args: seq<string>)
    | Reject(content: string)

  /** rejectCommand's text. */
  function Rejection(bot: Bot, id: string): (r: string)
    ensures var help := bot.prefix + FullUsage(HelpCommand);
      (id == "" ==> r == "Missing command, send `" + help + "` for help") &&
      (id != "" ==> r == "Unknown command `" + id + "`, send `" + help + "` for help")
  {
    var help := bot.prefix + FullUsage(HelpCommand);
    if id == "" then "Missing command, send `" + help + "` for help"
    else "Unknown command `" + id + "`, send `" + help + "` for help"
  }

  /** maybeHandleCommand. */
  function MaybeHandleCommand(bot: Bot, msg: MessageCreate): (r: Dispatch)
    ensures !FromHuman(msg) || !HasPrefix(msg.content, bot.prefix) ==> r == Ignored
    ensures r.RunCommand? ==>
      var id := CommandId(bot.prefix, Tokens(msg.content));
      id.Some? && Lookup(bot.commandList, id.value) == Some(r.command) && r.args == Tokens(msg.content)
    ensures r.RunHelp? ==>
      CommandId(bot.prefix, Tokens(msg.content)) == Some(HelpCommand.id) &&
      Lookup(bot.commandList, HelpCommand.id).None? && r.args == Tokens(msg.content)
    ensures r.Reject? ==>
      var id := CommandId(bot.prefix, Tokens(msg.content));
      id.Some? && id.value != HelpCommand.id && Lookup(bot.commandList, id.value).None? &&
      r.content == Rejection(bot, id.value)
    ensures r.Crash? ==> CommandId(bot.prefix, Tokens(msg.content)).None?
    ensures FromHuman(msg) && HasPrefix(msg.content, bot.prefix) ==> !r.Ignored?
  {
    if !FromHuman(msg) || !HasPrefix(msg.content, bot.prefix) then Ignored
    else
      var args := Tokens(msg.content);
      match CommandId(bot.prefix, args)
      case None => Crash
      case Some(id) =>
        match Lookup(bot.commandList, id)
        case Some(c) => RunCommand(c, args)
        case None =>
          if id == HelpCommand.id then RunHelp(args) else Reject(Rejection(bot, id))
  }

  /** A registered command takes precedence over help, and help over rejection. */
  lemma DispatchOrder(bot: Bot, msg: MessageCreate, id: string)
    requires FromHuman(msg) && HasPrefix(msg.content, bot.prefix)
    requires CommandId(bot.prefix, Tokens(msg.content)) == Some(id)
    ensures Lookup(bot.commandList, id).Some? ==> MaybeHandleCommand(bot, msg) == RunCommand(Lookup(bot.commandList, id).value, Tokens(msg.content))
    ensures Lookup(bot.commandList, id).None? && id == "help" ==> MaybeHandleCommand(bot, msg) == RunHelp(Tokens(msg.content))
    ensures Lookup(bot.commandList, id).None? && id != "help" ==> MaybeHandleCommand(bot, msg) == Reject(Rejection(bot, id))
  {
  }

  /** The help embed's fields: every command in the order added, then help itself. */
  function HelpFields(list: seq<Command>): (r: seq<Field>)
    ensures |r| == |list| + 1
    ensures forall i :: 0 <= i < |list| ==> r[i] == Field(FullUsage(list[i]), list[i].desc, true)
    ensures r[|list|] == Field(FullUsage(HelpCommand), HelpCommand.desc, true)
  {
    seq(|list|, i requires 0 <= i < |list| => Field(FullUsage(list[i]), list[i].desc, true))
      + [Field(FullUsage(HelpCommand), HelpCommand.desc, true)]
  }

  /** buildHelpEmbed. */
  function BuildHelpEmbed(bot: Bot): (r: Embed)
    ensures r.title == bot.name
    ensures r.description == bot.desc + "\nSupported commands:"
    ensures r.fields == HelpFields(bot.commandList)
    ensures r.url == "" && r.color == 0 && r.timestamp.None?
    ensures r.authorName.None? && r.thumbnail.None? && r.image.None? && r.footer.None?
  {
    Blank.(title := bot.name, description := bot.desc + "\nSupported commands:", fields := HelpFields(bot.commandList))
  }

  /** Adding a command adds its field just before help's, keeping the others. */
  lemma HelpAfterAdd(bot: Bot, c: Command)
    ensures var before := BuildHelpEmbed(bot).fields;
      BuildHelpEmbed(AddCommand(bot, c)).fields ==
        before[..|before| - 1] + [Field(FullUsage(c), c.desc, true)] + [before[|before| - 1]]
  {
  }

  /** What sendHelp sends: the incorrect-usage text with any argument after the command, else the help embed. */
  datatype HelpReply = UsageText(text: string) | HelpEmbed(embed: Embed)

  function SendHelp(bot: Bot, args: seq<string>): (r: HelpReply)
    ensures |args| > 1 <==> r.UsageText?
    ensures r.UsageText? ==> r.text == "Incorrect usage, expected `help`"
    ensures r.HelpEmbed? ==> r.embed == BuildHelpEmbed(bot)
  {
    if |args| > 1 then UsageText(IncorrectUsageMsg(HelpCommand)) else HelpEmbed(BuildHelpEmbed(bot))
  }

  /** OnMessageCreate's wrapper: the handler runs exactly for the messages the not-bot filter passes. */
  function HandlerRuns(msg: MessageCreate): (r: bool)
    ensures r <==> Filters.FilterMsgCreateNotBot(MsgCreate(msg)).Pass?
  {
    !(msg.author.None? || msg.author.value.bot)
  }
}

=== FILE: comment_fetch.dfy ===
/**
 * fetch/blog.go: the lazily filled revision cache behind a comment preview,
 * the revision-count attribute and the handle colour lookup. Scraping the
 * page and fetching a revision's HTML are outside the model: the body a
 * fetch would produce is a parameter of each call.
 */
module CommentFetch {
  import opened Wrappers
  import opened GoStrings

  /** fetch.CommentInfo; the creation time is an abstract instant. */
  datatype CommentInfo = CommentInfo(
    content: string,
    images: seq<string>,
    blogTitle: string,
    creationTime: int,
    authorHandle: string,
    authorAvatar: string,
    authorColor: int,
    revisionCount: int,
    revision: int,
    rating: int,
    url: string)

  /** What getCommentContent extracts from one revision: markdown and image URLs. */
  datatype Body = Body(content: string, images: seq<string>)

  /** Two infos describe the same comment: they differ at most in revision and body. */
  predicate SameComment(a: CommentInfo, b: CommentInfo) {
    a.blogTitle == b.blogTitle && a.creationTime == b.creationTime &&
    a.authorHandle == b.authorHandle && a.authorAvatar == b.authorAvatar &&
    a.authorColor == b.authorColor && a.revisionCount == b.revisionCount &&
    a.rating == b.rating && a.url == b.url
  }

  /** `info` is revision `k` of the comment described by `base`, with body `body`. */
  predicate IsRevision(info: CommentInfo, base: CommentInfo, k: int, body: Body) {
    SameComment(info, base) && info.revision == k &&
    info.content == body.content && info.images == body.images
  }

  /** The comment fields shared by every revision, plus the revisions fetched so far. */
  datatype Getter = Getter(base: CommentInfo, cache: map<int, CommentInfo>)

  /** Every cached entry is the revision its key names, of the base comment. */
  predicate Coherent(g: Getter) {
    forall k | k in g.cache :: SameComment(g.cache[k], g.base) && g.cache[k].revision == k
  }

  /** The getter Comment returns: only the latest revision, read from the page itself, is cached. */
  function NewGetter(base: CommentInfo, latest: Body): (g: Getter)
    ensures g.base == base
    ensures g.cache.Keys == {base.revisionCount}
    ensures IsRevision(g.cache[base.revisionCount], base, base.revisionCount, latest)
    ensures Coherent(g)
  {
    Getter(base, map[base.revisionCount := base.(revision := base.revisionCount,
                                                content := latest.content,
                                                images := latest.images)])
  }

  function RangeError(count: int, revision: int): string {
    "Expected revision between 1 and " + IntToDecimal(count) + ", got " + IntToDecimal(revision)
  }

  predicate InRange(g: Getter, revision: int) {
    1 <= revision <= g.base.revisionCount
  }

  /** One call of the getter: its answer, the getter afterwards, and whether it fetched. */
  datatype Got = Got(result: Result<CommentInfo, string>, getter: Getter, fetched: bool)

  /**
   * The getter closure of Comment. `fetch` is what fetching and parsing the
   * requested revision would give; it is consulted only when the revision
   * is in range and not cached.
   */
  function Get(g: Getter, revision: int, fetch: Result<Body, string>): (r: Got)
    ensures !InRange(g, revision) ==>
      r == Got(Err(RangeError(g.base.revisionCount, revision)), g, false)
    ensures r.fetched <==> InRange(g, revision) && revision !in g.cache
    ensures InRange(g, revision) && revision in g.cache ==> r == Got(Ok(g.cache[revision]), g, false)
    ensures r.fetched && fetch.Err? ==> r == Got(Err(fetch.error), g, true)
    ensures r.fetched && fetch.Ok? ==>
      r.result.Ok? && IsRevision(r.result.value, g.base, revision, fetch.value) &&
      r.getter == g.(cache := g.cache[revision := r.result.value])
    ensures r.getter.base == g.base && g.cache.Keys <= r.getter.cache.Keys
    ensures Coherent(g) ==> Coherent(r.getter)
    ensures Coherent(g) && r.result.Ok? ==>
      SameComment(r.result.value, g.base) && r.result.value.revision == revision
  {
    if !InRange(g, revision) then Got(Err(RangeError(g.base.revisionCount, revision)), g, false)
    else if revision in g.cache then Got(Ok(g.cache[revision]), g, false)
    else match fetch
      case Err(e) => Got(Err(e), g, true)
      case Ok(body) =>
        var cur := g.base.(revision := revision, content := body.content, images := body.images);
        Got(Ok(cur), g.(cache := g.cache[revision := cur]), true)
  }

  /** The latest revision is served from the cache: no fetch, whatever a fetch would return. */
  lemma LatestWithoutFetch(base: CommentInfo, latest: Body, fetch: Result<Body, string>)
    requires base.revisionCount >= 1
    ensures var r := Get(NewGetter(base, latest), base.revisionCount, fetch);
      !r.fetched && r.result.Ok? && IsRevision(r.result.value, base, base.revisionCount, latest)
  {
  }

  /** Once a revision has been fetched, asking again returns the same info without a fetch. */
  lemma SecondGetIsCached(g: Getter, revision: int, f1: Result<Body, string>, f2: Result<Body, string>)
    requires Get(g, revision, f1).result.Ok?
    ensures var first := Get(g, revision, f1);
      Get(first.getter, revision, f2) == Got(first.result, first.getter, false)
  {
  }

  /** One request of a session: the revision asked for and what a fetch of it would give. */
  datatype Request = Request(revision: int, fetch: Result<Body, string>)

  /**
   * A sequence of getter calls: the answers, the final getter, and the
   * revisions whose fetch succeeded and was stored, in order.
   */
  datatype Session = Session(results: seq<Result<CommentInfo, string>>, getter: Getter, stored: seq<int>)

  function GetAll(g: Getter, reqs: seq<Request>): (r: Session)
    ensures |r.results| == |reqs|
    ensures r.getter.base == g.base && g.cache.Keys <= r.getter.cache.Keys
    ensures Coherent(g) ==> Coherent(r.getter)
    decreases |reqs|
  {
    if reqs == [] then Session([], g, [])
    else
      var got := Get(g, reqs[0].revision, reqs[0].fetch);
      var rest := GetAll(got.getter, reqs[1..]);
      var stored := if got.fetched && got.result.Ok? then [reqs[0].revision] else [];
      Session([got.result] + rest.results, rest.getter, stored + rest.stored)
  }

  /**
   * Each revision is fetched and stored at most once in a session, never
   * one that was cached at the start (the latest, for a new getter), and
   * every stored revision is still cached at the end.
   */
  lemma {:induction false} FetchedAtMostOnce(g: Getter, reqs: seq<Request>)
    ensures var s := GetAll(g, reqs).stored;
      (forall i | 0 <= i < |s| :: s[i] !in g.cache && s[i] in GetAll(g, reqs).getter.cache) &&
      (forall i, j | 0 <= i < j < |s| :: s[i] != s[j])
    decreases |reqs|
  {
    if reqs != [] {
      var got := Get(g, reqs[0].revision, reqs[0].fetch);
      FetchedAtMostOnce(got.getter, reqs[1..]);
      var rest := GetAll(got.getter, reqs[1..]).stored;
      var s := GetAll(g, reqs).stored;
      assert GetAll(g, reqs).getter == GetAll(got.getter, reqs[1..]).getter;
      if got.fetched && got.result.Ok? {
        var k := reqs[0].revision;
        var final := GetAll(g, reqs).getter.cache.Keys;
        assert got.getter.cache.Keys == g.cache.Keys + {k};
        assert s == [k] + rest;
        StoredCons(k, rest, g.cache.Keys, got.getter.cache.Keys, final);
      } else {
        assert s == rest;
      }
    }
  }

  /** One more stored revision, fresh before its fetch, keeps the stored list fresh and distinct. */
  lemma StoredCons(k: int, rest: seq<int>, before: set<int>, after: set<int>, final: set<int>)
    requires k !in before && after == before + {k} && after <= final
    requires forall i | 0 <= i < |rest| :: rest[i] !in after && rest[i] in final
    requires forall i, j | 0 <= i < j < |rest| :: rest[i] != rest[j]
    ensures var s := [k] + rest;
      (forall i | 0 <= i < |s| :: s[i] !in before && s[i] in final) &&
      (forall i, j | 0 <= i < j < |s| :: s[i] != s[j])
  {
    var s := [k] + rest;
    forall i | 0 < i < |s|
      ensures s[i] == rest[i - 1]
    {
    }
  }

  /** Every answer of a session that starts from a coherent getter is of the asked revision. */
  lemma {:induction false} AnswersMatchRequests(g: Getter, reqs: seq<Request>)
    requires Coherent(g)
    ensures var s := GetAll(g, reqs);
      forall i | 0 <= i < |reqs| && s.results[i].Ok? ::
        SameComment(s.results[i].value, g.base) && s.results[i].value.revision == reqs[i].revision
    decreases |reqs|
  {
    if reqs != [] {
      var got := Get(g, reqs[0].revision, reqs[0].fetch);
      AnswersMatchRequests(got.getter, reqs[1..]);
      var s := GetAll(g, reqs);
      forall i | 0 <= i < |reqs| && s.results[i].Ok?
        ensures SameComment(s.results[i].value, g.base) && s.results[i].value.revision == reqs[i].revision
      {
        if i > 0 {
          assert s.results[i] == GetAll(got.getter, reqs[1..]).results[i - 1];
          assert reqs[i] == reqs[1..][i - 1];
        }
      }
    }
  }

  /**
   * parseCommentRevision: the revisioncount attribute parsed with Atoi; a
   * missing attribute (read as "?!") or a parse error gives 1.
   */
  function ParseCommentRevision(attr: Option<string>): (r: int)
    ensures attr.None? ==> r == 1
    ensures attr.Some? && !Atoi(attr.value).ok ==> r == 1
    ensures attr.Some? && Atoi(attr.value).ok ==> r == Atoi(attr.value).value
    ensures MinInt64 <= r <= MaxInt64
  {
    var parsed := Atoi(if attr.Some? then attr.value else "?!");
    if parsed.ok then parsed.value else 1
  }

  /** A count written in decimal is read back exactly. */
  lemma ParseCommentRevisionOfDecimal(n: int)
    requires MinInt64 <= n <= MaxInt64
    ensures ParseCommentRevision(Some(IntToDecimal(n))) == n
  {
    AtoiOfDecimal(n);
  }

  /** The handle colour classes of Codeforces' stylesheet. */
  const ColorClsMap: map<string, int> := map[
    "user-black" := 0x000000,
    "user-legendary" := 0x000000,
    "user-red" := 0xFF0000,
    "user-fire" := 0xFF0000,
    "user-yellow" := 0xBBBB00,
    "user-violet" := 0xAA00AA,
    "user-orange" := 0xFF8C00,
    "user-blue" := 0x0000FF,
    "user-cyan" := 0x03A89E,
    "user-green" := 0x008000,
    "user-gray" := 0x808080,
    "user-admin" := 0x000000]

  /**
   * parseHandleColor over the class attribute already split into fields:
   * the colour of the first known class, black when none is known.
   */
  function ParseHandleColor(classes: seq<string>): (r: int)
    ensures (forall i | 0 <= i < |classes| :: classes[i] !in ColorClsMap) ==> r == 0
    ensures forall i | 0 <= i < |classes| && classes[i] in ColorClsMap ::
      (forall j | 0 <= j < i :: classes[j] !in ColorClsMap) ==> r == ColorClsMap[classes[i]]
  {
    if classes == [] then 0x000000
    else if classes[0] in ColorClsMap then ColorClsMap[classes[0]]
    else ParseHandleColor(classes[1..])
  }

  /** Classes after the first known one cannot change the colour. */
  lemma ParseHandleColorIgnoresRest(a: seq<string>, b: seq<string>)
    requires exists i | 0 <= i < |a| :: a[i] in ColorClsMap
    ensures ParseHandleColor(a + b) == ParseHandleColor(a)
  {
    var k :| 0 <= k < |a| && a[k] in ColorClsMap;
    var i := FirstKnown(a, k);
    assert (a + b)[i] == a[i];
    assert forall j | 0 <= j < i :: (a + b)[j] == a[j];
  }

  /** The first known class, at or before a known one at `k`. */
  lemma {:induction false} FirstKnown(a: seq<string>, k: nat) returns (i: nat)
    requires k < |a| && a[k] in ColorClsMap
    ensures i <= k && a[i] in ColorClsMap && forall j | 0 <= j < i :: a[j] !in ColorClsMap
    decreases k
  {
    if a[0] in ColorClsMap {
      i := 0;
    } else {
      var tail := a[1..];
      assert tail[k - 1] == a[k];
      var t := FirstKnown(tail, k - 1);
      i := t + 1;
      forall j | 0 < j < i
        ensures a[j] == tail[j - 1]
      {
      }
    }
  }
}

=== FILE: filters.dfy ===
/** Gateway events as one tagged union instead of Go's `interface{}`. */
module Events {
  import opened Wrappers

  datatype User = User(id: nat, bot: bool)

  datatype MessageCreate = MessageCreate(author: Option<User>, content: string)

  /** A reaction added to a message; `emoji` is the emoji's name. */
  datatype ReactionAdd = ReactionAdd(userId: nat, messageId: nat, emoji: string)

  datatype Event =
    | MsgCreate(msg: MessageCreate)
    | ReactionAdded(reaction: ReactionAdd)
    | OtherEvent

  /** A message with an author that is not a bot. */
  predicate FromHuman(m: MessageCreate) {
    m.author.Some? && !m.author.value.bot
  }
}

/**
 * bot/filters.go: gateway middlewares. A middleware passes the event on
 * unchanged, drops it (Go's nil), or panics when handed the wrong kind of
 * event.
 */
module Filters {
  import opened Wrappers
  import opened GoStrings
  import opened Events

  datatype Filtered = Pass(evt: Event) | Drop | Panic(expected: string)

  const MsgCreateType: string := "*disgord.MessageCreate"
  const ReactionAddType: string := "*disgord.MessageReactionAdd"

  /** maybeTypePanic: a panic naming the expected type when the assertion failed. */
  function MaybeTypePanic(ok: bool, expected: string): (r: Option<Filtered>)
    ensures r.None? <==> ok
    ensures r.Some? ==> r.value == Panic(expected)
  {
    if ok then None else Some(Panic(expected))
  }

  /** filterMsgCreateNotBot: only messages written by a non-bot author get through. */
  function FilterMsgCreateNotBot(evt: Event): (r: Filtered)
    ensures !evt.MsgCreate? ==> r == Panic(MsgCreateType)
    ensures evt.MsgCreate? ==> (r.Pass? <==> FromHuman(evt.msg)) && (r.Pass? || r.Drop?)
    ensures r.Pass? ==> r.evt == evt
  {
    match MaybeTypePanic(evt.MsgCreate?, MsgCreateType)
    case Some(p) => p
    case None => if !FromHuman(evt.msg) then Drop else Pass(evt)
  }

  /** filterMsgCreatePrefix: only messages whose content starts with the prefix. */
  function FilterMsgCreatePrefix(prefix: string, evt: Event): (r: Filtered)
    ensures !evt.MsgCreate? ==> r == Panic(MsgCreateType)
    ensures evt.MsgCreate? ==> (r.Pass? <==> HasPrefix(evt.msg.content, prefix)) && (r.Pass? || r.Drop?)
    ensures r.Pass? ==> r.evt == evt
  {
    match MaybeTypePanic(evt.MsgCreate?, MsgCreateType)
    case Some(p) => p
    case None => if !HasPrefix(evt.msg.content, prefix) then Drop else Pass(evt)
  }

  /** filterReactionAddForMsg: only reactions on the given message. */
  function FilterReactionAddForMsg(msgId: nat, evt: Event): (r: Filtered)
    ensures !evt.ReactionAdded? ==> r == Panic(ReactionAddType)
    ensures evt.ReactionAdded? ==> (r.Pass? <==> evt.reaction.messageId == msgId) && (r.Pass? || r.Drop?)
    ensures r.Pass? ==> r.evt == evt
  {
    match MaybeTypePanic(evt.ReactionAdded?, ReactionAddType)
    case Some(p) => p
    case None => if evt.reaction.messageId != msgId then Drop else Pass(evt)
  }
}

=== FILE: gostrings.dfy ===
/**
 * The parts of Go's `strings`, `strconv`, `fmt` and `encoding/hex` packages
 * that the bot relies on, over byte strings.
 *
 * Throughout the model a `string` is a Go byte string: every `char` stands for
 * one byte, so `|s|` is Go's `len(s)`. Non-ASCII literals are spelled out as
 * their UTF-8 bytes.
 */
module GoStrings {
  import opened Wrappers

  newtype byte = x: int | 0 <= x < 256

  const MaxInt64: int := 0x7FFF_FFFF_FFFF_FFFF
  const MinInt64: int := -0x8000_0000_0000_0000

  predicate HasPrefix(s: string, prefix: string) {
    |prefix| <= |s| && s[..|prefix|] == prefix
  }

  predicate HasSuffix(s: string, suffix: string) {
    |suffix| <= |s| && s[|s| - |suffix|..] == suffix
  }

  predicate OccursAt(s: string, pat: string, k: nat) {
    k + |pat| <= |s| && s[k..k + |pat|] == pat
  }

  /** `strings.Index`: the first position of `pat` in `s`, None for Go's -1. */
  function Index(s: string, pat: string): (r: Option<nat>)
    ensures r.Some? ==> OccursAt(s, pat, r.value)
    ensures r.Some? ==> forall k: nat :: k < r.value ==> !OccursAt(s, pat, k)
    ensures r.None? ==> forall k: nat :: !OccursAt(s, pat, k)
    decreases |s|
  {
    if |s| < |pat| then None
    else if s[..|pat|] == pat then Some(0)
    else
      match Index(s[1..], pat)
      case None =>
        assert forall k: nat :: OccursAt(s, pat, k + 1) ==> OccursAt(s[1..], pat, k) by {
          forall k: nat | OccursAt(s, pat, k + 1) ensures OccursAt(s[1..], pat, k) {
            assert s[1..][k..k + |pat|] == s[k + 1..k + 1 + |pat|];
          }
        }
        assert forall k: nat :: !OccursAt(s, pat, k) by {
          forall k: nat ensures !OccursAt(s, pat, k) {
            if k > 0 { assert !OccursAt(s[1..], pat, k - 1); }
          }
        }
        None
      case Some(i) =>
        assert s[1..][i..i + |pat|] == s[i + 1..i + 1 + |pat|];
        assert forall k: nat :: k < i + 1 ==> !OccursAt(s, pat, k) by {
          forall k: nat | k < i + 1 ensures !OccursAt(s, pat, k) {
            if k > 0 && OccursAt(s, pat, k) {
              assert s[1..][k - 1..k - 1 + |pat|] == s[k..k + |pat|];
              assert OccursAt(s[1..], pat, k - 1);
            }
          }
        }
        Some(i + 1)
  }

  /** `strings.Join`. */
  function Join(parts: seq<string>, sep: string): (r: string)
    ensures parts == [] ==> r == ""
    ensures |parts| == 1 ==> r == parts[0]
    ensures |parts| >= 1 ==> HasPrefix(r, parts[0])
    ensures |parts| >= 2 ==> HasPrefix(r, parts[0] + sep)
  {
    if |parts| == 0 then ""
    else if |parts| == 1 then parts[0]
    else parts[0] + sep + Join(parts[1..], sep)
  }

  /** The first position of byte `c` in `s`. */
  function IndexByte(s: string, c: char): (r: Option<nat>)
    ensures r.Some? ==> r.value < |s| && s[r.value] == c && c !in s[..r.value]
    ensures r.None? ==> c !in s
    decreases |s|
  {
    if s == [] then None
    else if s[0] == c then Some(0)
    else
      match IndexByte(s[1..], c)
      case None => None
      case Some(i) =>
        assert s[..i + 1] == [s[0]] + s[1..][..i];
        Some(i + 1)
  }

  /** `strings.Split(s, string(c))` for a one-byte separator. */
  function Split(s: string, c: char): (r: seq<string>)
    ensures |r| >= 1
    ensures forall i :: 0 <= i < |r| ==> c !in r[i]
    ensures Join(r, [c]) == s
    decreases |s|
  {
    match IndexByte(s, c)
    case None => [s]
    case Some(i) =>
      var rest := Split(s[i + 1..], c);
      assert s == s[..i] + [c] + s[i + 1..];
      [s[..i]] + rest
  }

  /** Splitting a join of separator-free parts gives the parts back. */
  lemma {:induction false} SplitJoin(parts: seq<string>, c: char)
    requires |parts| >= 1
    requires forall i :: 0 <= i < |parts| ==> c !in parts[i]
    ensures Split(Join(parts, [c]), c) == parts
    decreases |parts|
  {
    if |parts| == 1 {
      assert Join(parts, [c]) == parts[0];
    } else {
      var s := Join(parts, [c]);
      var tail := Join(parts[1..], [c]);
      assert s == parts[0] + [c] + tail;
      assert s[|parts[0]|] == c;
      assert s[..|parts[0]|] == parts[0];
      assert IndexByte(s, c) == Some(|parts[0]|);
      assert s[|parts[0]| + 1..] == tail;
      SplitJoin(parts[1..], c);
      assert Split(s, c) == [parts[0]] + Split(tail, c);
    }
  }

  /**
   * `strings.ReplaceAll(s, "\r\n", "\n")`: non-overlapping, left to right.
   * The first "\r\n" becomes "\n" and the search resumes after it.
   */
  function NormalizeNewlines(s: string): (r: string)
    ensures |r| <= |s|
    ensures '\r' !in s ==> r == s
    ensures '\n' in r <==> '\n' in s
    ensures Index(s, "\r\n").None? ==> r == s
    decreases |s|
  {
    if |s| == 0 then s
    else if |s| >= 2 && s[0] == '\r' && s[1] == '\n' then
      "\n" + NormalizeNewlines(s[2..])
    else
      assert s[0] != '\n' ==> ('\n' in s <==> '\n' in s[1..]);
      CrlfIndexStep(s);
      [s[0]] + NormalizeNewlines(s[1..])
  }

  /** The first "\r\n" becomes "\n", and the rest is normalised after it. */
  lemma {:induction false} NormalizeAtFirstCrlf(s: string)
    requires Index(s, "\r\n").Some?
    ensures var i := Index(s, "\r\n").value;
      NormalizeNewlines(s) == s[..i] + "\n" + NormalizeNewlines(s[i + 2..])
    decreases |s|
  {
    if |s| >= 2 && s[0] == '\r' && s[1] == '\n' {
      assert Index(s, "\r\n") == Some(0) by { assert s[..2] == "\r\n"; }
      assert s[..0] + "\n" == "\n";
    } else {
      var t := s[1..];
      assert Index(t, "\r\n").Some? && Index(s, "\r\n").value == Index(t, "\r\n").value + 1 by {
        CrlfIndexStep(s);
      }
      var j := Index(t, "\r\n").value;
      var i := j + 1;
      var after := NormalizeNewlines(s[i + 2..]);
      assert NormalizeNewlines(t) == t[..j] + "\n" + after by {
        NormalizeAtFirstCrlf(t);
        assert t[j + 2..] == s[i + 2..];
      }
      PrependToSplit(s, j, after);
      assert NormalizeNewlines(s) == [s[0]] + NormalizeNewlines(t);
    }
  }

  lemma PrependToSplit(s: string, j: nat, after: string)
    requires j + 1 <= |s|
    ensures [s[0]] + (s[1..][..j] + "\n" + after) == s[..j + 1] + "\n" + after
  {
    assert [s[0]] + s[1..][..j] == s[..j + 1];
  }

  /** Lines without '\r' joined by "\r\n" normalise to the same lines joined by "\n". */
  lemma {:induction false} NormalizeCrlfJoin(lines: seq<string>)
    requires |lines| >= 1
    requires forall i :: 0 <= i < |lines| ==> '\r' !in lines[i]
    ensures NormalizeNewlines(Join(lines, "\r\n")) == Join(lines, "\n")
    decreases |lines|
  {
    if |lines| >= 2 {
      var head, rest := lines[0], Join(lines[1..], "\r\n");
      var s := Join(lines, "\r\n");
      assert s == head + "\r\n" + rest;
      assert Index(s, "\r\n") == Some(|head|) by {
        assert s[|head|..|head| + 2] == "\r\n";
        assert OccursAt(s, "\r\n", |head|);
        forall k: nat | k < |head| ensures !OccursAt(s, "\r\n", k) {
          assert s[k] == head[k] && s[k] != '\r';
        }
      }
      NormalizeAtFirstCrlf(s);
      assert s[..|head|] == head && s[|head| + 2..] == rest;
      NormalizeCrlfJoin(lines[1..]);
    }
  }

  /** Without "\r\n" at its head, the first "\r\n" of `s` is the first one of its tail, one further on. */
  lemma CrlfIndexStep(s: string)
    requires |s| >= 1 && !(|s| >= 2 && s[0] == '\r' && s[1] == '\n')
    ensures Index(s, "\r\n").None? <==> Index(s[1..], "\r\n").None?
    ensures Index(s, "\r\n").Some? ==> Index(s, "\r\n").value == Index(s[1..], "\r\n").value + 1
  {
    if |s| >= 2 {
      assert s[..2] != "\r\n" by { assert s[..2][0] == s[0] && s[..2][1] == s[1]; }
    }
  }

  // ---------------------------------------------------------------------
  // Decimal numbers: fmt's %v / %+d and strconv.Atoi.

  predicate IsDigit(c: char) { '0' <= c <= '9' }

  predicate AllDigits(s: string) {
    forall i :: 0 <= i < |s| ==> IsDigit(s[i])
  }

  function DigitChar(d: nat): (c: char)
    requires d < 10
    ensures IsDigit(c)
  {
    ('0' as int + d) as char
  }

  /** The value of a string of decimal digits. */
  function DigitsValue(s: string): nat
    requires AllDigits(s)
  {
    if s == [] then 0
    else DigitsValue(s[..|s| - 1]) * 10 + (s[|s| - 1] as int - '0' as int)
  }

  /** Decimal digits of a natural number, no leading zeros. */
  function NatToDecimal(n: nat): (r: string)
    ensures 1 <= |r|
    ensures AllDigits(r)
    ensures |r| > 1 ==> r[0] != '0'
    decreases n
  {
    if n < 10 then [DigitChar(n)] else NatToDecimal(n / 10) + [DigitChar(n % 10)]
  }

  lemma {:induction false} DecimalRoundTrip(n: nat)
    ensures DigitsValue(NatToDecimal(n)) == n
    decreases n
  {
    if n >= 10 {
      var s := NatToDecimal(n);
      assert s[..|s| - 1] == NatToDecimal(n / 10);
      DecimalRoundTrip(n / 10);
    }
  }

  /** fmt's `%v` / `%d` on an int. */
  function IntToDecimal(n: int): (r: string)
    ensures 1 <= |r| && (r[0] == '-' <==> n < 0)
    ensures n < 0 ==> 2 <= |r| && AllDigits(r[1..])
    ensures n >= 0 ==> AllDigits(r)
  {
    if n < 0 then "-" + NatToDecimal(-n) else NatToDecimal(n)
  }

  /** fmt's `%+d`: the sign is always written, zero gets "+". */
  function SignedDecimal(n: int): (r: string)
    ensures 2 <= |r| && r[0] == (if n < 0 then '-' else '+') && AllDigits(r[1..])
  {
    (if n < 0 then "-" else "+") + NatToDecimal(if n < 0 then -n else n)
  }

  /** `%+d` differs from `%d` only by the "+" written before a non-negative number. */
  lemma SignedIsPlainWithSign(n: int)
    ensures SignedDecimal(n) == (if n < 0 then "" else "+") + IntToDecimal(n)
  {
  }

  /** Go's `(int, error)` pair from strconv: `ok` is `err == nil`. */
  datatype Parsed = Parsed(value: int, ok: bool)

  /**
   * strconv.Atoi on a 64-bit platform: an optional sign then at least one
   * digit. A syntax error gives 0, an out-of-range number gives the nearest
   * bound, each with an error.
   */
  function Atoi(s: string): (r: Parsed)
    ensures r.ok ==> MinInt64 <= r.value <= MaxInt64
    ensures AllDigits(s) && s != [] ==>
      (r.ok <==> DigitsValue(s) <= MaxInt64) &&
      r.value == (if DigitsValue(s) <= MaxInt64 then DigitsValue(s) else MaxInt64)
  {
    if s == [] then Parsed(0, false)
    else
      var signed := s[0] == '+' || s[0] == '-';
      var body := if signed then s[1..] else s;
      if body == [] || !AllDigits(body) then Parsed(0, false)
      else
        var mag: int := DigitsValue(body);
        var v := if s[0] == '-' then -mag else mag;
        if v > MaxInt64 then Parsed(MaxInt64, false)
        else if v < MinInt64 then Parsed(MinInt64, false)
        else Parsed(v, true)
  }

  /** Formatting an int64 and parsing it back gives the same number. */
  lemma AtoiOfDecimal(n: int)
    requires MinInt64 <= n <= MaxInt64
    ensures Atoi(IntToDecimal(n)) == Parsed(n, true)
  {
    var m := if n < 0 then -n else n;
    var d := NatToDecimal(m);
    DecimalRoundTrip(m);
    if n < 0 {
      assert IntToDecimal(n)[1..] == d;
    }
  }

  // ---------------------------------------------------------------------
  // encoding/hex

  /** The digits hex.EncodeToString writes, and the class `[0-9a-f]`. */
  predicate IsLowerHex(c: char) {
    '0' <= c <= '9' || 'a' <= c <= 'f'
  }

  predicate AllLowerHex(s: string) {
    forall i :: 0 <= i < |s| ==> IsLowerHex(s[i])
  }

  /** The lower-case hex digit for a nibble, as in "0123456789abcdef". */
  function HexDigit(n: nat): (c: char)
    requires n < 16
    ensures HexNibble(c) == Some(n)
    ensures IsLowerHex(c)
  {
    if n < 10 then ('0' as int + n) as char else ('a' as int + n - 10) as char
  }

  function HexNibble(c: char): Option<nat>
  {
    if '0' <= c <= '9' then Some(c as int - '0' as int)
    else if 'a' <= c <= 'f' then Some(c as int - 'a' as int + 10)
    else if 'A' <= c <= 'F' then Some(c as int - 'A' as int + 10)
    else None
  }

  predicate AllHex(s: string) {
    forall i :: 0 <= i < |s| ==> HexNibble(s[i]).Some?
  }

  /** hex.EncodeToString: two lower-case digits per byte. */
  function HexEncode(bs: seq<byte>): (r: string)
    ensures |r| == 2 * |bs|
    ensures AllHex(r) && AllLowerHex(r)
  {
    if bs == [] then ""
    else [HexDigit(bs[0] as int / 16), HexDigit(bs[0] as int % 16)] + HexEncode(bs[1..])
  }

  /**
   * hex.DecodeString: the first invalid byte is reported, and only then an
   * odd length.
   */
  function HexDecode(s: string): (r: Result<seq<byte>, string>)
    ensures r.Ok? <==> AllHex(s) && |s| % 2 == 0
    ensures r.Ok? ==> 2 * |r.value| == |s|
    ensures !AllHex(s) ==> r == Err(InvalidByteText(s[FirstNonHex(s)]))
    ensures AllHex(s) && |s| % 2 == 1 ==> r == Err("encoding/hex: odd length hex string")
  {
    if !AllHex(s) then Err(InvalidByteText(s[FirstNonHex(s)]))
    else if |s| % 2 == 1 then Err("encoding/hex: odd length hex string")
    else Ok(HexPairs(s))
  }

  /** The position of the first byte that is not a hex digit. */
  function FirstNonHex(s: string): (i: nat)
    requires !AllHex(s)
    ensures i < |s| && HexNibble(s[i]).None?
    ensures forall k :: 0 <= k < i ==> HexNibble(s[k]).Some?
  {
    if HexNibble(s[0]).None? then 0
    else
      assert !AllHex(s[1..]) by {
        var j :| 0 <= j < |s| && HexNibble(s[j]).None?;
        assert s[1..][j - 1] == s[j];
      }
      1 + FirstNonHex(s[1..])
  }

  /**
   * The text of hex.InvalidByteError, `%#U` of the byte as a rune: "U+",
   * at least four upper-case hex digits, then the quoted character when
   * strconv.IsPrint holds for it. The strings here hold bytes, so only the
   * Latin-1 part of IsPrint is needed: ' '..'~' and U+00A1..U+00FF except
   * the soft hyphen U+00AD, the latter written as two UTF-8 bytes.
   */
  function InvalidByteText(c: char): (r: string)
    ensures HasPrefix(r, "encoding/hex: invalid byte: U+")
  {
    var n := c as int;
    var quoted :=
      if 0x20 <= n <= 0x7E then " '" + [c] + "'"
      else if 0xA1 <= n <= 0xFF && n != 0xAD then
        " '" + [(0xC0 + n / 64) as char, (0x80 + n % 64) as char] + "'"
      else "";
    "encoding/hex: invalid byte: U+" + UpperHexPadded(n) + quoted
  }

  /** `%04X`: upper-case hex digits, padded with zeros to at least four. */
  function UpperHexPadded(n: nat): (r: string)
    ensures |r| >= 4
    ensures forall i :: 0 <= i < |r| ==> '0' <= r[i] <= '9' || 'A' <= r[i] <= 'F'
  {
    var d := UpperHex(n);
    seq(if |d| < 4 then 4 - |d| else 0, _ => '0') + d
  }

  /** The upper-case hex digits of `n`, most significant first. */
  function UpperHex(n: nat): (r: string)
    ensures |r| >= 1
    ensures forall i :: 0 <= i < |r| ==> '0' <= r[i] <= '9' || 'A' <= r[i] <= 'F'
  {
    var last := n % 16;
    var digit := if last < 10 then ('0' as int + last) as char else ('A' as int + last - 10) as char;
    if n < 16 then [digit] else UpperHex(n / 16) + [digit]
  }

  /** The message of the example in the encoding/hex documentation. */
  lemma InvalidByteTextOfG()
    ensures InvalidByteText('g') == "encoding/hex: invalid byte: U+0067 'g'"
  {
    assert UpperHex(0x67) == "67" by {
      assert UpperHex(6) == "6";
    }
  }

  function HexPairs(s: string): (r: seq<byte>)
    requires AllHex(s) && |s| % 2 == 0
    ensures 2 * |r| == |s|
  {
    if s == [] then []
    else [(HexNibble(s[0]).value * 16 + HexNibble(s[1]).value) as byte] + HexPairs(s[2..])
  }

  /** Decoding an encoding gives the bytes back. */
  lemma {:induction false} HexRoundTrip(bs: seq<byte>)
    ensures HexDecode(HexEncode(bs)) == Ok(bs)
  {
    HexPairsOfEncode(bs);
  }

  lemma {:induction false} HexPairsOfEncode(bs: seq<byte>)
    ensures HexPairs(HexEncode(bs)) == bs
  {
    if bs != [] {
      var e := HexEncode(bs);
      var tail := HexEncode(bs[1..]);
      var b := bs[0] as int;
      assert HexPairs(e) == [b as byte] + HexPairs(tail) by {
        var hi, lo := HexDigit(b / 16), HexDigit(b % 16);
        assert e == [hi, lo] + tail;
        assert e[0] == hi && e[1] == lo && e[2..] == tail;
        assert HexNibble(hi).value * 16 + HexNibble(lo).value == b;
      }
      HexPairsOfEncode(bs[1..]);
    }
  }

  /** Lower-case hex is the one encoding of its bytes: encoding the decoded bytes gives the text back. */
  lemma {:induction false} LowerHexEncodesBack(s: string)
    requires AllLowerHex(s) && |s| % 2 == 0
    ensures HexDecode(s).Ok? && HexEncode(HexDecode(s).value) == s
    decreases |s|
  {
    assert AllHex(s) by {
      forall i | 0 <= i < |s| ensures HexNibble(s[i]).Some? { assert IsLowerHex(s[i]); }
    }
    if s != [] {
      var t := s[2..];
      assert AllLowerHex(t) by {
        forall i | 0 <= i < |t| ensures IsLowerHex(t[i]) { assert t[i] == s[i + 2]; }
      }
      LowerHexEncodesBack(t);
      var b := HexNibble(s[0]).value * 16 + HexNibble(s[1]).value;
      assert HexPairs(s) == [b as byte] + HexPairs(t);
      DigitOfNibble(s[0]);
      DigitOfNibble(s[1]);
      assert b / 16 == HexNibble(s[0]).value && b % 16 == HexNibble(s[1]).value;
      assert s == [s[0], s[1]] + t;
    }
  }

  lemma DigitOfNibble(c: char)
    requires IsLowerHex(c)
    ensures HexNibble(c).Some? && HexNibble(c).value < 16 && HexDigit(HexNibble(c).value) == c
  {
  }
}

=== FILE: limits.dfy ===
/** Discord embeds as plain values, and the length limits of bot/limits.go. */
module Embeds {
  import opened Wrappers

  datatype Field = Field(name: string, value: string, inline: bool)

  /**
   * A Discord embed. Optional parts are None when the Go code leaves the
   * pointer nil; the timestamp is an abstract instant.
   */
  datatype Embed = Embed(
    title: string,
    url: string,
    color: int,
    description: string,
    authorName: Option<string>,
    thumbnail: Option<string>,
    image: Option<string>,
    footer: Option<string>,
    timestamp: Option<int>,
    fields: seq<Field>)

  /** The zero value of disgord.Embed. */
  const Blank: Embed := Embed("", "", 0, "", None, None, None, None, None, [])
}

module Limits {
  import opened Embeds

  const ContentCharLimit: nat := 2000
  const TitleCharLimit: nat := 256
  const DescriptionCharLimit: nat := 2048
  const FieldCountLimit: nat := 25
  const FieldNameCharLimit: nat := 256
  const FieldValueCharLimit: nat := 1024
  const FooterTextCharLimit: nat := 2048
  const AuthorNameCharLimit: nat := 256

  function Min(a: nat, b: nat): nat { if a <= b then a else b }

  /** ContentTooLong: the byte length of the content is over the limit. */
  predicate ContentTooLong(content: string)
    ensures ContentTooLong(content) <==> content[..Min(|content|, ContentCharLimit)] != content
  {
    |content| > ContentCharLimit
  }

  /** EmbedDescriptionTooLong: only the description is measured. */
  predicate EmbedDescriptionTooLong(embed: Embed)
    ensures EmbedDescriptionTooLong(embed) ==> ContentTooLong(embed.description)
    ensures EmbedDescriptionTooLong(embed) <==>
      embed.description[..Min(|embed.description|, DescriptionCharLimit)] != embed.description
  {
    |embed.description| > DescriptionCharLimit
  }

  /** Content of exactly the limit is accepted; one byte more is not. */
  lemma ContentLimitBoundary(content: string)
    ensures |content| <= 2000 ==> !ContentTooLong(content)
    ensures |content| == 2001 ==> ContentTooLong(content)
    ensures ContentTooLong(content) <==> |content| > 2000
  {
  }

  /** Two embeds with the same description are judged alike. */
  lemma DescriptionOnlyMatters(a: Embed, b: Embed)
    requires a.description == b.description
    ensures EmbedDescriptionTooLong(a) == EmbedDescriptionTooLong(b)
    ensures EmbedDescriptionTooLong(a) <==> |a.description| > 2048
  {
  }
}

=== FILE: matchurl.dfy ===
/**
 * fetch/matchurl.go: finding Codeforces links in a chat message.
 *
 * The regular expressions that find the links are not modelled: a match
 * finder is a parameter returning the spans of the matches, and url.Parse is
 * a parameter returning the fragment of a URL it accepts. The filtering,
 * spoiler removal, comment id and line range logic around them is modelled.
 */
module MatchURL {
  import opened Wrappers
  import opened GoStrings

  // ---------------------------------------------------------------------
  // Spoilers

  const Marker: string := "||"

  /** `a` is obtained from `b` by deleting bytes. */
  predicate Subsequence(a: string, b: string)
    decreases |b|
  {
    if b == [] then a == []
    else (a != [] && a[0] == b[0] && Subsequence(a[1..], b[1..])) || Subsequence(a, b[1..])
  }

  lemma {:induction false} SubsequenceRefl(a: string)
    ensures Subsequence(a, a)
    decreases |a|
  {
    if a != [] {
      SubsequenceRefl(a[1..]);
    }
  }

  lemma {:induction false} SubsequenceDropFront(a: string, d: string, b: string)
    requires Subsequence(a, b)
    ensures Subsequence(a, d + b)
    decreases |d|
  {
    if d == [] {
      assert d + b == b;
    } else {
      assert (d + b)[1..] == d[1..] + b;
      SubsequenceDropFront(a, d[1..], b);
      assert Subsequence(a, (d + b)[1..]);
    }
  }

  lemma {:induction false} SubsequenceKeepFront(p: string, a: string, b: string)
    requires Subsequence(a, b)
    ensures Subsequence(p + a, p + b)
    decreases |p|
  {
    if p == [] {
      assert p + a == a && p + b == b;
    } else {
      assert (p + a)[1..] == p[1..] + a;
      assert (p + b)[1..] == p[1..] + b;
      SubsequenceKeepFront(p[1..], a, b);
      assert (p + a)[0] == (p + b)[0];
    }
  }

  /**
   * removeSpoilers: the text before the first marker is kept, and the rest
   * is read as the inside of a spoiler.
   */
  function RemoveSpoilers(s: string): (r: string)
    ensures Index(s, Marker).None? ==> r == s
    decreases |s|
  {
    match Index(s, Marker)
    case None => s
    case Some(i) => s[..i] + AfterOpen(s[i + 2..])
  }

  /**
   * The text after an opening marker: everything up to the closing marker
   * is dropped; without one, the opening marker is kept with the rest.
   */
  function AfterOpen(rest: string): (r: string)
    ensures Index(rest, Marker).None? ==> r == Marker + rest
    decreases |rest|
  {
    match Index(rest, Marker)
    case None => Marker + rest
    case Some(j) => RemoveSpoilers(rest[j + 2..])
  }

  /** Spoiler removal only deletes bytes, and text without a marker is kept whole. */
  lemma {:induction false} RemoveSpoilersDeletesOnly(s: string)
    ensures Subsequence(RemoveSpoilers(s), s)
    ensures Index(s, Marker).None? ==> RemoveSpoilers(s) == s
    decreases |s|
  {
    match Index(s, Marker)
    case None =>
      SubsequenceRefl(s);
    case Some(i) =>
      var rest := s[i + 2..];
      AfterOpenDeletesOnly(rest);
      assert s[i..i + 2] == Marker;
      assert s == s[..i] + (Marker + rest);
      SubsequenceKeepFront(s[..i], AfterOpen(rest), Marker + rest);
  }

  /** What is kept after an opening marker is a subsequence of the marker and the rest. */
  lemma {:induction false} AfterOpenDeletesOnly(rest: string)
    ensures Subsequence(AfterOpen(rest), Marker + rest)
    decreases |rest|
  {
    match Index(rest, Marker)
    case None =>
      SubsequenceRefl(Marker + rest);
    case Some(j) =>
      var front, tail := rest[..j + 2], rest[j + 2..];
      assert AfterOpen(rest) == RemoveSpoilers(tail);
      RemoveSpoilersDeletesOnly(tail);
      assert rest == front + tail;
      var d := Marker + front;
      assert d + tail == Marker + rest;
      SubsequenceDropFront(RemoveSpoilers(tail), d, tail);
  }

  /**
   * The first marker of `a + Marker + b` is the one after `a` exactly when
   * no marker starts inside `a`, including one made of `a`'s last byte and
   * the marker's first.
   */
  predicate NoMarkerBefore(a: string) {
    Index(a + "|", Marker).None?
  }

  lemma MarkerAt(a: string, b: string)
    requires NoMarkerBefore(a)
    ensures Index(a + Marker + b, Marker) == Some(|a|)
  {
    var s := a + Marker + b;
    var p := a + "|";
    assert OccursAt(s, Marker, |a|) by {
      assert s[|a|..|a| + 2] == Marker;
    }
    forall v: nat | v < |a|
      ensures !OccursAt(s, Marker, v)
    {
      assert s[v..v + 2] == p[v..v + 2];
      assert !OccursAt(p, Marker, v);
    }
  }

  /** A paired spoiler is removed with both markers; the text before it is kept. */
  lemma RemovePairedSpoiler(a: string, b: string, c: string)
    requires NoMarkerBefore(a) && NoMarkerBefore(b)
    ensures RemoveSpoilers(a + Marker + b + Marker + c) == a + RemoveSpoilers(c)
  {
    var inner := b + Marker + c;
    OpenAt(a, inner);
    CloseAt(b, c);
    calc {
      RemoveSpoilers(a + Marker + b + Marker + c);
      { RegroupPair(a, b, c); }
      RemoveSpoilers(a + Marker + inner);
      a + AfterOpen(inner);
      a + RemoveSpoilers(c);
    }
  }

  lemma RegroupPair(a: string, b: string, c: string)
    ensures a + Marker + b + Marker + c == a + Marker + (b + Marker + c)
  {
  }

  /** A last marker without a partner is kept, and so is everything after it. */
  lemma KeepUnmatchedMarker(a: string, b: string)
    requires NoMarkerBefore(a)
    requires Index(b, Marker).None?
    ensures RemoveSpoilers(a + Marker + b) == a + Marker + b
  {
    OpenAt(a, b);
  }

  /** The first marker opens a spoiler right after `a`. */
  lemma OpenAt(a: string, rest: string)
    requires NoMarkerBefore(a)
    ensures RemoveSpoilers(a + Marker + rest) == a + AfterOpen(rest)
  {
    var s := a + Marker + rest;
    MarkerAt(a, rest);
    assert s[..|a|] == a && s[|a| + 2..] == rest by {
      assert s == a + (Marker + rest);
    }
  }

  /** After an opening marker, the next marker closes the spoiler. */
  lemma CloseAt(b: string, c: string)
    requires NoMarkerBefore(b)
    ensures AfterOpen(b + Marker + c) == RemoveSpoilers(c)
  {
    var inner := b + Marker + c;
    MarkerAt(b, c);
    assert inner[|b| + 2..] == c by {
      assert inner == b + (Marker + c);
    }
  }

  // ---------------------------------------------------------------------
  // Matches

  /** The byte span [start, end) of one regular expression match. */
  datatype Span = Span(start: nat, end: nat)

  predicate SpansIn(s: string, spans: seq<Span>) {
    forall i :: 0 <= i < |spans| ==> spans[i].start <= spans[i].end <= |s|
  }

  /** checkEmbedsSuppressed: the match is enclosed in `<` and `>`. */
  predicate EmbedsSuppressed(s: string, start: nat, end: nat)
    requires start <= end <= |s|
    ensures EmbedsSuppressed(s, start, end) <==>
      0 < start && end < |s| && s[start - 1..end + 1] == "<" + s[start..end] + ">"
  {
    start > 0 && s[start - 1] == '<' && end < |s| && s[end] == '>'
  }

  /** A link written as `<url>` is suppressed; one at the very start or end is not. */
  lemma BracketedIsSuppressed(a: string, u: string, b: string)
    ensures EmbedsSuppressed(a + "<" + u + ">" + b, |a| + 1, |a| + 1 + |u|)
    ensures !EmbedsSuppressed(u + b, 0, |u|)
    ensures !EmbedsSuppressed(a + u, |a|, |a| + |u|)
  {
    var s := a + "<" + u + ">" + b;
    assert s[|a|] == '<';
    assert s[|a| + 1 + |u|] == '>';
  }

  /** url.Parse as a parameter: the fragment of an accepted URL, None when it fails. */
  type UrlParser = string -> Option<string>

  /** A kept match: its text and its URL fragment. */
  datatype Found = Found(url: string, fragment: string)

  /**
   * The loop shared by the Parse*URLs functions: suppressed matches and
   * matches url.Parse rejects are skipped, the rest kept in order.
   */
  function KeepMatches(s: string, spans: seq<Span>, parse: UrlParser): (r: seq<Found>)
    requires SpansIn(s, spans)
    ensures |r| <= |spans|
    ensures |spans| == 1 ==> r == (if Kept(s, spans[0], parse).Some? then [Kept(s, spans[0], parse).value] else [])
    decreases |spans|
  {
    if spans == [] then []
    else
      var rest := KeepMatches(s, spans[1..], parse);
      match Kept(s, spans[0], parse)
      case None => rest
      case Some(f) => [f] + rest
  }

  /** Every kept result is the kept form of some span: the `i`-th comes from span `k`. */
  lemma {:induction false} KeepMatchesFromSpans(s: string, spans: seq<Span>, parse: UrlParser, i: nat) returns (k: nat)
    requires SpansIn(s, spans) && i < |KeepMatches(s, spans, parse)|
    ensures k < |spans| && Kept(s, spans[k], parse) == Some(KeepMatches(s, spans, parse)[i])
    decreases |spans|
  {
    var tail := spans[1..];
    var rest := KeepMatches(s, tail, parse);
    match Kept(s, spans[0], parse)
    case None =>
      assert KeepMatches(s, spans, parse) == rest;
      var j := KeepMatchesFromSpans(s, tail, parse, i);
      k := j + 1;
    case Some(f) =>
      assert KeepMatches(s, spans, parse) == [f] + rest;
      if i == 0 {
        k := 0;
      } else {
        var j := KeepMatchesFromSpans(s, tail, parse, i - 1);
        k := j + 1;
      }
  }

  /**
   * Every span that is kept shows up in the result, after the results of
   * the spans before it: the `k`-th span's result is at index `i`.
   */
  lemma KeepMatchesKeepsSpan(s: string, spans: seq<Span>, parse: UrlParser, k: nat) returns (i: nat)
    requires SpansIn(s, spans) && k < |spans| && Kept(s, spans[k], parse).Some?
    ensures SpansIn(s, spans[..k]) && i == |KeepMatches(s, spans[..k], parse)|
    ensures i < |KeepMatches(s, spans, parse)| && KeepMatches(s, spans, parse)[i] == Kept(s, spans[k], parse).value
  {
    var a, b := spans[..k], spans[k..];
    assert SpansIn(s, a) && SpansIn(s, b) by {
      forall j | 0 <= j < |a| ensures a[j] == spans[j] { }
      forall j | 0 <= j < |b| ensures b[j] == spans[k + j] { }
    }
    assert spans == a + b;
    KeepMatchesAppend(s, a, b, parse);
    assert b[0] == spans[k];
    var x := KeepMatches(s, a, parse);
    assert KeepMatches(s, b, parse)[0] == Kept(s, spans[k], parse).value;
    i := |x|;
  }

  /** What becomes of one match. */
  function Kept(s: string, sp: Span, parse: UrlParser): (r: Option<Found>)
    requires sp.start <= sp.end <= |s|
    ensures r.Some? <==> !EmbedsSuppressed(s, sp.start, sp.end) && parse(s[sp.start..sp.end]).Some?
    ensures r.Some? ==> r.value == Found(s[sp.start..sp.end], parse(s[sp.start..sp.end]).value)
  {
    if EmbedsSuppressed(s, sp.start, sp.end) then None
    else
      var u := s[sp.start..sp.end];
      match parse(u)
      case None => None
      case Some(frag) => Some(Found(u, frag))
  }

  /** Matches are reported in the order they were found: the result of a concatenation is the concatenation. */
  lemma {:induction false} KeepMatchesAppend(s: string, a: seq<Span>, b: seq<Span>, parse: UrlParser)
    requires SpansIn(s, a) && SpansIn(s, b)
    ensures SpansIn(s, a + b)
    ensures KeepMatches(s, a + b, parse) == KeepMatches(s, a, parse) + KeepMatches(s, b, parse)
    decreases |a|
  {
    if a == [] {
      assert a + b == b;
    } else {
      var ab := a + b;
      assert ab[0] == a[0] && ab[1..] == a[1..] + b;
      KeepMatchesAppend(s, a[1..], b, parse);
      var x, y := KeepMatches(s, a[1..], parse), KeepMatches(s, b, parse);
      assert KeepMatches(s, ab[1..], parse) == x + y;
      match Kept(s, a[0], parse)
      case None =>
      case Some(f) =>
        assert [f] + (x + y) == ([f] + x) + y;
    }
  }

  // ---------------------------------------------------------------------
  // Comment ids and line numbers

  /** The longest run of digits at the front of `s`. */
  function LeadingDigits(s: string): (r: string)
    ensures |r| <= |s| && r == s[..|r|] && AllDigits(r)
    ensures |r| < |s| ==> !IsDigit(s[|r|])
    decreases |s|
  {
    if s == [] || !IsDigit(s[0]) then ""
    else [s[0]] + LeadingDigits(s[1..])
  }

  const CommentPrefix: string := "comment-"

  /** Where `comment-(\d+)` can start matching. */
  predicate CommentAt(f: string, k: nat) {
    k + 9 <= |f| && f[k..k + 8] == CommentPrefix && IsDigit(f[k + 8])
  }

  /** `comment-(\d+)` matches at `k` and nowhere before it. */
  predicate LeftmostCommentAt(f: string, k: nat) {
    CommentAt(f, k) && forall j: nat :: j < k ==> !CommentAt(f, j)
  }

  /**
   * The first group of the leftmost match of `comment-(\d+)` in a
   * fragment, "" when there is none.
   */
  function CommentId(f: string): (r: string)
    ensures AllDigits(r)
    ensures r == "" <==> forall k: nat :: !CommentAt(f, k)
    ensures r != "" ==> exists k: nat :: LeftmostCommentAt(f, k) && r == LeadingDigits(f[k + 8..])
    decreases |f|
  {
    if |f| < 9 then ""
    else if CommentAt(f, 0) then
      assert LeftmostCommentAt(f, 0);
      LeadingDigits(f[8..])
    else
      var r := CommentId(f[1..]);
      CommentStep(f, r);
      r
  }

  lemma CommentStep(f: string, r: string)
    requires |f| >= 1
    requires r == "" <==> forall k: nat :: !CommentAt(f[1..], k)
    requires r != "" ==> exists k: nat :: LeftmostCommentAt(f[1..], k) && r == LeadingDigits(f[1..][k + 8..])
    requires !CommentAt(f, 0)
    ensures r == "" <==> forall k: nat :: !CommentAt(f, k)
    ensures r != "" ==> exists k: nat :: LeftmostCommentAt(f, k) && r == LeadingDigits(f[k + 8..])
  {
    ShiftCommentAt(f);
    if r != "" {
      var k: nat :| LeftmostCommentAt(f[1..], k) && r == LeadingDigits(f[1..][k + 8..]);
      assert f[1..][k + 8..] == f[k + 9..];
      forall j: nat | j < k + 1
        ensures !CommentAt(f, j)
      {
        if j > 0 { assert !CommentAt(f[1..], j - 1); }
      }
      assert LeftmostCommentAt(f, k + 1);
    } else {
      forall k: nat ensures !CommentAt(f, k) {
        if k > 0 { assert !CommentAt(f[1..], k - 1); }
      }
    }
  }

  lemma ShiftCommentAt(f: string)
    requires |f| >= 1
    ensures forall k: nat :: CommentAt(f[1..], k) <==> CommentAt(f, k + 1)
  {
    forall k: nat ensures CommentAt(f[1..], k) <==> CommentAt(f, k + 1) {
      if k + 10 <= |f| {
        assert f[1..][k..k + 8] == f[k + 1..k + 9];
      }
    }
  }

  /** The digits after "comment-" are read back as written. */
  lemma CommentIdOfDecimal(n: nat)
    ensures CommentId(CommentPrefix + NatToDecimal(n)) == NatToDecimal(n)
  {
    var d := NatToDecimal(n);
    var f := CommentPrefix + d;
    assert f[..8] == CommentPrefix;
    assert f[8] == d[0];
    assert f[8..] == d;
    AllDigitsLeading(d);
  }

  lemma {:induction false} AllDigitsLeading(d: string)
    requires AllDigits(d)
    ensures LeadingDigits(d) == d
    decreases |d|
  {
    if d != [] {
      AllDigitsLeading(d[1..]);
    }
  }

  /** The groups of a `L(\d+)(?:-L(\d+))?` match; `second` is "" when the group did not take part. */
  datatype LineNums = LineNums(first: string, second: string)

  predicate LineAt(f: string, k: nat) {
    k + 2 <= |f| && f[k] == 'L' && IsDigit(f[k + 1])
  }

  /** The groups of the match starting just after its `L`. */
  function GroupsAfterL(s: string): (r: LineNums)
    requires s != [] && IsDigit(s[0])
    ensures r.first != [] && AllDigits(r.first) && AllDigits(r.second)
    ensures r.first == LeadingDigits(s)
  {
    var a := LeadingDigits(s);
    var rest := s[|a|..];
    if |rest| >= 3 && rest[0] == '-' && rest[1] == 'L' && IsDigit(rest[2]) then
      LineNums(a, LeadingDigits(rest[2..]))
    else LineNums(a, "")
  }

  /** `L\d` starts at `k` and nowhere before it. */
  predicate LeftmostLineAt(f: string, k: nat) {
    LineAt(f, k) && forall j: nat :: j < k ==> !LineAt(f, j)
  }

  /** The leftmost match of `L(\d+)(?:-L(\d+))?`, digits greedy and the optional part preferred. */
  function LineMatch(f: string): (r: Option<LineNums>)
    ensures r.None? <==> forall k: nat :: !LineAt(f, k)
    ensures r.Some? ==> exists k: nat :: LeftmostLineAt(f, k) && r.value == GroupsAfterL(f[k + 1..])
    decreases |f|
  {
    if |f| < 2 then None
    else if LineAt(f, 0) then
      assert LeftmostLineAt(f, 0);
      Some(GroupsAfterL(f[1..]))
    else
      var r := LineMatch(f[1..]);
      LineStep(f, r);
      r
  }

  lemma LineStep(f: string, r: Option<LineNums>)
    requires |f| >= 1 && !LineAt(f, 0)
    requires r.None? <==> forall k: nat :: !LineAt(f[1..], k)
    requires r.Some? ==> exists k: nat :: LeftmostLineAt(f[1..], k) && r.value == GroupsAfterL(f[1..][k + 1..])
    ensures r.None? <==> forall k: nat :: !LineAt(f, k)
    ensures r.Some? ==> exists k: nat :: LeftmostLineAt(f, k) && r.value == GroupsAfterL(f[k + 1..])
  {
    assert forall k: nat :: LineAt(f[1..], k) <==> LineAt(f, k + 1);
    if r.Some? {
      var k: nat :| LeftmostLineAt(f[1..], k) && r.value == GroupsAfterL(f[1..][k + 1..]);
      assert f[1..][k + 1..] == f[k + 2..];
      forall j: nat | j < k + 1
        ensures !LineAt(f, j)
      {
        if j > 0 { assert !LineAt(f[1..], j - 1); }
      }
      assert LeftmostLineAt(f, k + 1);
    } else {
      forall k: nat ensures !LineAt(f, k) {
        if k > 0 { assert !LineAt(f[1..], k - 1); }
      }
    }
  }

  /**
   * The line range of a submission link: begin from the first group and end
   * from the second, end = begin when the second is missing or too large
   * for an int (Atoi's error discards its saturated value), swapped
   * when begin > end; (0, 0) without a match. A first group too large for
   * an int leaves Atoi's saturated value as begin and 0 as end, so the swap
   * gives (0, MaxInt64).
   */
  function LineRange(f: string): (r: (int, int))
    ensures r.0 <= r.1
    ensures LineMatch(f).None? ==> r == (0, 0)
    ensures LineMatch(f).Some? ==>
      var g := LineMatch(f).value;
      var a := DigitsValue(g.first);
      (a <= MaxInt64 && (g.second == "" || DigitsValue(g.second) > MaxInt64) ==> r == (a, a)) &&
      (a <= MaxInt64 && g.second != "" && DigitsValue(g.second) <= MaxInt64 ==>
        r == (if a <= DigitsValue(g.second) then (a, DigitsValue(g.second)) else (DigitsValue(g.second), a))) &&
      (a > MaxInt64 ==> r == (0, MaxInt64))
  {
    match LineMatch(f)
    case None => (0, 0)
    case Some(g) =>
      var first := Atoi(g.first);
      var (b, e) :=
        if first.ok then
          var second := Atoi(g.second);
          if second.ok then (first.value, second.value) else (first.value, first.value)
        else (first.value, 0);
      if b > e then (e, b) else (b, e)
  }

  /** A link to one line reads back as that line. */
  lemma LineRangeOfOneLine(n: nat)
    requires n <= MaxInt64
    ensures LineRange("L" + NatToDecimal(n)) == (n, n)
  {
    var d := NatToDecimal(n);
    var f := "L" + d;
    assert LineAt(f, 0) && f[1..] == d;
    AllDigitsLeading(d);
    assert d[|d|..] == [];
    DecimalRoundTrip(n);
  }

  /** A link to a range reads back as that range, in increasing order. */
  lemma LineRangeOfRange(a: nat, b: nat)
    requires a <= MaxInt64 && b <= MaxInt64
    ensures LineRange("L" + NatToDecimal(a) + "-L" + NatToDecimal(b)) == (if a <= b then (a, b) else (b, a))
  {
    DecimalRoundTrip(a);
    DecimalRoundTrip(b);
    LineRangeOfDigits(NatToDecimal(a), NatToDecimal(b));
  }

  lemma LineRangeOfDigits(da: string, db: string)
    requires da != [] && AllDigits(da) && db != [] && AllDigits(db)
    requires DigitsValue(da) <= MaxInt64 && DigitsValue(db) <= MaxInt64
    ensures var a := DigitsValue(da);
      var b := DigitsValue(db);
      LineRange("L" + da + "-L" + db) == (if a <= b then (a, b) else (b, a))
  {
    LineMatchOfRange(da, db);
    LineRangeOfGroups("L" + da + "-L" + db, da, db);
  }

  lemma LineMatchOfRange(da: string, db: string)
    requires da != [] && AllDigits(da) && db != [] && AllDigits(db)
    ensures LineMatch("L" + da + "-L" + db) == Some(LineNums(da, db))
  {
    var t := da + "-L" + db;
    var f := "L" + t;
    assert "L" + da + "-L" + db == f;
    assert f[1..] == t;
    assert LineAt(f, 0) by { assert f[1] == t[0] == da[0]; }
    LineMatchAtStart(f);
    RangeGroups(da, db);
  }

  lemma LineMatchAtStart(f: string)
    requires LineAt(f, 0)
    ensures LineMatch(f) == Some(GroupsAfterL(f[1..]))
  {
  }

  lemma LineRangeOfGroups(f: string, da: string, db: string)
    requires AllDigits(da) && AllDigits(db) && db != []
    requires LineMatch(f) == Some(LineNums(da, db))
    requires DigitsValue(da) <= MaxInt64 && DigitsValue(db) <= MaxInt64
    ensures var a := DigitsValue(da);
      var b := DigitsValue(db);
      LineRange(f) == (if a <= b then (a, b) else (b, a))
  {
  }

  lemma RangeGroups(da: string, db: string)
    requires da != [] && AllDigits(da) && db != [] && AllDigits(db)
    ensures GroupsAfterL(da + "-L" + db) == LineNums(da, db)
  {
    var t := "-L" + db;
    var s := da + t;
    assert da + "-L" + db == s;
    LeadingDigitsStops(da, t);
    assert LeadingDigits(s) == da;
    var rest := s[|da|..];
    assert rest == t;
    assert |rest| >= 3 && rest[0] == '-' && rest[1] == 'L' && IsDigit(rest[2]);
    AllDigitsLeading(db);
    assert rest[2..] == db;
    assert GroupsAfterL(s) == LineNums(da, LeadingDigits(rest[2..]));
  }

  lemma {:induction false} LeadingDigitsStops(d: string, t: string)
    requires AllDigits(d)
    requires t != [] && !IsDigit(t[0])
    ensures LeadingDigits(d + t) == d
    decreases |d|
  {
    if d == [] {
      assert d + t == t;
    } else {
      assert (d + t)[1..] == d[1..] + t;
      LeadingDigitsStops(d[1..], t);
    }
  }

  // ---------------------------------------------------------------------
  // The three parsers

  /** A match finder: the spans of all matches of one regular expression. */
  type Finder = string -> seq<Span>

  ghost predicate FinderSound(find: Finder) {
    forall s :: SpansIn(s, find(s))
  }

  datatype BlogURLMatch = BlogURLMatch(url: string, commentId: string)
  datatype ProblemURLMatch = ProblemURLMatch(url: string)
  datatype SubmissionURLMatch = SubmissionURLMatch(url: string, lineBegin: int, lineEnd: int)

  function BlogMatches(found: seq<Found>): (r: seq<BlogURLMatch>)
    ensures |r| == |found|
    ensures forall i :: 0 <= i < |r| ==> r[i].url == found[i].url && r[i].commentId == CommentId(found[i].fragment)
  {
    seq(|found|, i requires 0 <= i < |found| => BlogURLMatch(found[i].url, CommentId(found[i].fragment)))
  }

  /** ParseBlogURLs: kept blog links with the comment id of their fragment. */
  function ParseBlogURLs(text: string, find: Finder, parse: UrlParser): (r: seq<BlogURLMatch>)
    requires FinderSound(find)
    ensures var s := RemoveSpoilers(text);
      r == BlogMatches(KeepMatches(s, find(s), parse))
    ensures forall i :: 0 <= i < |r| ==> AllDigits(r[i].commentId)
  {
    var s := RemoveSpoilers(text);
    BlogMatches(KeepMatches(s, find(s), parse))
  }

  /** ParseProblemURLs: kept problem links. */
  function ParseProblemURLs(text: string, find: Finder, parse: UrlParser): (r: seq<ProblemURLMatch>)
    requires FinderSound(find)
    ensures var s := RemoveSpoilers(text);
      var found := KeepMatches(s, find(s), parse);
      |r| == |found| && forall i :: 0 <= i < |r| ==> r[i].url == found[i].url
  {
    var s := RemoveSpoilers(text);
    var found := KeepMatches(s, find(s), parse);
    seq(|found|, i requires 0 <= i < |found| => ProblemURLMatch(found[i].url))
  }

  /** ParseSubmissionURLs: kept submission links with their line range. */
  function ParseSubmissionURLs(text: string, find: Finder, parse: UrlParser): (r: seq<SubmissionURLMatch>)
    requires FinderSound(find)
    ensures var s := RemoveSpoilers(text);
      var found := KeepMatches(s, find(s), parse);
      |r| == |found| && forall i :: 0 <= i < |r| ==>
        r[i].url == found[i].url && (r[i].lineBegin, r[i].lineEnd) == LineRange(found[i].fragment)
    ensures forall i :: 0 <= i < |r| ==> r[i].lineBegin <= r[i].lineEnd
  {
    var s := RemoveSpoilers(text);
    var found := KeepMatches(s, find(s), parse);
    seq(|found|, i requires 0 <= i < |found| =>
      SubmissionURLMatch(found[i].url, LineRange(found[i].fragment).0, LineRange(found[i].fragment).1))
  }
}

=== FILE: profile.dfy ===
/**
 * fetch/profile.go: a user's rank and colour, from the user info the
 * Codeforces API returns. The API call is outside the model: its outcome
 * is a parameter.
 */
module ProfileFetch {
  import opened Wrappers

  /** The fields of the API's user record that the profile preview reads. */
  datatype User = User(handle: string, rank: string, rating: int, maxRating: int, avatar: string)

  /** A matched profile link: the handle it names and the URL as written. */
  datatype ProfileURLMatch = ProfileURLMatch(handle: string, url: string)

  datatype ProfileInfo = ProfileInfo(user: User, color: int, url: string)

  /** Rank names, in the API's lower case, and their colours. */
  const RankToColor: map<string, int> := map[
    "" := 0x000000,
    "legendary grandmaster" := 0x000000,
    "international grandmaster" := 0xFF0000,
    "grandmaster" := 0xFF0000,
    "international master" := 0xFF8C00,
    "master" := 0xFF8C00,
    "candidate master" := 0xAA00AA,
    "expert" := 0x0000FF,
    "specialist" := 0x03A89E,
    "pupil" := 0x008000,
    "newbie" := 0x808080]

  const Headquarters: string := "headquarters"
  const Unrated: string := "unrated"

  /** Go's map index: the zero value for a missing key. */
  function RankColor(rank: string): (c: int)
    ensures rank !in RankToColor ==> c == 0
    ensures rank in RankToColor ==> c == RankToColor[rank]
  {
    if rank in RankToColor then RankToColor[rank] else 0
  }

  /** An API user without a rank is the headquarters account or an unrated user. */
  function DefaultRank(u: User): (r: User)
    ensures r.rank != ""
    ensures u.rank != "" ==> r == u
    ensures u.rank == "" ==> r == u.(rank := if u.handle == "MikeMirzayanov" then Headquarters else Unrated)
  {
    if u.rank != "" then u
    else if u.handle == "MikeMirzayanov" then u.(rank := Headquarters)
    else u.(rank := Unrated)
  }

  /** Fetcher.Profile, given the outcome of fetching the user info for `m.handle`. */
  function Profile(m: ProfileURLMatch, fetched: Result<User, string>): (r: Result<ProfileInfo, string>)
    ensures fetched.Err? ==> r == Err(fetched.error)
    ensures fetched.Ok? ==> r.Ok? && r.value.url == m.url && r.value.user == DefaultRank(fetched.value)
    ensures r.Ok? ==> r.value.user.rank != "" && r.value.color == RankColor(r.value.user.rank)
  {
    match fetched
    case Err(e) => Err(e)
    case Ok(info) =>
      var u := DefaultRank(info);
      Ok(ProfileInfo(u, RankColor(u.rank), m.url))
  }

  /** Defaulting twice is defaulting once. */
  lemma DefaultRankIdempotent(u: User)
    ensures DefaultRank(DefaultRank(u)) == DefaultRank(u)
  {
  }

  /** Every defaulted rank is missing from the colour table, so such a profile is black. */
  lemma DefaultedProfileIsBlack(m: ProfileURLMatch, u: User)
    requires u.rank == ""
    ensures Profile(m, Ok(u)).Ok? && Profile(m, Ok(u)).value.color == 0
  {
    assert Headquarters !in RankToColor && Unrated !in RankToColor;
  }
}

/** profile.go: the profile embed. */
module ProfileEmbed {
  import opened Wrappers
  import opened GoStrings
  import opened Embeds
  import opened ProfileFetch

  /** The ranks shown without a rating line; compared exactly, case included. */
  predicate ShownWithoutRating(rank: string) {
    rank == "Unrated" || rank == "Headquarters"
  }

  function RatingLine(p: ProfileInfo): string {
    "\nRating: " + IntToDecimal(p.user.rating) + " (max. " + IntToDecimal(p.user.maxRating) + ")"
  }

  /** makeProfileEmbed. */
  function MakeProfileEmbed(p: ProfileInfo): (e: Embed)
    ensures HasPrefix(e.description, p.user.rank)
    ensures e.description == p.user.rank <==> ShownWithoutRating(p.user.rank)
    ensures !ShownWithoutRating(p.user.rank) ==> e.description[|p.user.rank|..] == RatingLine(p)
    ensures e.title == p.user.handle && e.url == p.url && e.color == p.color
    ensures e.thumbnail == Some(p.user.avatar)
    ensures e.authorName.None? && e.footer.None? && e.image.None? && e.fields == []
  {
    var desc := if ShownWithoutRating(p.user.rank) then p.user.rank else p.user.rank + RatingLine(p);
    Blank.(title := p.user.handle, url := p.url, thumbnail := Some(p.user.avatar),
           color := p.color, description := desc)
  }

  /**
   * The ranks the fetcher fills in are lower case, so a user without a rank
   * from the API always gets a rating line: the exact comparison above
   * never matches them.
   */
  lemma DefaultedRankGetsRatingLine(m: ProfileURLMatch, u: User)
    requires u.rank == ""
    ensures var p := Profile(m, Ok(u));
      p.Ok? && MakeProfileEmbed(p.value).description == p.value.user.rank + RatingLine(p.value)
  {
    var p := Profile(m, Ok(u));
    assert p.value.user.rank == Headquarters || p.value.user.rank == Unrated;
    assert Headquarters != "Headquarters" by { assert Headquarters[0] != "Headquarters"[0]; }
    assert Unrated != "Unrated" by { assert Unrated[0] != "Unrated"[0]; }
  }

  /** The rating line carries the rating and the maximum rating, both readable back. */
  lemma RatingLineReadsBack(p: ProfileInfo)
    requires MinInt64 <= p.user.rating <= MaxInt64 && MinInt64 <= p.user.maxRating <= MaxInt64
    ensures var line := RatingLine(p);
      var n := |IntToDecimal(p.user.rating)|;
      Atoi(line[9..9 + n]) == Parsed(p.user.rating, true) &&
      Atoi(line[9 + n + 7..|line| - 1]) == Parsed(p.user.maxRating, true)
  {
    var a := IntToDecimal(p.user.rating);
    var b := IntToDecimal(p.user.maxRating);
    var line := RatingLine(p);
    assert line == "\nRating: " + a + " (max. " + b + ")";
    assert line[9..9 + |a|] == a;
    assert line[9 + |a| + 7..|line| - 1] == b;
    AtoiOfDecimal(p.user.rating);
    AtoiOfDecimal(p.user.maxRating);
  }
}

=== FILE: submission.dfy ===
/**
 * submission.go: replying to a submission link, either with a summary embed
 * or with the selected lines of the source as a code block.
 */
module Submission {
  import opened Wrappers
  import opened GoStrings
  import opened Embeds
  import opened Limits
  import MatchURL

  // ---------------------------------------------------------------------
  // Code snippets

  /** The code block language of each language name Codeforces shows. */
  const LanguageExt: map<string, string> := map[
    "GNU C11" := "c",
    "Clang++17 Diagnostics" := "cpp",
    "GNU C++11" := "cpp",
    "GNU C++14" := "cpp",
    "GNU C++17" := "cpp",
    "MS C++" := "cpp",
    "MS C++ 2017" := "cpp",
    "GNU C++17 (64)" := "cpp",
    "Mono C#" := "cs",
    "D" := "d",
    "Go" := "go",
    "Haskell" := "hs",
    "Java 11" := "java",
    "Java 8" := "java",
    "Kotlin" := "kt",
    "Ocaml" := "ml",
    "Delphi" := "pas",
    "FPC" := "pas",
    "PascalABC.NET" := "pas",
    "Perl" := "pl",
    "Python 2" := "py",
    "Python 3" := "py",
    "Pypy 2" := "py",
    "PyPy 3" := "py",
    "Ruby" := "rb",
    "Rust" := "rs",
    "Scala" := "sc",
    "JavaScript" := "js",
    "Node.js" := "js",
    "GNU C" := "c",
    "GNU C++" := "cpp",
    "GNU C++0x" := "cpp",
    "Java 6" := "java",
    "Java 7" := "java"]

  /** The map lookup, "" for a language missing from the table. */
  function Ext(language: string): (r: string)
    ensures language !in LanguageExt ==> r == ""
    ensures language in LanguageExt ==> r == LanguageExt[language]
  {
    if language in LanguageExt then LanguageExt[language] else ""
  }

  /** clamp: `low` below the range, `high` above it, `x` itself inside. */
  function Clamp(x: int, low: int, high: int): (r: int)
    ensures x < low ==> r == low
    ensures low <= x <= high ==> r == x
    ensures low <= x && x > high ==> r == high
  {
    if x < low then low else if x > high then high else x
  }

  /** With a non-empty range the result is in it, and clamping keeps order. */
  lemma ClampInRangeMonotone(x: int, y: int, low: int, high: int)
    requires low <= high
    ensures low <= Clamp(x, low, high) <= high
    ensures x <= y ==> Clamp(x, low, high) <= Clamp(y, low, high)
  {
  }

  const MaxInt32: int := 0x7FFF_FFFF

  predicate IsBlank(c: char) { c == ' ' || c == '\t' }

  /** The number of blank bytes a line starts with. */
  function Indent(line: string): (r: nat)
    ensures r <= |line|
    ensures forall j :: 0 <= j < r ==> IsBlank(line[j])
    ensures r < |line| ==> !IsBlank(line[r])
    decreases |line|
  {
    if line == [] || !IsBlank(line[0]) then 0 else 1 + Indent(line[1..])
  }

  /** A line with a byte that is neither a space nor a tab. */
  predicate HasText(line: string) {
    Indent(line) < |line|
  }

  /**
   * The smallest indentation of the lines with text, capped at MaxInt32,
   * which is also the answer when no line has text.
   */
  function MinIndent(lines: seq<string>): (r: int)
    ensures 0 <= r <= MaxInt32
    ensures forall i :: 0 <= i < |lines| && HasText(lines[i]) ==> r <= Indent(lines[i])
    ensures r == MaxInt32 || exists i :: 0 <= i < |lines| && HasText(lines[i]) && Indent(lines[i]) == r
    decreases |lines|
  {
    if lines == [] then MaxInt32
    else
      var rest := MinIndent(lines[..|lines| - 1]);
      var last := lines[|lines| - 1];
      if HasText(last) && Indent(last) < rest then Indent(last) else rest
  }

  /** Each line loses its first `k` bytes, or becomes empty when it is no longer than `k`. */
  function Dedent(lines: seq<string>, k: nat): (r: seq<string>)
    ensures |r| == |lines|
    ensures forall i :: 0 <= i < |r| ==> r[i] == (if |lines[i]| > k then lines[i][k..] else "")
  {
    seq(|lines|, i requires 0 <= i < |lines| => if |lines[i]| > k then lines[i][k..] else "")
  }

  /** Dedenting by the smallest indentation removes only spaces and tabs. */
  lemma DedentRemovesOnlyBlanks(lines: seq<string>)
    ensures var out := Dedent(lines, MinIndent(lines));
      forall i :: 0 <= i < |lines| ==>
        |out[i]| <= |lines[i]| && lines[i][|lines[i]| - |out[i]|..] == out[i] &&
        forall j :: 0 <= j < |lines[i]| - |out[i]| ==> IsBlank(lines[i][j])
  {
    var k := MinIndent(lines);
    var out := Dedent(lines, k);
    forall i | 0 <= i < |lines|
      ensures |out[i]| <= |lines[i]| && lines[i][|lines[i]| - |out[i]|..] == out[i]
      ensures forall j :: 0 <= j < |lines[i]| - |out[i]| ==> IsBlank(lines[i][j])
    {
      var line := lines[i];
      assert HasText(line) ==> k <= Indent(line);
      DedentLine(line, k, out[i]);
    }
  }

  lemma DedentLine(line: string, k: nat, out: string)
    requires HasText(line) ==> k <= Indent(line)
    requires out == if |line| > k then line[k..] else ""
    ensures |out| <= |line| && line[|line| - |out|..] == out
    ensures forall j :: 0 <= j < |line| - |out| ==> IsBlank(line[j])
  {
    var n := Indent(line);
    var cut := |line| - |out|;
    if |line| > k {
      assert cut == k && line[cut..] == out;
      assert cut <= n;
    } else {
      assert out == [] && line[cut..] == out;
      assert !HasText(line);
      assert cut <= n;
    }
    BlankPrefix(line, cut);
  }

  /** Every byte before the indentation is a space or a tab. */
  lemma BlankPrefix(line: string, cut: nat)
    requires cut <= Indent(line)
    ensures forall j :: 0 <= j < cut ==> IsBlank(line[j])
  {
  }

  /**
   * Dedenting by the smallest indentation leaves some line starting with
   * text when any line has text indented by no more than the MaxInt32 cap.
   */
  lemma DedentKeepsText(lines: seq<string>, i: nat)
    requires i < |lines| && HasText(lines[i]) && Indent(lines[i]) <= MaxInt32
    ensures var out := Dedent(lines, MinIndent(lines));
      exists m :: 0 <= m < |out| && StartsWithText(out[m])
  {
    var m := TextAtMin(lines, i);
    DedentLineAtMin(lines, m, MinIndent(lines));
  }

  /** Some line with text has exactly the smallest indentation. */
  lemma TextAtMin(lines: seq<string>, i: nat) returns (m: nat)
    requires i < |lines| && HasText(lines[i]) && Indent(lines[i]) <= MaxInt32
    ensures m < |lines| && HasText(lines[m]) && Indent(lines[m]) == MinIndent(lines)
  {
    if MinIndent(lines) < MaxInt32 {
      m :| m < |lines| && HasText(lines[m]) && Indent(lines[m]) == MinIndent(lines);
    } else {
      MinIndentAtCap(lines, i);
      m := i;
    }
  }

  lemma MinIndentAtCap(lines: seq<string>, i: nat)
    requires i < |lines| && HasText(lines[i]) && Indent(lines[i]) <= MaxInt32
    requires MinIndent(lines) >= MaxInt32
    ensures Indent(lines[i]) == MinIndent(lines)
  {
  }

  lemma DedentLineAtMin(lines: seq<string>, m: nat, k: nat)
    requires m < |lines| && HasText(lines[m]) && Indent(lines[m]) == k
    ensures var out := Dedent(lines, k);
      exists m :: 0 <= m < |out| && StartsWithText(out[m])
  {
    DedentAtMin(lines[m], k);
    assert StartsWithText(Dedent(lines, k)[m]);
  }

  lemma DedentAtMin(line: string, k: nat)
    requires HasText(line) && Indent(line) == k
    ensures StartsWithText(line[k..])
  {
    assert line[k..][0] == line[k];
  }

  /** The line's first byte is text, so it has no indentation. */
  predicate StartsWithText(line: string) {
    line != [] && !IsBlank(line[0])
  }

  /** The lines of the code, `\r\n` read as `\n`. */
  function CodeLines(code: string): (r: seq<string>)
    ensures |r| >= 1
    ensures forall i :: 0 <= i < |r| ==> '\n' !in r[i]
    ensures Join(r, "\n") == NormalizeNewlines(code)
  {
    Split(NormalizeNewlines(code), '\n')
  }

  /** Lines written with Windows line ends are read back as the same lines. */
  lemma CodeLinesOfCrlf(lines: seq<string>)
    requires |lines| >= 1
    requires forall i :: 0 <= i < |lines| ==> '\r' !in lines[i] && '\n' !in lines[i]
    ensures CodeLines(Join(lines, "\r\n")) == lines
  {
    NormalizeCrlfJoin(lines);
    SplitJoin(lines, '\n');
  }

  /**
   * The clamped bounds can be used to slice `n` lines: Go's slice
   * expression panics when the low index passes the high one.
   */
  predicate Sliceable(n: nat, begin: int, end: int) {
    Clamp(begin, 1, n) - 1 <= Clamp(end, 1, n)
  }

  /** Ordered bounds always slice, since clamping is monotone. */
  lemma OrderedIsSliceable(n: nat, begin: int, end: int)
    requires 1 <= n && begin <= end
    ensures Sliceable(n, begin, end)
  {
    ClampInRangeMonotone(begin, end, 1, n);
  }

  /** The selected lines: both bounds clamped to the lines there are. */
  function SelectedLines(lines: seq<string>, begin: int, end: int): (r: seq<string>)
    requires 1 <= |lines| && Sliceable(|lines|, begin, end)
    ensures var b := Clamp(begin, 1, |lines|);
      var e := Clamp(end, 1, |lines|);
      1 <= b <= e + 1 && e <= |lines| && r == lines[b - 1..e]
    ensures begin <= end ==> 1 <= |r|
  {
    ClampInRangeMonotone(begin, end, 1, |lines|);
    ClampInRangeMonotone(end, begin, 1, |lines|);
    lines[Clamp(begin, 1, |lines|) - 1..Clamp(end, 1, |lines|)]
  }

  const Fence: string := "```"
  const EmptySelection: string := "Selected lines are empty"

  /**
   * The code block for already selected lines: dedented, tagged with the
   * language, or an error when nothing but blanks is selected. An empty
   * selection counts as all-blank.
   */
  function FormatSnippet(sel: seq<string>, language: string): (r: Result<string, string>)
    ensures var out := Dedent(sel, MinIndent(sel));
      && (r.Err? <==> forall i :: 0 <= i < |out| ==> out[i] == "")
      && (r.Err? ==> r.error == EmptySelection)
      && (r.Ok? ==> r.value == Fence + Ext(language) + "\n" + Join(out, "\n") + Fence)
  {
    var k := MinIndent(sel);
    var out := Dedent(sel, k);
    if forall i :: 0 <= i < |sel| ==> |sel[i]| <= k then Err(EmptySelection)
    else Ok(Fence + Ext(language) + "\n" + Join(out, "\n") + Fence)
  }

  /**
   * The selection is rejected exactly when every selected line is blank:
   * with no text the indentation stays at the MaxInt32 cap, so only a blank
   * line longer than the cap would survive dedenting.
   */
  lemma SnippetErrIffBlank(sel: seq<string>, language: string)
    ensures FormatSnippet(sel, language).Err? <==>
      forall i :: 0 <= i < |sel| ==> !HasText(sel[i]) && |sel[i]| <= MaxInt32
  {
    var k := MinIndent(sel);
    var out := Dedent(sel, k);
    if FormatSnippet(sel, language).Err? {
      forall i | 0 <= i < |sel| ensures !HasText(sel[i]) && |sel[i]| <= MaxInt32 {
        assert out[i] == "";
      }
    } else {
      var i :| 0 <= i < |out| && out[i] != "";
      if forall j :: 0 <= j < |sel| ==> !HasText(sel[j]) {
        assert k == MaxInt32;
      }
    }
  }

  /**
   * makeCodeSnippet. The source slices the lines with the clamped bounds,
   * which panics unless they are Sliceable; ParseSubmissionURLs only
   * yields begin <= end.
   */
  function MakeCodeSnippet(code: string, language: string, begin: int, end: int): (r: Result<string, string>)
    requires Sliceable(|CodeLines(code)|, begin, end)
    ensures var sel := SelectedLines(CodeLines(code), begin, end);
      && (r.Err? <==> forall i :: 0 <= i < |sel| ==> !HasText(sel[i]) && |sel[i]| <= MaxInt32)
      && (r.Err? ==> r.error == EmptySelection)
      && (r.Ok? ==> r.value == Fence + Ext(language) + "\n" + Join(Dedent(sel, MinIndent(sel)), "\n") + Fence)
  {
    var sel := SelectedLines(CodeLines(code), begin, end);
    SnippetErrIffBlank(sel, language);
    FormatSnippet(sel, language)
  }

  /**
   * A code block reads back as its lines: between the opening line and the
   * closing fence, splitting at newlines gives the dedented lines.
   */
  lemma FormatSnippetReadsBack(sel: seq<string>, language: string)
    requires forall i :: 0 <= i < |sel| ==> '\n' !in sel[i]
    requires FormatSnippet(sel, language).Ok?
    ensures var snippet := FormatSnippet(sel, language).value;
      var head := Fence + Ext(language) + "\n";
      && HasPrefix(snippet, head)
      && |snippet| >= |head| + |Fence|
      && snippet[|snippet| - |Fence|..] == Fence
      && Split(snippet[|head|..|snippet| - |Fence|], '\n') == Dedent(sel, MinIndent(sel))
  {
    var snippet := FormatSnippet(sel, language).value;
    var head := Fence + Ext(language) + "\n";
    var out := Dedent(sel, MinIndent(sel));
    var body := Join(out, "\n");
    assert snippet == head + body + Fence;
    Framed(head, body, Fence);
    DedentKeepsNoNewline(sel, MinIndent(sel));
    SplitJoin(out, '\n');
  }

  /** The three parts of `head + body + tail` can be sliced back out. */
  lemma Framed(head: string, body: string, tail: string)
    ensures var s := head + body + tail;
      && HasPrefix(s, head)
      && |s| >= |head| + |tail|
      && s[|head|..|s| - |tail|] == body
      && s[|s| - |tail|..] == tail
  {
    var s := head + body + tail;
    assert s == head + (body + tail);
    assert s[|head|..] == body + tail;
  }

  /** Dedenting only shortens lines, so none gains a newline. */
  lemma DedentKeepsNoNewline(lines: seq<string>, k: nat)
    requires forall i :: 0 <= i < |lines| ==> '\n' !in lines[i]
    ensures forall i :: 0 <= i < |lines| ==> '\n' !in Dedent(lines, k)[i]
  {
    var out := Dedent(lines, k);
    forall i | 0 <= i < |lines| ensures '\n' !in out[i] {
      if |lines[i]| > k {
        assert forall j :: 0 <= j < |out[i]| ==> out[i][j] == lines[i][k + j];
      }
    }
  }

  /** The snippet of a submission reads back as its selected, dedented lines. */
  lemma SnippetLines(code: string, language: string, begin: int, end: int)
    requires Sliceable(|CodeLines(code)|, begin, end)
    requires MakeCodeSnippet(code, language, begin, end).Ok?
    ensures var snippet := MakeCodeSnippet(code, language, begin, end).value;
      var head := Fence + Ext(language) + "\n";
      var sel := SelectedLines(CodeLines(code), begin, end);
      && HasPrefix(snippet, head)
      && |snippet| >= |head| + |Fence|
      && snippet[|snippet| - |Fence|..] == Fence
      && Split(snippet[|head|..|snippet| - |Fence|], '\n') == Dedent(sel, MinIndent(sel))
  {
    var lines := CodeLines(code);
    var sel := SelectedLines(lines, begin, end);
    SnippetErrIffBlank(sel, language);
    var b, e := Clamp(begin, 1, |lines|), Clamp(end, 1, |lines|);
    assert sel == lines[b - 1..e];
    SliceKeepsNoNewline(lines, b - 1, e);
    FormatSnippetReadsBack(sel, language);
  }

  lemma SliceKeepsNoNewline(lines: seq<string>, lo: nat, hi: nat)
    requires lo <= hi <= |lines|
    requires forall i :: 0 <= i < |lines| ==> '\n' !in lines[i]
    ensures forall i :: 0 <= i < hi - lo ==> '\n' !in lines[lo..hi][i]
  {
    forall i | 0 <= i < hi - lo
      ensures '\n' !in lines[lo..hi][i]
    {
      assert lines[lo..hi][i] == lines[lo + i];
    }
  }

  // ---------------------------------------------------------------------
  // The summary embed

  datatype SubmissionAuthor = SubmissionAuthor(handle: string, color: int)
  datatype SubmissionTeam = SubmissionTeam(name: string, authors: seq<SubmissionAuthor>)

  /**
   * fetch.SubmissionInfo. At most one of `author`, `authorGhost` (non-empty)
   * and `authorTeam` is set by the fetcher; the embed checks them in that order.
   */
  datatype SubmissionInfo = SubmissionInfo(
    problem: string,
    language: string,
    verdict: string,
    participantType: string,
    author: Option<SubmissionAuthor>,
    authorGhost: string,
    authorTeam: Option<SubmissionTeam>,
    content: string,
    url: string,
    sentTime: int)

  /** "✅ " as UTF-8 bytes. */
  const CheckMark: string := "\U{E2}\U{9C}\U{85} "
  /** " 👻" as UTF-8 bytes. */
  const GhostMark: string := " \U{F0}\U{9F}\U{91}\U{BB}"
  /** " • " as UTF-8 bytes. */
  const Bullet: string := " \U{E2}\U{80}\U{A2} "

  const GhostColor: int := 0x999999
  const TeamColor: int := 0x666666

  predicate Accepted(verdict: string) {
    verdict == "Accepted" || HasPrefix(verdict, "Perfect result")
  }

  function Handles(authors: seq<SubmissionAuthor>): (r: seq<string>)
    ensures |r| == |authors|
    ensures forall i :: 0 <= i < |r| ==> r[i] == authors[i].handle
  {
    seq(|authors|, i requires 0 <= i < |authors| => authors[i].handle)
  }

  /** The author text and colour: single author, then ghost, then team, else nothing. */
  function AuthorAndColor(s: SubmissionInfo): (r: (string, int))
    ensures s.author.Some? ==> r == (s.author.value.handle, s.author.value.color)
    ensures s.author.None? && s.authorGhost != "" ==> r == (s.authorGhost + GhostMark, GhostColor)
    ensures s.author.None? && s.authorGhost == "" && s.authorTeam.Some? ==>
      r.1 == TeamColor && HasPrefix(r.0, s.authorTeam.value.name + ": ")
    ensures s.author.None? && s.authorGhost == "" && s.authorTeam.None? ==> r == ("", 0)
  {
    if s.author.Some? then (s.author.value.handle, s.author.value.color)
    else if s.authorGhost != "" then (s.authorGhost + GhostMark, GhostColor)
    else if s.authorTeam.Some? then
      (s.authorTeam.value.name + ": " + Join(Handles(s.authorTeam.value.authors), ", "), TeamColor)
    else ("", 0)
  }

  /** A team is shown as its name, then its handles separated by ", ". */
  lemma TeamAuthorText(s: SubmissionInfo)
    requires s.author.None? && s.authorGhost == "" && s.authorTeam.Some?
    requires forall i :: 0 <= i < |s.authorTeam.value.authors| ==> ',' !in s.authorTeam.value.authors[i].handle
    ensures var t := s.authorTeam.value;
      var text := AuthorAndColor(s).0;
      var names := text[|t.name| + 2..];
      |t.authors| >= 1 ==> Split(names, ',') == SplitHandles(Handles(t.authors))
  {
    var t := s.authorTeam.value;
    var hs := Handles(t.authors);
    var text := AuthorAndColor(s).0;
    assert text[|t.name| + 2..] == Join(hs, ", ");
    if |t.authors| >= 1 {
      JoinCommaSpace(hs);
      SplitJoin(SplitHandles(hs), ',');
    }
  }

  /** The handles as `Split` at ',' sees them: every one after the first follows a space. */
  function SplitHandles(hs: seq<string>): (r: seq<string>)
    ensures |r| == |hs|
  {
    seq(|hs|, i requires 0 <= i < |hs| => if i == 0 then hs[0] else " " + hs[i])
  }

  lemma {:induction false} JoinCommaSpace(hs: seq<string>)
    requires |hs| >= 1
    requires forall i :: 0 <= i < |hs| ==> ',' !in hs[i]
    ensures Join(hs, ", ") == Join(SplitHandles(hs), ",")
    ensures forall i :: 0 <= i < |hs| ==> ',' !in SplitHandles(hs)[i]
    decreases |hs|
  {
    var sh := SplitHandles(hs);
    if |hs| > 1 {
      var tail := hs[1..];
      JoinCommaSpace(tail);
      var st := SplitHandles(tail);
      assert sh[1..] == [" " + tail[0]] + st[1..];
      JoinSpaceFirst(tail);
      assert Join(sh, ",") == sh[0] + "," + Join(sh[1..], ",");
      assert Join(hs, ", ") == hs[0] + ", " + Join(tail, ", ");
    }
  }

  lemma JoinSpaceFirst(hs: seq<string>)
    requires |hs| >= 1
    ensures Join([" " + hs[0]] + SplitHandles(hs)[1..], ",") == " " + Join(SplitHandles(hs), ",")
  {
    var sh := SplitHandles(hs);
    var a := [" " + hs[0]] + sh[1..];
    if |hs| == 1 {
      assert a == [" " + hs[0]];
    } else {
      var rest := Join(sh[1..], ",");
      assert a[0] == " " + hs[0] && sh[0] == hs[0] && a[1..] == sh[1..];
      assert Join(a, ",") == " " + hs[0] + "," + rest;
      assert Join(sh, ",") == hs[0] + "," + rest;
      assert " " + hs[0] + "," + rest == " " + (hs[0] + "," + rest);
    }
  }

  /** Codeforces shows ghosts' language as "Unknown". */
  function LanguageLabel(language: string): (r: string)
    ensures language == "Unknown" ==> r == "Unknown language"
    ensures language != "Unknown" ==> r == language
  {
    if language == "Unknown" then "Unknown language" else language
  }

  /**
   * The description line: verdict, participant type and language, separated
   * by bullets. It reads back: the verdict (with the check mark exactly when
   * accepted) before the first bullet, the language label after the last,
   * and the participant type between them.
   */
  function SubmissionDescription(s: SubmissionInfo): (d: string)
    ensures var head := (if Accepted(s.verdict) then CheckMark else "") + s.verdict + Bullet;
      var tail := Bullet + LanguageLabel(s.language);
      && |head| + |tail| <= |d|
      && d[..|head|] == head
      && d[|head|..|d| - |tail|] == s.participantType
      && d[|d| - |tail|..] == tail
  {
    var head := (if Accepted(s.verdict) then CheckMark else "") + s.verdict + Bullet;
    var tail := Bullet + LanguageLabel(s.language);
    var mid := s.participantType + tail;
    assert (head + mid)[..|head|] == head;
    assert (head + mid)[|head|..] == mid;
    assert mid[..|s.participantType|] == s.participantType;
    assert mid[|s.participantType|..] == tail;
    head + mid
  }

  /** The description is the five parts written one after the other. */
  lemma DescriptionInOrder(s: SubmissionInfo)
    ensures SubmissionDescription(s) == (if Accepted(s.verdict) then CheckMark else "") + s.verdict + Bullet +
      s.participantType + Bullet + LanguageLabel(s.language)
  {
  }

  /** The description starts with the (marked) verdict and a bullet, and ends with a bullet and the language. */
  lemma DescriptionEnds(s: SubmissionInfo)
    ensures Accepted(s.verdict) ==> HasPrefix(SubmissionDescription(s), CheckMark + s.verdict + Bullet)
    ensures !Accepted(s.verdict) ==> HasPrefix(SubmissionDescription(s), s.verdict + Bullet)
    ensures HasSuffix(SubmissionDescription(s), Bullet + LanguageLabel(s.language))
  {
    if !Accepted(s.verdict) {
      assert "" + s.verdict + Bullet == s.verdict + Bullet;
    }
  }

  /** makeSubmissionEmbed. */
  function MakeSubmissionEmbed(s: SubmissionInfo): (r: Embed)
    ensures r.title == "Submission for " + s.problem + " by " + AuthorAndColor(s).0
    ensures r.color == AuthorAndColor(s).1 && r.url == s.url && r.timestamp == Some(s.sentTime)
    ensures r.description == (if Accepted(s.verdict) then CheckMark else "") + s.verdict + Bullet +
      s.participantType + Bullet + LanguageLabel(s.language)
    ensures Accepted(s.verdict) ==> HasPrefix(r.description, CheckMark + s.verdict + Bullet)
    ensures !Accepted(s.verdict) ==> HasPrefix(r.description, s.verdict + Bullet)
    ensures HasSuffix(r.description, Bullet + LanguageLabel(s.language))
    ensures r.authorName.None? && r.thumbnail.None? && r.image.None? && r.footer.None? && r.fields == []
  {
    var ac := AuthorAndColor(s);
    DescriptionInOrder(s);
    DescriptionEnds(s);
    Blank.(
      title := "Submission for " + s.problem + " by " + ac.0,
      url := s.url,
      color := ac.1,
      description := SubmissionDescription(s),
      timestamp := Some(s.sentTime))
  }

  // ---------------------------------------------------------------------
  // The reply

  /** What is sent back: an error embed, or a one-page preview. */
  datatype Reply = ErrorReply(msg: string) | Preview(content: string, embed: Option<Embed>)

  const TooLarge: string := "Selected lines too large to display"

  /**
   * handleSubmissionURL after the fetch: the summary without line numbers,
   * else the snippet, or the summary saying the snippet is too large.
   */
  function HandleSubmissionURL(m: MatchURL.SubmissionURLMatch, fetched: Result<SubmissionInfo, string>): (r: Reply)
    requires fetched.Ok? && m.lineBegin != 0 ==> Sliceable(|CodeLines(fetched.value.content)|, m.lineBegin, m.lineEnd)
    ensures fetched.Err? ==> r == ErrorReply("Error fetching submission from " + m.url + ": " + fetched.error)
    ensures fetched.Ok? && m.lineBegin == 0 ==> r == Preview("", Some(MakeSubmissionEmbed(fetched.value)))
    ensures fetched.Ok? && m.lineBegin != 0 ==>
      var snippet := MakeCodeSnippet(fetched.value.content, fetched.value.language, m.lineBegin, m.lineEnd);
      && (snippet.Err? ==> r == ErrorReply(EmptySelection))
      && (snippet.Ok? && !ContentTooLong(snippet.value) ==> r == Preview(snippet.value, None))
      && (snippet.Ok? && ContentTooLong(snippet.value) ==>
            r == Preview("", Some(MakeSubmissionEmbed(fetched.value).(description := TooLarge))))
    ensures r.Preview? ==> !ContentTooLong(r.content)
  {
    match fetched
    case Err(e) => ErrorReply("Error fetching submission from " + m.url + ": " + e)
    case Ok(s) =>
      if m.lineBegin == 0 then Preview("", Some(MakeSubmissionEmbed(s)))
      else
        match MakeCodeSnippet(s.content, s.language, m.lineBegin, m.lineEnd)
        case Err(e) => ErrorReply(e)
        case Ok(content) =>
          if ContentTooLong(content) then Preview("", Some(MakeSubmissionEmbed(s).(description := TooLarge)))
          else Preview(content, None)
  }

  /** Every match ParseSubmissionURLs returns can be handled. */
  lemma ParsedMatchesHandled(text: string, find: MatchURL.Finder, parse: MatchURL.UrlParser,
                             i: nat, fetched: Result<SubmissionInfo, string>)
    requires MatchURL.FinderSound(find)
    requires i < |MatchURL.ParseSubmissionURLs(text, find, parse)|
    ensures MatchURL.ParseSubmissionURLs(text, find, parse)[i].lineBegin <= MatchURL.ParseSubmissionURLs(text, find, parse)[i].lineEnd
    ensures HandleSubmissionURL(MatchURL.ParseSubmissionURLs(text, find, parse)[i], fetched).Preview? ==>
      !ContentTooLong(HandleSubmissionURL(MatchURL.ParseSubmissionURLs(text, find, parse)[i], fetched).content)
  {
    var m := MatchURL.ParseSubmissionURLs(text, find, parse)[i];
    if fetched.Ok? {
      OrderedIsSliceable(|CodeLines(fetched.value.content)|, m.lineBegin, m.lineEnd);
    }
  }
}

=== FILE: truncate.dfy ===
/** truncate.go: shortening long texts for previews. */
module Truncate {
  import opened GoStrings

  const Limit: nat := 300
  const Slack: nat := 100

  /** "…" as its three UTF-8 bytes. */
  const Ellipsis: string := "\U{E2}\U{80}\U{A6}"

  /**
   * A text within Limit + Slack bytes is kept; a longer one is cut to its
   * first Limit bytes and marked with an ellipsis.
   */
  function TruncateMessage(s: string): (r: string)
    ensures |s| <= Limit + Slack ==> r == s
    ensures |s| > Limit + Slack ==>
      |r| == Limit + |Ellipsis| && HasPrefix(r, s[..Limit]) && r[Limit..] == Ellipsis
    ensures |r| <= Limit + Slack
    ensures r != s ==> |r| < |s|
  {
    if |s| <= Limit + Slack then s else s[..Limit] + Ellipsis
  }

  /** Truncating twice is truncating once. */
  lemma TruncateIdempotent(s: string)
    ensures TruncateMessage(TruncateMessage(s)) == TruncateMessage(s)
  {
  }

  /** The text is changed exactly when it is longer than 400 bytes. */
  lemma TruncateChangesOnlyLong(s: string)
    ensures TruncateMessage(s) == s <==> |s| <= 400
  {
    if |s| > 400 {
      assert |TruncateMessage(s)| == 303;
    }
  }
}

=== FILE: widget.dfy ===
/**
 * bot/widget.go: the reaction-driven paginated widget.
 *
 * Every handled reaction runs under the widget's single mutex, so each one is
 * modelled as an atomic step: a pure function from the current state, the
 * event and the outcome of the network calls it makes to a new state and the
 * list of calls made. Whether a call succeeds is decided by an oracle
 * `net: Effect -> bool` supplied per step; no step makes the same call twice,
 * so one oracle per step is enough.
 */
module Widget {
  import opened Wrappers
  import opened Embeds
  import opened Events
  import Filters

  // ---------------------------------------------------------------------
  // The symbol table

  datatype Glyph = Delete | Previous | Next | Expand | Collapse

  /** The number of bytes a UTF-8 sequence with this lead byte takes. */
  function Utf8Width(lead: char): nat {
    if lead < '\U{80}' then 1
    else if lead < '\U{E0}' then 2
    else if lead < '\U{F0}' then 3
    else 4
  }

  /** The emoji of each control, as UTF-8 bytes: 🗑 ◀ ▶ 🔽 🔼. */
  function Symbol(g: Glyph): (r: string)
    ensures |r| > 0 && Utf8Width(r[0]) == |r| >= 3
    ensures forall i :: 1 <= i < |r| ==> '\U{80}' <= r[i] < '\U{C0}'
  {
    match g
    case Delete => "\U{F0}\U{9F}\U{97}\U{91}"
    case Previous => "\U{E2}\U{97}\U{80}"
    case Next => "\U{E2}\U{96}\U{B6}"
    case Expand => "\U{F0}\U{9F}\U{94}\U{BD}"
    case Collapse => "\U{F0}\U{9F}\U{94}\U{BC}"
  }

  /** allSymbols: the control an emoji name stands for, if it is one of the five. */
  function GlyphOf(name: string): (r: Option<Glyph>)
    ensures r.Some? ==> Symbol(r.value) == name
    ensures r.None? ==> forall g: Glyph :: Symbol(g) != name
  {
    if name == Symbol(Delete) then Some(Delete)
    else if name == Symbol(Previous) then Some(Previous)
    else if name == Symbol(Next) then Some(Next)
    else if name == Symbol(Expand) then Some(Expand)
    else if name == Symbol(Collapse) then Some(Collapse)
    else None
  }

  /** Each control's emoji is recognised as that control and no other. */
  lemma GlyphOfSymbol(g: Glyph)
    ensures GlyphOf(Symbol(g)) == Some(g)
  {
  }

  // ---------------------------------------------------------------------
  // Pages and parameters

  datatype Message = Message(content: string, embed: Option<Embed>)

  /** A page: its default message and an optional expanded message. */
  datatype Page = Page(default: Message, expanded: Option<Message>)

  /** A callback's identity; NoOp is the default validation installs. */
  datatype Callback = NoOp | UserCallback(id: nat)

  /** PaginateParams. None stands for a nil function; durations are in nanoseconds. */
  datatype Params = Params(
    getPage: Option<int -> Page>,
    numPages: int,
    pageToShowFirst: int,
    msgCallback: Option<Callback>,
    deactivateAfter: int,
    delBtn: bool,
    delCallback: Option<Callback>,
    allowOp: Option<ReactionAdd -> bool>)

  const Second: int := 1_000_000_000

  datatype ConfigError =
    | NilGetPage
    | NumPagesNotPositive(numPages: int)
    | FirstPageOutOfRange(numPages: int, first: int)
    | LifetimeTooShort(deactivateAfter: int)

  /** Validated parameters, defaults filled in. `delCallback` may still be nil. */
  datatype Config = Config(
    getPage: int -> Page,
    numPages: int,
    first: int,
    msgCallback: Callback,
    lifetime: int,
    delBtn: bool,
    delCallback: Option<Callback>,
    allowOp: ReactionAdd -> bool)

  /** validateAndUpdateParams: checks in source order, then the defaults. */
  function Validate(p: Params): (r: Result<Config, ConfigError>)
    ensures r.Ok? <==>
      p.getPage.Some? && p.numPages >= 1 && 1 <= p.pageToShowFirst <= p.numPages &&
      p.deactivateAfter >= Second
    ensures p.getPage.None? ==> r == Err(NilGetPage)
    ensures p.getPage.Some? && p.numPages < 1 ==> r == Err(NumPagesNotPositive(p.numPages))
    ensures p.getPage.Some? && p.numPages >= 1 && !(1 <= p.pageToShowFirst <= p.numPages) ==>
      r == Err(FirstPageOutOfRange(p.numPages, p.pageToShowFirst))
    ensures p.getPage.Some? && p.numPages >= 1 && 1 <= p.pageToShowFirst <= p.numPages && p.deactivateAfter < Second ==>
      r == Err(LifetimeTooShort(p.deactivateAfter))
    ensures r.Ok? ==>
      var c := r.value;
      && c.numPages == p.numPages && c.first == p.pageToShowFirst
      && c.lifetime == p.deactivateAfter && c.delBtn == p.delBtn
      && c.msgCallback == (if p.msgCallback.Some? then p.msgCallback.value else NoOp)
      && (p.delBtn ==> c.delCallback.Some?)
      && (p.delBtn && p.delCallback.None? ==> c.delCallback == Some(NoOp))
      && (p.delCallback.Some? ==> c.delCallback == p.delCallback)
      && (!p.delBtn ==> c.delCallback == p.delCallback)
      && (p.allowOp.None? ==> forall e :: c.allowOp(e))
      && c.getPage == p.getPage.value
      && (p.allowOp.Some? ==> c.allowOp == p.allowOp.value)
  {
    if p.getPage.None? then Err(NilGetPage)
    else if p.numPages < 1 then Err(NumPagesNotPositive(p.numPages))
    else if p.pageToShowFirst < 1 || p.pageToShowFirst > p.numPages then
      Err(FirstPageOutOfRange(p.numPages, p.pageToShowFirst))
    else
      var msgCallback := if p.msgCallback.None? then NoOp else p.msgCallback.value;
      if p.deactivateAfter < Second then Err(LifetimeTooShort(p.deactivateAfter))
      else
        var delCallback := if p.delBtn && p.delCallback.None? then Some(NoOp) else p.delCallback;
        var allowOp := if p.allowOp.None? then (e: ReactionAdd) => true else p.allowOp.value;
        Ok(Config(p.getPage.value, p.numPages, p.pageToShowFirst, msgCallback,
                  p.deactivateAfter, p.delBtn, delCallback, allowOp))
  }

  /** SendWithDelBtn: one page, shown first, with a delete button. */
  function WithDelBtnParams(
    page: Page, msgCallback: Option<Callback>, deactivateAfter: int,
    delCallback: Option<Callback>, allowOp: Option<ReactionAdd -> bool>): (p: Params)
    ensures Validate(p).Ok? <==> deactivateAfter >= Second
    ensures Validate(p).Ok? ==>
      Validate(p).value.numPages == 1 && Validate(p).value.delCallback.Some? &&
      Validate(p).value.getPage(1) == page
  {
    Params(Some((n: int) => page), 1, 1, msgCallback, deactivateAfter, true, delCallback, allowOp)
  }

  // ---------------------------------------------------------------------
  // Effects and state

  /** The calls a step makes, in order. */
  datatype Effect =
    | SendMsg(msg: Message)
    | InvokeMsgCallback(cb: Callback)
    | React(glyph: Glyph)
    | Unreact(glyph: Glyph)
    | UnreactUser(glyph: Glyph, user: nat)
    | EditMsg(msg: Message)
    | DeleteMsg
    | InvokeDelCallback(cb: Callback, evt: ReactionAdd)
    | Cancel

  /** Which network calls of a step succeed. */
  type Net = Effect -> bool

  ghost predicate AllSucceed(net: Net) {
    forall e :: net(e)
  }

  /** The widget's mutable fields, plus the id of the sent message. */
  datatype State = State(pageNum: int, page: Page, expanded: bool, reacts: set<Glyph>, msgId: nat)

  datatype Step = Step(state: State, effects: seq<Effect>)

  /** The recorded set after one call: only a successful react or unreact changes it. */
  function ApplyOne(reacts: set<Glyph>, e: Effect, net: Net): set<Glyph>
  {
    if e.React? && net(e) then reacts + {e.glyph}
    else if e.Unreact? && net(e) then reacts - {e.glyph}
    else reacts
  }

  /** The recorded set that a list of calls leaves behind, taken call by call. */
  function ApplyReacts(reacts: set<Glyph>, effects: seq<Effect>, net: Net): set<Glyph>
    decreases |effects|
  {
    if effects == [] then reacts
    else ApplyReacts(ApplyOne(reacts, effects[0], net), effects[1..], net)
  }

  lemma {:induction false} ApplyReactsAppend(reacts: set<Glyph>, a: seq<Effect>, b: seq<Effect>, net: Net)
    ensures ApplyReacts(reacts, a + b, net) == ApplyReacts(ApplyReacts(reacts, a, net), b, net)
    decreases |a|
  {
    if a != [] {
      assert (a + b)[0] == a[0];
      assert (a + b)[1..] == a[1..] + b;
      ApplyReactsAppend(ApplyOne(reacts, a[0], net), a[1..], b, net);
    } else {
      assert a + b == b;
    }
  }

  /** No unreact follows a react. */
  ghost predicate RemovesBeforeAdds(effects: seq<Effect>) {
    forall i, j :: 0 <= i < j < |effects| ==> !(effects[i].React? && effects[j].Unreact?)
  }

  /** reactOnMsg: the glyph is recorded only when the react call succeeds. */
  function ReactOnMsg(st: State, g: Glyph, net: Net): (r: Step)
    ensures r.effects == [React(g)]
    ensures r.state.reacts == ApplyReacts(st.reacts, r.effects, net)
    ensures r.state == st.(reacts := r.state.reacts)
  {
    Step(if net(React(g)) then st.(reacts := st.reacts + {g}) else st, [React(g)])
  }

  /** unreactOnMsg: the glyph is forgotten only when the unreact call succeeds. */
  function UnreactOnMsg(st: State, g: Glyph, net: Net): (r: Step)
    ensures r.effects == [Unreact(g)]
    ensures r.state.reacts == ApplyReacts(st.reacts, r.effects, net)
    ensures r.state == st.(reacts := r.state.reacts)
  {
    Step(if net(Unreact(g)) then st.(reacts := st.reacts - {g}) else st, [Unreact(g)])
  }

  const MoreLess: set<Glyph> := {Expand, Collapse}

  /** The expand/collapse control the current page should carry. */
  function Wanted(st: State): (r: set<Glyph>)
    ensures r <= MoreLess && |r| <= 1
  {
    if st.page.expanded.None? then {}
    else if st.expanded then {Collapse}
    else {Expand}
  }

  /** Only reacts and unreacts of the expand/collapse glyphs. */
  ghost predicate OnlyMoreLessCalls(effects: seq<Effect>) {
    forall i :: 0 <= i < |effects| ==> (effects[i].React? || effects[i].Unreact?) && effects[i].glyph in MoreLess
  }

  /** The recorded expand/collapse glyphs are exactly the wanted one. */
  ghost predicate MoreLessInSync(st: State) {
    forall g :: g in MoreLess ==> (g in st.reacts <==> g in Wanted(st))
  }

  /** One turn of the removal loop: unreact `g` if it is recorded but unwanted. */
  function RemoveIfUnwanted(st: State, g: Glyph, want: set<Glyph>, net: Net): (r: Step)
    ensures r.effects == (if g in st.reacts && g !in want then [Unreact(g)] else [])
    ensures r.state == st.(reacts := r.state.reacts)
    ensures r.state.reacts == ApplyReacts(st.reacts, r.effects, net)
    ensures forall h :: h in r.state.reacts <==> h in st.reacts && !(h == g && h !in want && net(Unreact(h)))
  {
    if g in st.reacts && g !in want then UnreactOnMsg(st, g, net) else Step(st, [])
  }

  /** One turn of the addition loop: react `g` if it is wanted but not recorded. */
  function AddIfWanted(st: State, g: Glyph, want: set<Glyph>, net: Net): (r: Step)
    ensures r.effects == (if g !in st.reacts && g in want then [React(g)] else [])
    ensures r.state == st.(reacts := r.state.reacts)
    ensures r.state.reacts == ApplyReacts(st.reacts, r.effects, net)
    ensures forall h :: h in r.state.reacts <==> h in st.reacts || (h == g && h in want && net(React(h)))
  {
    if g !in st.reacts && g in want then ReactOnMsg(st, g, net) else Step(st, [])
  }

  /**
   * fixMoreLessReactsForCurrentPage: unreact unwanted expand/collapse
   * glyphs first, then react the wanted one.
   */
  function FixMoreLess(st: State, net: Net): (r: Step)
    ensures r.state == st.(reacts := r.state.reacts)
    ensures r.state.reacts == ApplyReacts(st.reacts, r.effects, net)
    ensures forall g :: g !in MoreLess ==> (g in r.state.reacts <==> g in st.reacts)
    ensures AllSucceed(net) ==> forall g :: g in MoreLess ==> (g in r.state.reacts <==> g in Wanted(st))
    ensures RemovesBeforeAdds(r.effects)
    ensures OnlyMoreLessCalls(r.effects)
  {
    var want := Wanted(st);
    var s1 := RemoveIfUnwanted(st, Expand, want, net);
    var s2 := RemoveIfUnwanted(s1.state, Collapse, want, net);
    var s3 := AddIfWanted(s2.state, Expand, want, net);
    var s4 := AddIfWanted(s3.state, Collapse, want, net);
    var removals := s1.effects + s2.effects;
    var additions := s3.effects + s4.effects;
    ApplyReactsAppend(st.reacts, s1.effects, s2.effects, net);
    ApplyReactsAppend(s2.state.reacts, s3.effects, s4.effects, net);
    ApplyReactsAppend(st.reacts, removals, additions, net);
    RemovalsThenAdditions(removals, additions);
    MoreLessPasses(st.reacts, s2.state.reacts, s4.state.reacts, want, net);
    Step(s4.state, removals + additions)
  }

  /**
   * The removal pass and the addition pass together leave the other glyphs
   * alone and, when every call succeeds, record exactly the wanted ones.
   */
  lemma MoreLessPasses(r0: set<Glyph>, r2: set<Glyph>, r4: set<Glyph>, want: set<Glyph>, net: Net)
    requires want <= MoreLess
    requires forall h :: h in r2 <==> h in r0 && !(h in MoreLess && h !in want && net(Unreact(h)))
    requires forall h :: h in r4 <==> h in r2 || (h in MoreLess && h in want && net(React(h)))
    ensures forall g :: g !in MoreLess ==> (g in r4 <==> g in r0)
    ensures AllSucceed(net) ==> forall g :: g in MoreLess ==> (g in r4 <==> g in want)
  {
  }

  /** Unreacts followed by reacts, all of expand/collapse glyphs. */
  lemma RemovalsThenAdditions(removals: seq<Effect>, additions: seq<Effect>)
    requires forall i :: 0 <= i < |removals| ==> removals[i].Unreact? && removals[i].glyph in MoreLess
    requires forall i :: 0 <= i < |additions| ==> additions[i].React? && additions[i].glyph in MoreLess
    ensures RemovesBeforeAdds(removals + additions)
    ensures OnlyMoreLessCalls(removals + additions)
  {
    var all := removals + additions;
    forall i | 0 <= i < |all|
      ensures all[i] == if i < |removals| then removals[i] else additions[i - |removals|]
    {
    }
  }

  // ---------------------------------------------------------------------
  // Transitions

  /** The widget's state invariant. */
  ghost predicate Inv(cfg: Config, st: State) {
    && 1 <= st.pageNum <= cfg.numPages
    && st.page == cfg.getPage(st.pageNum)
    && (st.expanded ==> st.page.expanded.Some?)
  }

  /** showPage: move by `delta` pages if the target exists and the edit succeeds. */
  function ShowPage(cfg: Config, st: State, delta: int, net: Net): (r: Step)
    ensures var target := st.pageNum + delta;
      && (!(1 <= target <= cfg.numPages) ==> r == Step(st, []))
      && (1 <= target <= cfg.numPages ==> |r.effects| >= 1 && r.effects[0] == EditMsg(cfg.getPage(target).default))
      && (1 <= target <= cfg.numPages && !net(EditMsg(cfg.getPage(target).default)) ==>
            r == Step(st, [EditMsg(cfg.getPage(target).default)]))
      && (1 <= target <= cfg.numPages && net(EditMsg(cfg.getPage(target).default)) ==>
            r.state.pageNum == target && r.state.page == cfg.getPage(target) && !r.state.expanded)
    ensures r.state.reacts == ApplyReacts(st.reacts, r.effects, net)
    ensures r.state.msgId == st.msgId
    ensures Inv(cfg, st) ==> Inv(cfg, r.state)
    ensures forall g :: g !in MoreLess ==> (g in r.state.reacts <==> g in st.reacts)
    ensures AllSucceed(net) && MoreLessInSync(st) ==> MoreLessInSync(r.state)
  {
    var target := st.pageNum + delta;
    if target < 1 || target > cfg.numPages then Step(st, [])
    else
      var newPage := cfg.getPage(target);
      var edit := EditMsg(newPage.default);
      if !net(edit) then Step(st, [edit])
      else
        var f := FixMoreLess(State(target, newPage, false, st.reacts, st.msgId), net);
        ApplyReactsAppend(st.reacts, [edit], f.effects, net);
        Step(f.state, [edit] + f.effects)
  }

  /** expandCurrentPage: a no-op unless the page has an expansion not yet shown. */
  function ExpandPage(st: State, net: Net): (r: Step)
    ensures st.page.expanded.None? || st.expanded ==> r == Step(st, [])
    ensures st.page.expanded.Some? && !st.expanded ==>
      && |r.effects| >= 1 && r.effects[0] == EditMsg(st.page.expanded.value)
      && (net(EditMsg(st.page.expanded.value)) ==> r.state.expanded)
      && (!net(EditMsg(st.page.expanded.value)) ==> r == Step(st, [EditMsg(st.page.expanded.value)]))
    ensures r.state == st.(expanded := r.state.expanded, reacts := r.state.reacts)
    ensures r.state.expanded && !st.expanded ==> r.state.page.expanded.Some?
    ensures r.state.reacts == ApplyReacts(st.reacts, r.effects, net)
    ensures forall g :: g !in MoreLess ==> (g in r.state.reacts <==> g in st.reacts)
    ensures AllSucceed(net) && MoreLessInSync(st) ==> MoreLessInSync(r.state)
  {
    if st.page.expanded.None? || st.expanded then Step(st, [])
    else
      var edit := EditMsg(st.page.expanded.value);
      if !net(edit) then Step(st, [edit])
      else
        var f := FixMoreLess(st.(expanded := true), net);
        ApplyReactsAppend(st.reacts, [edit], f.effects, net);
        Step(f.state, [edit] + f.effects)
  }

  /** contractCurrentPage: a no-op unless the expansion is shown. */
  function CollapsePage(st: State, net: Net): (r: Step)
    ensures st.page.expanded.None? || !st.expanded ==> r == Step(st, [])
    ensures st.page.expanded.Some? && st.expanded ==>
      && |r.effects| >= 1 && r.effects[0] == EditMsg(st.page.default)
      && (net(EditMsg(st.page.default)) ==> !r.state.expanded)
      && (!net(EditMsg(st.page.default)) ==> r == Step(st, [EditMsg(st.page.default)]))
    ensures r.state == st.(expanded := r.state.expanded, reacts := r.state.reacts)
    ensures r.state.expanded ==> st.expanded
    ensures r.state.reacts == ApplyReacts(st.reacts, r.effects, net)
    ensures forall g :: g !in MoreLess ==> (g in r.state.reacts <==> g in st.reacts)
    ensures AllSucceed(net) && MoreLessInSync(st) ==> MoreLessInSync(r.state)
  {
    if st.page.expanded.None? || !st.expanded then Step(st, [])
    else
      var edit := EditMsg(st.page.default);
      if !net(edit) then Step(st, [edit])
      else
        var f := FixMoreLess(st.(expanded := false), net);
        ApplyReactsAppend(st.reacts, [edit], f.effects, net);
        Step(f.state, [edit] + f.effects)
  }

  /** Once expanded, a second expand makes no edit and no other call. */
  lemma RepeatedExpandMakesNoEdit(st: State, net1: Net, net2: Net)
    ensures var s1 := ExpandPage(st, net1);
      s1.state.expanded ==> ExpandPage(s1.state, net2) == Step(s1.state, [])
  {
  }

  /** What a step leaves behind: a live widget, a deleted one, or a crashed process. */
  datatype Outcome =
    | Active(state: State, effects: seq<Effect>)
    | Deleted(effects: seq<Effect>)
    | Crashed(effects: seq<Effect>)

  /**
   * handleControlReact for an event already known to carry glyph `g`.
   * Delete deletes the message, calls DelCallback and cancels; calling a nil
   * DelCallback panics after the delete. Any other glyph first removes the
   * user's reaction (sent off concurrently, its result unused), then runs
   * the transition.
   */
  function HandleControl(cfg: Config, st: State, evt: ReactionAdd, g: Glyph, net: Net): (r: Outcome)
    ensures g == Delete && cfg.delCallback.Some? ==>
      r == Deleted([DeleteMsg, InvokeDelCallback(cfg.delCallback.value, evt), Cancel])
    ensures g == Delete && cfg.delCallback.None? ==> r == Crashed([DeleteMsg])
    ensures g != Delete ==> r.Active? && |r.effects| >= 1 && r.effects[0] == UnreactUser(g, evt.userId)
    ensures g == Previous ==> var s := ShowPage(cfg, st, -1, net);
      r == Active(s.state, [UnreactUser(g, evt.userId)] + s.effects)
    ensures g == Next ==> var s := ShowPage(cfg, st, 1, net);
      r == Active(s.state, [UnreactUser(g, evt.userId)] + s.effects)
    ensures g == Expand ==> var s := ExpandPage(st, net);
      r == Active(s.state, [UnreactUser(g, evt.userId)] + s.effects)
    ensures g == Collapse ==> var s := CollapsePage(st, net);
      r == Active(s.state, [UnreactUser(g, evt.userId)] + s.effects)
    ensures r.Active? ==>
      r.state.reacts == ApplyReacts(st.reacts, r.effects, net) && r.state.msgId == st.msgId
    ensures r.Active? && Inv(cfg, st) ==> Inv(cfg, r.state)
    ensures r.Active? ==> forall h :: h !in MoreLess ==> (h in r.state.reacts <==> h in st.reacts)
    ensures r.Active? && AllSucceed(net) && MoreLessInSync(st) ==> MoreLessInSync(r.state)
  {
    match g
    case Delete =>
      (match cfg.delCallback
       case None => Crashed([DeleteMsg])
       case Some(cb) => Deleted([DeleteMsg, InvokeDelCallback(cb, evt), Cancel]))
    case _ =>
      var s := match g
        case Previous => ShowPage(cfg, st, -1, net)
        case Next => ShowPage(cfg, st, 1, net)
        case Expand => ExpandPage(st, net)
        case Collapse => CollapsePage(st, net);
      var user := UnreactUser(g, evt.userId);
      assert ApplyOne(st.reacts, user, net) == st.reacts;
      assert ([user] + s.effects)[1..] == s.effects;
      Active(s.state, [user] + s.effects)
  }

  /**
   * A reaction event as the widget sees it: the gateway filter keeps only
   * reactions on the widget's message, and only one of the five symbols
   * allowed by AllowOp is handled. Anything else makes no call at all.
   */
  function OnReaction(cfg: Config, st: State, evt: ReactionAdd, net: Net): (r: Outcome)
    ensures Filters.FilterReactionAddForMsg(st.msgId, ReactionAdded(evt)).Drop? ==> r == Active(st, [])
    ensures GlyphOf(evt.emoji).None? || !cfg.allowOp(evt) ==> r == Active(st, [])
    ensures evt.messageId == st.msgId && GlyphOf(evt.emoji).Some? && cfg.allowOp(evt) ==>
      r == HandleControl(cfg, st, evt, GlyphOf(evt.emoji).value, net)
    ensures r.Active? ==> r.state.reacts == ApplyReacts(st.reacts, r.effects, net) && r.state.msgId == st.msgId
    ensures r.Active? && Inv(cfg, st) ==> Inv(cfg, r.state)
    ensures r.Active? ==> forall h :: h !in MoreLess ==> (h in r.state.reacts <==> h in st.reacts)
    ensures r.Active? && AllSucceed(net) && MoreLessInSync(st) ==> MoreLessInSync(r.state)
  {
    match Filters.FilterReactionAddForMsg(st.msgId, ReactionAdded(evt))
    case Pass(_) =>
      (match GlyphOf(evt.emoji)
       case Some(g) => if cfg.allowOp(evt) then HandleControl(cfg, st, evt, g, net) else Active(st, [])
       case None => Active(st, []))
    case _ => Active(st, [])
  }

  // ---------------------------------------------------------------------
  // Start-up and exit

  /** The controls the widget keeps for its whole life. */
  function Controls(cfg: Config): set<Glyph>
  {
    (if cfg.delBtn then {Delete} else {}) + (if cfg.numPages > 1 then {Previous, Next} else {})
  }

  /** What validation guarantees of a configuration. */
  ghost predicate ValidConfig(cfg: Config) {
    1 <= cfg.first <= cfg.numPages
  }

  /** The recorded reactions are the controls plus the wanted expand/collapse glyph. */
  ghost predicate InSync(cfg: Config, st: State) {
    forall g :: g in st.reacts <==> g in Controls(cfg) || g in Wanted(st)
  }

  /** The delete button if asked for, previous and next if there is more than one page. */
  function ReactControls(cfg: Config, st: State, net: Net): (r: Step)
    ensures r.state == st.(reacts := r.state.reacts)
    ensures r.state.reacts == ApplyReacts(st.reacts, r.effects, net)
    ensures forall i :: 0 <= i < |r.effects| ==> r.effects[i].React? && r.effects[i].glyph !in MoreLess
    ensures forall g :: g in MoreLess ==> (g in r.state.reacts <==> g in st.reacts)
    ensures AllSucceed(net) ==> forall g :: g !in MoreLess ==> (g in r.state.reacts <==> g in st.reacts || g in Controls(cfg))
  {
    var s1 := if cfg.delBtn then ReactOnMsg(st, Delete, net) else Step(st, []);
    var s2 := if cfg.numPages > 1 then ReactOnMsg(s1.state, Previous, net) else Step(s1.state, []);
    var s3 := if cfg.numPages > 1 then ReactOnMsg(s2.state, Next, net) else Step(s2.state, []);
    ApplyReactsAppend(st.reacts, s1.effects, s2.effects, net);
    ApplyReactsAppend(st.reacts, s1.effects + s2.effects, s3.effects, net);
    Step(s3.state, s1.effects + s2.effects + s3.effects)
  }

  datatype StartOutcome = SendFailed(effects: seq<Effect>) | Started(state: State, effects: seq<Effect>)

  /**
   * The start of run: send the first page, call MsgCallback, react with the
   * delete, previous/next and expand controls. A failed send is returned
   * before anything else happens. `sentId` is the id the platform gives the
   * sent message.
   */
  function Start(cfg: Config, sentId: nat, net: Net): (r: StartOutcome)
    ensures var send := SendMsg(cfg.getPage(cfg.first).default);
      && (!net(send) <==> r.SendFailed?)
      && (r.SendFailed? ==> r.effects == [send])
      && (r.Started? ==> |r.effects| >= 2 && r.effects[..2] == [send, InvokeMsgCallback(cfg.msgCallback)])
    ensures r.Started? ==>
      && r.state.pageNum == cfg.first && r.state.page == cfg.getPage(cfg.first)
      && !r.state.expanded && r.state.msgId == sentId
      && r.state.reacts == ApplyReacts({}, r.effects, net)
    ensures r.Started? && ValidConfig(cfg) ==> Inv(cfg, r.state)
    ensures r.Started? && AllSucceed(net) ==> InSync(cfg, r.state)
  {
    var page := cfg.getPage(cfg.first);
    var send := SendMsg(page.default);
    if !net(send) then SendFailed([send])
    else
      var st0 := State(cfg.first, page, false, {}, sentId);
      var controls := ReactControls(cfg, st0, net);
      var fix := FixMoreLess(controls.state, net);
      var head := [send, InvokeMsgCallback(cfg.msgCallback)];
      assert ApplyReacts({}, head, net) == {} by {
        assert ApplyReacts({}, head[1..], net) == {};
      }
      ApplyReactsAppend({}, head, controls.effects, net);
      ApplyReactsAppend({}, head + controls.effects, fix.effects, net);
      Started(fix.state, head + controls.effects + fix.effects)
  }

  /** How the run loop's own context ended. */
  datatype WidgetCtxErr = DeadlineExceeded | Canceled

  /** What run returns (None for nil) and which glyphs it unreacts on the way out. */
  datatype Exit = Exit(ret: Option<string>, cleanup: set<Glyph>)

  /**
   * The end of run: only the widget's own deadline passing while the
   * caller's context is live leads to cleanup (best effort, results
   * ignored) and a nil return; otherwise the caller context's error is
   * returned as is, without cleanup.
   */
  function Finish(wErr: WidgetCtxErr, callerErr: Option<string>, st: State): (r: Exit)
    ensures wErr == DeadlineExceeded && callerErr.None? ==> r == Exit(None, st.reacts)
    ensures wErr == Canceled || callerErr.Some? ==> r == Exit(callerErr, {})
  {
    if wErr == DeadlineExceeded && callerErr.None? then Exit(None, st.reacts)
    else Exit(callerErr, {})
  }

  // ---------------------------------------------------------------------
  // A whole run

  /** One delivered reaction event and the fate of the calls its handler makes. */
  datatype Input = Input(evt: ReactionAdd, net: Net)

  /**
   * The handled events one after the other, as the mutex serialises them.
   * A delete or a crash ends the run; later events are never handled.
   */
  function RunEvents(cfg: Config, st: State, inputs: seq<Input>): (r: Outcome)
    ensures inputs == [] ==> r == Active(st, [])
    ensures r.Active? ==> r.state.msgId == st.msgId
    decreases |inputs|
  {
    if inputs == [] then Active(st, [])
    else
      match OnReaction(cfg, st, inputs[0].evt, inputs[0].net)
      case Active(s1, e1) =>
        (match RunEvents(cfg, s1, inputs[1..])
         case Active(s2, e2) => Active(s2, e1 + e2)
         case Deleted(e2) => Deleted(e1 + e2)
         case Crashed(e2) => Crashed(e1 + e2))
      case other => other
  }

  /** The page number stays in range and `expanded` implies an expansion, whatever happens. */
  lemma {:induction false} RunEventsKeepsInv(cfg: Config, st: State, inputs: seq<Input>)
    requires Inv(cfg, st)
    ensures RunEvents(cfg, st, inputs).Active? ==> Inv(cfg, RunEvents(cfg, st, inputs).state)
    decreases |inputs|
  {
    if inputs != [] {
      var o := OnReaction(cfg, st, inputs[0].evt, inputs[0].net);
      if o.Active? {
        RunEventsKeepsInv(cfg, o.state, inputs[1..]);
      }
    }
  }

  /** When every call succeeds, the recorded reactions keep matching the shown controls. */
  lemma {:induction false} RunEventsKeepsSync(cfg: Config, st: State, inputs: seq<Input>)
    requires InSync(cfg, st)
    requires forall i :: 0 <= i < |inputs| ==> AllSucceed(inputs[i].net)
    ensures RunEvents(cfg, st, inputs).Active? ==> InSync(cfg, RunEvents(cfg, st, inputs).state)
    decreases |inputs|
  {
    if inputs != [] {
      var o := OnReaction(cfg, st, inputs[0].evt, inputs[0].net);
      if o.Active? {
        assert AllSucceed(inputs[0].net);
        OnReactionKeepsSync(cfg, st, inputs[0].evt, inputs[0].net);
        RunEventsKeepsSync(cfg, o.state, inputs[1..]);
      }
    }
  }

  lemma OnReactionKeepsSync(cfg: Config, st: State, evt: ReactionAdd, net: Net)
    requires InSync(cfg, st) && AllSucceed(net)
    ensures OnReaction(cfg, st, evt, net).Active? ==> InSync(cfg, OnReaction(cfg, st, evt, net).state)
  {
    var o := OnReaction(cfg, st, evt, net);
    if o.Active? {
      assert MoreLessInSync(st);
      SyncFromParts(cfg, st, o.state);
    }
  }

  /** Sync is the controls kept as they were plus the expand/collapse part in sync. */
  lemma SyncFromParts(cfg: Config, st: State, st': State)
    requires InSync(cfg, st) && MoreLessInSync(st')
    requires forall h :: h !in MoreLess ==> (h in st'.reacts <==> h in st.reacts)
    ensures InSync(cfg, st')
  {
    forall g ensures g in st'.reacts <==> g in Controls(cfg) || g in Wanted(st') {
      if g in MoreLess {
        assert g !in Controls(cfg);
      } else {
        assert g !in Wanted(st') && g !in Wanted(st);
      }
    }
  }

  /** Events AllowOp rejects, or on other messages, make no call at all and change nothing. */
  lemma {:induction false} RejectedEventsAreSilent(cfg: Config, st: State, inputs: seq<Input>)
    requires forall i :: 0 <= i < |inputs| ==>
      !cfg.allowOp(inputs[i].evt) || inputs[i].evt.messageId != st.msgId
    ensures RunEvents(cfg, st, inputs) == Active(st, [])
    decreases |inputs|
  {
    if inputs != [] {
      RejectedEventsAreSilent(cfg, st, inputs[1..]);
    }
  }

  /** With a DelCallback installed no sequence of events crashes the widget. */
  lemma {:induction false} NoCrashWithDelCallback(cfg: Config, st: State, inputs: seq<Input>)
    ensures RunEvents(cfg, st, inputs).Crashed? ==> cfg.delCallback.None?
    decreases |inputs|
  {
    if inputs != [] {
      var o := OnReaction(cfg, st, inputs[0].evt, inputs[0].net);
      if o.Active? {
        NoCrashWithDelCallback(cfg, o.state, inputs[1..]);
      }
    }
  }

  /** Why run returned: invalid parameters, a failed send, or the caller context's error. */
  datatype RunError = Invalid(cause: ConfigError) | SendError | CallerErr(msg: string)

  /**
   * run's result: the error returned (None for nil), every call made and the
   * glyphs unreacted on the way out; or a panic that ends the process.
   */
  datatype RunResult =
    | Returned(err: Option<RunError>, effects: seq<Effect>, cleanup: set<Glyph>)
    | Panicked(effects: seq<Effect>)

  /**
   * run after validation. The events in `inputs` are those handled before
   * the widget's context ended; `callerErr` is the caller context's error at
   * that moment. If no delete ended the run, the widget's own deadline ended
   * it when the caller is live, the caller's context otherwise.
   */
  function RunConfig(v: Result<Config, ConfigError>, sentId: nat, startNet: Net,
                     inputs: seq<Input>, callerErr: Option<string>): (r: RunResult)
    ensures v.Err? ==> r == Returned(Some(Invalid(v.error)), [], {})
    ensures r.Panicked? ==> v.Ok? && v.value.delCallback.None?
    ensures r.Returned? && r.cleanup != {} ==> callerErr.None?
    ensures r.Returned? && v.Ok? && callerErr.Some? ==>
      r.cleanup == {} && (r.err == Some(SendError) || r.err == Some(CallerErr(callerErr.value)))
  {
    match v
    case Err(e) => Returned(Some(Invalid(e)), [], {})
    case Ok(cfg) =>
      match Start(cfg, sentId, startNet)
      case SendFailed(e0) => Returned(Some(SendError), e0, {})
      case Started(st, e0) =>
        match RunEvents(cfg, st, inputs)
        case Crashed(e1) =>
          NoCrashWithDelCallback(cfg, st, inputs);
          Panicked(e0 + e1)
        case Deleted(e1) =>
          var x := Finish(Canceled, callerErr, st);
          Returned(ErrOf(x.ret), e0 + e1, x.cleanup)
        case Active(st1, e1) =>
          var x := Finish(if callerErr.None? then DeadlineExceeded else Canceled, callerErr, st1);
          Returned(ErrOf(x.ret), e0 + e1, x.cleanup)
  }

  function ErrOf(ret: Option<string>): (r: Option<RunError>)
    ensures r.None? <==> ret.None?
    ensures ret.Some? ==> r == Some(CallerErr(ret.value))
  {
    match ret
    case None => None
    case Some(m) => Some(CallerErr(m))
  }

  /** run as written: validateAndUpdateParams, then the run itself. */
  function Run(p: Params, sentId: nat, startNet: Net, inputs: seq<Input>, callerErr: Option<string>): (r: RunResult)
    ensures r.Panicked? ==> !p.delBtn && p.delCallback.None?
    ensures Validate(p).Err? ==> r == Returned(Some(Invalid(Validate(p).error)), [], {})
  {
    RunConfig(Validate(p), sentId, startNet, inputs, callerErr)
  }

  /**
   * A run that times out with the caller live returns nil and unreacts
   * exactly the recorded glyphs; the page it ends on is in range, and when
   * every call succeeded the recorded glyphs are the controls shown.
   */
  lemma TimeoutCleansUp(cfg: Config, sentId: nat, startNet: Net, inputs: seq<Input>)
    requires ValidConfig(cfg)
    requires Start(cfg, sentId, startNet).Started?
    ensures var start := Start(cfg, sentId, startNet);
      var o := RunEvents(cfg, start.state, inputs);
      o.Active? ==>
        && RunConfig(Ok(cfg), sentId, startNet, inputs, None) == Returned(None, start.effects + o.effects, o.state.reacts)
        && Inv(cfg, o.state)
        && (AllSucceed(startNet) && (forall i :: 0 <= i < |inputs| ==> AllSucceed(inputs[i].net)) ==> InSync(cfg, o.state))
  {
    var start := Start(cfg, sentId, startNet);
    var o := RunEvents(cfg, start.state, inputs);
    if o.Active? {
      assert RunConfig(Ok(cfg), sentId, startNet, inputs, None) == Returned(None, start.effects + o.effects, o.state.reacts) by {
        assert Finish(DeadlineExceeded, None, o.state).cleanup == o.state.reacts;
      }
      RunEventsKeepsInv(cfg, start.state, inputs);
      if AllSucceed(startNet) && (forall i :: 0 <= i < |inputs| ==> AllSucceed(inputs[i].net)) {
        RunEventsKeepsSync(cfg, start.state, inputs);
      }
    }
  }

  /** A delete ends the run with nil when the caller is live, and with no cleanup. */
  lemma DeleteReturnsNil(cfg: Config, sentId: nat, startNet: Net, inputs: seq<Input>)
    requires Start(cfg, sentId, startNet).Started?
    requires RunEvents(cfg, Start(cfg, sentId, startNet).state, inputs).Deleted?
    ensures RunConfig(Ok(cfg), sentId, startNet, inputs, None).Returned?
    ensures RunConfig(Ok(cfg), sentId, startNet, inputs, None).err.None?
    ensures RunConfig(Ok(cfg), sentId, startNet, inputs, None).cleanup == {}
  {
  }

  // ---------------------------------------------------------------------
  // A nil DelCallback

  /**
   * A delete reaction is handled whether or not the widget has a delete
   * button, but validation installs a default DelCallback only with one: on
   * a widget without it, a user reacting with the delete symbol makes the
   * handler call a nil function after deleting the message.
   */
  lemma DeleteWithoutButtonPanics(p: Params, sentId: nat, startNet: Net, evt: ReactionAdd, net: Net, rest: seq<Input>)
    requires Validate(p).Ok? && !p.delBtn && p.delCallback.None?
    requires startNet(SendMsg(Validate(p).value.getPage(p.pageToShowFirst).default))
    requires evt.messageId == sentId && evt.emoji == Symbol(Delete)
    requires p.allowOp.None? || p.allowOp.value(evt)
    ensures Run(p, sentId, startNet, [Input(evt, net)] + rest, None) == Panicked(Start(Validate(p).value, sentId, startNet).effects + [DeleteMsg])
  {
    var cfg := Validate(p).value;
    var inputs := [Input(evt, net)] + rest;
    assert inputs[0] == Input(evt, net);
    GlyphOfSymbol(Delete);
    assert OnReaction(cfg, Start(cfg, sentId, startNet).state, evt, net) == Crashed([DeleteMsg]);
  }

  /** Validation as evidently intended: DelCallback defaults to a no-op regardless of DelBtn. */
  function ValidateIntended(p: Params): (r: Result<Config, ConfigError>)
    ensures r.Ok? <==> Validate(p).Ok?
    ensures r.Ok? ==> r.value.delCallback.Some?
    ensures r.Ok? ==> r.value == Validate(p).value.(delCallback := r.value.delCallback)
    ensures r.Ok? && (p.delBtn || p.delCallback.Some?) ==> r == Validate(p)
  {
    match Validate(p)
    case Err(e) => Err(e)
    case Ok(cfg) => Ok(cfg.(delCallback := Some(if p.delCallback.Some? then p.delCallback.value else NoOp)))
  }

  /** run with the intended validation never panics. */
  function RunIntended(p: Params, sentId: nat, startNet: Net, inputs: seq<Input>, callerErr: Option<string>): (r: RunResult)
    ensures !r.Panicked?
    ensures p.delBtn || p.delCallback.Some? ==> r == Run(p, sentId, startNet, inputs, callerErr)
  {
    RunConfig(ValidateIntended(p), sentId, startNet, inputs, callerErr)
  }
}

=== FILE: wrappers.dfy ===
/** Failure-compatible wrappers shared by every module of the model. */
module Wrappers {

  /** Go's nil-able pointers and optional callbacks. */
  datatype Option<+T> = None | Some(value: T)

  /** Go's `(value, error)` pairs: exactly one of the two is meaningful. */
  datatype Result<+T, +E> = Ok(value: T) | Err(error: E)
}
